=== FILE: README.md ===
# monitor-ai-bot core, modelled in Dafny

monitor-ai-bot is a plugin-based monitoring host. Its parts:

- The **bot host** loads plugins. It registers each plugin's HTTP API and stores the logs, metrics and alerts the plugins emit.
- The **workflow core** runs LogicFlow graphs of HTTP, extract and assert nodes in topological order.
- The **workflow-engine plugin** keeps workflow definitions and run instances.
- The **notification center** queues messages, passes them through a risk guard, and picks a channel by scene and preference. It renders a template and records the delivery history.
- The **React dashboard** and the shared UI hooks read these services.

This project models that core as pure Dafny functions and a few methods with loops. Each operation carries a contract saying what it promises. Lemmas relate operations to their inverses, to reference definitions, and to the invariants they keep.

Files and modules:

- `wrappers.dfy`, `strings.dfy`, `json.dfy`: `Option`/`Result`, text utilities and a serde_json-like value.
- `graph.dfy` (`LogicFlow`), `topo.dfy` (`Topo`), `workflow_core.dfy` (`WorkflowCore`): the executor.
- `workflow_engine.dfy` (`WorkflowEngine`): the plugin's service logic over its two tables.
- `nc_types.dfy`, `nc_db.dfy`, `nc_template.dfy`, `nc_risk.dfy`, `nc_channel.dfy`, `nc_mock_channels.dfy`, `nc_router.dfy`: the notification center.
- `storage.dfy`, `storage_init.dfy`, `db_config.dfy`, `bot_host.dfy`: storage and host.
- `registry.dfy`, `stable_sort.dfy`, `sidebar.dfy`, `layout.dfy`, `fetch.dfy`, `dashboard_home.dfy`, `form_url.dfy`, `hooks.dfy`, `workflow_client.dfy`, `workflow_management.dfy`, `workflow_editor.dfy`: the frontends.

Inputs that come from outside become parameters:

- clocks, uuids, random choices and channel availability;
- database failures, the file system and the environment;
- HTTP replies and a hash map's iteration order.

A database table is a Dafny value. A query is a function of it.

Behaviour worth knowing, as the code has it:

- `apply_vars` depends on the hash map's iteration order when braces occur in names, values or text (`WorkflowCore.ApplyVarsOrderMatters`). Under brace-freedom it equals the one-pass reference `Fill` (`WorkflowCore.ApplyVarsFill`).
- `topological_order` silently leaves out nodes on a cycle or behind an edge from an unknown id. It reports an error only when nothing at all can be emitted.
- `run_workflow` never sets an error, so every stored instance is a success (`WorkflowEngine.RunThenGetInstance`).
- `check_risk` stores the pruned list even when it refuses a request as too frequent.
- The workflow editor fetches definitions from `/plugin-api/workflow-engine/definitions`. The management page uses `/plugin-api/workflow-engine/workflow/definitions`.
- The management page's `API_BASE` uses `??`, so an empty setting does not fall back to the default. The hooks and the home page use `||`, so it does.

## Model

| member | source | states |
|---|---|---|
| WorkflowCore.ApplyVarsUntouched | workflow-core/src/lib.rs:176-183 | text that mentions no placeholder of any variable comes back unchanged, whatever the iteration order |
| WorkflowCore.ApplyVarsFill | workflow-core/src/lib.rs:176-183 | with brace-free names, values and text, sequential replacement equals the reference: every placeholder of a known variable becomes its value, unknown placeholders and other text stay |
| WorkflowCore.ApplyVarsOrderFree | workflow-core/src/lib.rs:176-183 | under the same brace-freedom, any two iteration orders of the variable map give the same text |
| WorkflowCore.ApplyVarsOrderMatters | workflow-core/src/lib.rs:176-183 | without brace-freedom the order shows: `{{{{a}}b}}` with a="" and b="x" gives "x" when a is replaced first and `{{b}}` when b is |
| Json.PathScalarKey | workflow-core/src/lib.rs:186-197 | a dot-free path is a single member lookup, giving the text of a string, number or boolean and nothing for other values |
| Json.PathScalarStep | workflow-core/src/lib.rs:186-197 | `a.rest` looks `a` up and follows `rest` inside the member found; a missing member ends the walk with nothing |
| Json.PathScalarFound | workflow-core/src/lib.rs:186-197 | whatever a path lookup returns is the text of the scalar reached by following the dot-separated keys |
| Json.UnescapeEscape | workflow-core/src/lib.rs:318-326 | the JSON string literal written for a non-string input reads back as the original string |
| WorkflowCore.IngestFieldsLookup | workflow-core/src/lib.rs:318-326 | with distinct member keys the variables are the input's members plus the previous ones, each holding its string verbatim or the JSON text of its value |
| WorkflowCore.PropStr | workflow-core/src/lib.rs:476-481 | a node property that is a string is returned; a missing or non-string property gives the default |
| WorkflowCore.ApplyHttp | workflow-core/src/lib.rs:527-544 | a failed request is an error; an answered one makes the parsed body the last response and adds `<id>_status` (the code) and `<id>_body` (the raw text), every other variable untouched |
| WorkflowCore.ExecuteExtract | workflow-core/src/lib.rs:547-580 | fails exactly when there is no last response, `path` or `var` is empty, or the path holds no scalar; otherwise sets only `var`, to the scalar found |
| WorkflowCore.ExecuteAssert | workflow-core/src/lib.rs:582-620 | never changes the context; fails exactly when there is no last response, no path, or the scalar found (empty text when none) differs from the expected text |
| WorkflowCore.AssertAbsentEquals | workflow-core/src/lib.rs:595-602 | with no `equals` and no scalar at the path, the assert fails comparing the empty text against "null" |
| WorkflowCore.Execute | workflow-core/src/lib.rs:341-356 | a node type other than http, extract and assert succeeds and leaves the context unchanged |
| WorkflowCore.RunNode | workflow-core/src/lib.rs:332-378 | the step carries the node id; it succeeds exactly when execution does; a failed step leaves the context as it was; only HTTP steps report a status |
| WorkflowCore.ParseU16Status | workflow-core/src/lib.rs:366-376 | a status code written as decimal text parses back as the same `u16` |
| WorkflowCore.HttpStepStatus | workflow-core/src/lib.rs:366-376 | a successful HTTP step reports the status code the server answered with |
| WorkflowCore.RunSteps | workflow-core/src/lib.rs:330-379 | one step per node, in the given order, with matching ids; success iff no error; unknown node types always succeed |
| WorkflowCore.AllOk | workflow-core/src/lib.rs:382 | true exactly when every step succeeded |
| WorkflowCore.RunOnce | workflow-core/src/lib.rs:313-419 | errors with "graph is empty or invalid" exactly when every node has an incoming edge; otherwise there is a valid, closed topological order whose execution, starting from the loaded input with no last response, gives exactly the reported steps and final variables; success holds iff every step succeeded, with "one or more steps failed" otherwise |
| Topo.FindNode | workflow-core/src/lib.rs:460 | finds a node exactly when its id is present, and the node found carries that id |
| Topo.InitIndegree | workflow-core/src/lib.rs:430-438 | every node gets an entry equal to the number of edges whose target it is |
| Topo.InitialQueue | workflow-core/src/lib.rs:440-444 | the queue holds graph nodes of in-degree zero and every such node |
| Topo.Release | workflow-core/src/lib.rs:455-466 | after the emitted node's outgoing edges are released, each in-degree counts the edges from nodes not yet emitted, and every node that reached zero is queued |
| Topo.KahnOrder | workflow-core/src/lib.rs:429-474 | the emission order holds graph nodes with distinct ids, each after all sources of its incoming edges, and leaves behind no node whose sources were all emitted |
| Topo.TopologicalOrder | workflow-core/src/lib.rs:429-474 | a non-empty valid, closed order, or the error "graph is empty or invalid" exactly when every node has an incoming edge |
| Topo.EmptyIff | workflow-core/src/lib.rs:469-471 | a valid closed order is empty exactly when every node has an incoming edge, the empty graph included |
| Topo.CycleNotEmitted | workflow-core/src/lib.rs:449-467 | no emitted node lies on a given cycle |
| Topo.CycleNodesOmitted | workflow-core/src/lib.rs:449-467 | every emitted node is off every cycle |
| Topo.UnknownSourceOmitted | workflow-core/src/lib.rs:430-438 | an edge into an emitted node always starts at a node of the graph, so a node fed by an unknown id is never emitted |
| Topo.AcyclicComplete | workflow-core/src/lib.rs:429-474 | on an acyclic graph whose edges start at nodes, every node id is emitted, and with unique ids every node exactly |
| WorkflowEngine.SaveDefinition | plugins/workflow-engine_system_plugin/src/lib.rs:324-369 | a database error changes nothing; with an id, that row's fields are overwritten if it exists and the id is returned either way; without one, a fresh id is returned for a new row |
| WorkflowEngine.ListDefinitions | plugins/workflow-engine_system_plugin/src/lib.rs:250-282 | readable definitions in strictly descending id order, each as stored; errors only on a database error |
| WorkflowEngine.ListDefinitionsComplete | plugins/workflow-engine_system_plugin/src/lib.rs:264-279 | a definition is listed exactly when its row exists and its text columns parse |
| WorkflowEngine.GetDefinition | plugins/workflow-engine_system_plugin/src/lib.rs:285-321 | a failed query is a database error; otherwise the stored definition iff the row exists and parses, NotFound exactly for a missing id |
| WorkflowEngine.SaveThenGet | plugins/workflow-engine_system_plugin/src/lib.rs:285-370 | a definition inserted by a save reads back with the request's name, description and graph and the save's time |
| WorkflowEngine.SimulateSteps | plugins/workflow-engine_system_plugin/src/lib.rs:403-414 | one "success"/"executed" step per node, carrying the node's id and type |
| WorkflowEngine.RunWorkflow | plugins/workflow-engine_system_plugin/src/lib.rs:372-453 | a failed lookup query is a database error, an unknown id NotFound, an unreadable graph Unreadable, a failed insert a database error, and none of these writes anything; otherwise one success instance with no error and one simulated step per graph node is stored under the next id, and the definitions are left alone |
| WorkflowEngine.RunThenGetInstance | plugins/workflow-engine_system_plugin/src/lib.rs:372-497 | the instance a run reports reads back as a success with no error, one executed step per node and the run's times; earlier instances read back unchanged |
| WorkflowEngine.GetInstance | plugins/workflow-engine_system_plugin/src/lib.rs:456-497 | a failed query is a database error; otherwise the stored instance exactly when the id exists, NotFound when it does not |
| WorkflowEngine.Title | plugins/workflow-engine_system_plugin/src/lib.rs:506-510 | a blank prompt gives the default title, otherwise the trimmed prompt |
| WorkflowEngine.AiGraphNodes | plugins/workflow-engine_system_plugin/src/lib.rs:512-540 | the generated nodes are start_1, api_1 and end_1, in that order, and the API node's text is "API 调用: " followed by the title |
| WorkflowEngine.AiGraphEdges | plugins/workflow-engine_system_plugin/src/lib.rs:541-554 | the generated edges run start_1 → api_1 → end_1 |
| WorkflowEngine.AiGenerateShape | plugins/workflow-engine_system_plugin/src/lib.rs:500-558 | for any prompt, the generated graph is that three-node chain labelled with the title |
| NotifyTypes.ChannelName | plugins/notification-center/src/types.rs:13-22 | every channel name is a non-empty lower-case word |
| NotifyTypes.ChannelNameRoundTrip | plugins/notification-center/src/types.rs:13-22 | parsing a channel's name gives the channel back, so names identify channels |
| NotifyTypes.StatusName | plugins/notification-center/src/types.rs:34-45 | every status name is a non-empty lower-case word |
| NotifyTypes.StatusNameInjective | plugins/notification-center/src/types.rs:34-45 | two statuses have the same name only when they are equal |
| NotifyTypes.DecodeSendRequest | plugins/notification-center/src/types.rs:47-54 | a body decodes exactly when it is an object whose `user_id` and `scene` are strings and whose `channel_hint` is absent, null or a string; a missing `vars` reads as null; the hint is the string given, or none when absent or null |
| NotifyTypes.SendRequestRoundTrip | plugins/notification-center/src/types.rs:47-54 | the derived serialization of a request (hint written as null when absent) deserializes back to the same request, hint included |
| NotifyTemplate.MatchPrefixSound | plugins/notification-center/src/template.rs:8 | whatever the scanner matches at the start is a whole `{{ key }}` placeholder with that key |
| NotifyTemplate.MatchPrefixComplete | plugins/notification-center/src/template.rs:8 | every placeholder at the start of the text is the one the scanner finds |
| NotifyTemplate.RenderPlain | plugins/notification-center/src/template.rs:6-16 | a template with no placeholder renders to itself |
| NotifyTemplate.RenderPlaceholder | plugins/notification-center/src/template.rs:6-16 | a leading placeholder becomes its lookup, or nothing when the lookup fails, and rendering continues after it |
| NotifyTemplate.RenderExpand | plugins/notification-center/src/template.rs:6-32 | rendering a template written as text and placeholders equals the reference expansion that replaces each slot by its dotted-path lookup |
| NotifyTemplate.SinglePass | plugins/notification-center/src/template.rs:6-16 | a placeholder renders to its value verbatim, even when the value is itself a placeholder: substituted text is not rendered again |
| RiskGuard.Reason | plugins/notification-center/src/risk_guard.rs:12-20 | every refusal has a non-empty reason text |
| RiskGuard.Recent | plugins/notification-center/src/risk_guard.rs:55 | keeps exactly the timestamps at most a minute old |
| RiskGuard.CheckRisk | plugins/notification-center/src/risk_guard.rs:23-65 | the blacklist is checked first, then quiet hours, neither touching the state; otherwise the pruned list refuses a sixth request in a minute and records an accepted one; other keys are untouched |
| RiskGuard.AcceptedTimes | plugins/notification-center/src/risk_guard.rs:43-62 | over any sequence of calls with a non-decreasing clock, the accepted times for a key are sorted and any six of them span more than a minute |
| NotifyDb.InsertWaiting | plugins/notification-center/src/db.rs:130-157 | adds a waiting row for a fresh message id; a duplicate id is a unique violation and a backend failure an error |
| NotifyDb.UpdateProcessing | plugins/notification-center/src/db.rs:159-177 | marks only that message processing and stamps the time; other rows are untouched |
| NotifyDb.FinalStamps | plugins/notification-center/src/db.rs:192-198 | a final update offers the sent, delivered or failed time exactly for that status |
| NotifyDb.Coalesce | plugins/notification-center/src/db.rs:208-210 | a stored timestamp wins over the offered one |
| NotifyDb.UpdateFinal | plugins/notification-center/src/db.rs:179-227 | overwrites status, channel, content, error and retries of that message only; a final timestamp is set to now only when it was unset and the status is its own; other rows untouched; fails only on a backend error |
| NotifyDb.StampsWriteOnce | plugins/notification-center/src/db.rs:179-227 | across any sequence of updates, the creation, waiting and final timestamps once written never change |
| NotifyDb.DecodeStatusInverse | plugins/notification-center/src/db.rs:258-266 | decoding undoes `as_str`; any unknown text decodes to failed |
| NotifyDb.GetHistory | plugins/notification-center/src/db.rs:229-274 | nothing for an unknown id, otherwise the stored row with its status decoded |
| NotifyDb.ReadBackWaiting | plugins/notification-center/src/db.rs:130-157 | a freshly inserted message reads back as waiting, with no channel, content or final timestamps |
| NotifyDb.BestTemplate | plugins/notification-center/src/db.rs:277-297 | picks an active template of the scene and channel with no higher version among the candidates, or none exactly when there is no candidate |
| NotifyDb.GetTemplate | plugins/notification-center/src/db.rs:277-297 | the content of such a highest-version template, or none exactly when no active one matches |
| NotifyDb.LatestPref | plugins/notification-center/src/db.rs:300-324 | picks the most recently updated preference of the user for the channel, or none exactly when there is none |
| NotifyDb.IsChannelEnabled | plugins/notification-center/src/db.rs:300-324 | a channel without a preference is enabled; otherwise the latest preference decides |
| NotifyChannel.ClassifyScene | plugins/notification-center/src/channel/mod.rs:23-36 | each category holds exactly when its substring rule is the first that matches |
| NotifyChannel.ClassifyFirstRuleWins | plugins/notification-center/src/channel/mod.rs:23-36 | "order_otp" is strong verification although it mentions an order |
| NotifyChannel.WithoutContents | plugins/notification-center/src/channel/mod.rs:62-65 | removing a channel drops exactly it and creates no repeat |
| NotifyChannel.RemoveFirstNoDup | plugins/notification-center/src/channel/mod.rs:62-65 | in a repeat-free list, removing the first occurrence removes every occurrence |
| NotifyChannel.PriorityChannels | plugins/notification-center/src/channel/mod.rs:39-70 | the scene's base list, with a valid hint moved to the front; no repeats and inbox always present |
| NotifyChannel.HintFirst | plugins/notification-center/src/channel/mod.rs:52-67 | a valid hint comes first, once, followed by the base list without it |
| NotifyChannel.SendWithFallback | plugins/notification-center/src/channel/mod.rs:73-146 | delivered iff some channel in priority order is enabled, up and sends, and then it is the first such; otherwise all channels failed; the channels sent through (each reporting its latency) are the tried ones up to and including the deliverer, or all tried ones on failure |
| MockChannels.Validate | plugins/notification-center/src/channel/dingtalk.rs:8-18 | a send succeeds iff user id and content are non-blank; the refusal names the first blank field |
| MockChannels.DingtalkSend | plugins/notification-center/src/channel/dingtalk.rs:7-35 | DingTalk succeeds iff user id and content are non-blank, with its own refusal texts |
| MockChannels.WecomSend | plugins/notification-center/src/channel/wecom.rs:7-34 | WeCom succeeds iff user id and content are non-blank, with its own refusal texts |
| MockChannels.UserIdFirst | plugins/notification-center/src/channel/dingtalk.rs:8-18 | when both are blank the user id is reported, and the two refusals differ |
| NotifyRouter.MessageId | plugins/notification-center/src/router.rs:60 | the id is "ntf_" followed by the uuid, so the uuid can be read back |
| NotifyRouter.ApiSend | plugins/notification-center/src/router.rs:55-108 | a database failure answers db_error and enqueues nothing; a failed enqueue answers queue_error after recording; otherwise the message is recorded and queued, and "notification_enqueue" is reported, on that path only |
| NotifyRouter.QueuedIsWaiting | plugins/notification-center/src/router.rs:55-108 | with a fresh id the send is not a db_error, and the message reads back as waiting, with no channel or content and no retries |
| NotifyRouter.TemplateVars | plugins/notification-center/src/router.rs:205-216 | null or object variables gain scene and user_id, every other member kept; other values pass through |
| NotifyRouter.TemplateFor | plugins/notification-center/src/router.rs:190-203 | the stored template for the scene and first priority channel, or the default template when none is found or the lookup fails |
| NotifyRouter.ProcessMessage | plugins/notification-center/src/router.rs:154-259 | a failed processing update changes nothing; otherwise only this message's row changes and the guard's state advances: a refused message is blocked on the inbox with the refusal's reason and no content, reporting "notification_blocked"; an accepted one records the fallback's status, channel and error with the rendered template, reporting one latency metric per channel sent through and then the metric of its status |
| NotifyRouter.AcceptedMetrics | plugins/notification-center/src/channel/mod.rs:119-122 | a delivered message's last two metrics are the delivering channel's latency and "notification_success"; a failed one reports every tried channel's latency, then "notification_failed" |
| NotifyRouter.BlockedSendsNothing | plugins/notification-center/src/router.rs:166-187 | a message the risk guard refuses is finalised the same whatever the channels would do |
| NotifyRouter.FailureIsAllChannels | plugins/notification-center/src/router.rs:221-239 | an accepted message is either delivered or recorded failed on the inbox with the error "all channels failed" |
| NotifyRouter.DefaultContent | plugins/notification-center/src/router.rs:198-218 | the default template renders as its fixed text around the message's scene, whatever the other variables are |
| Storage.DecodeLevel | storage/src/lib.rs:251-257 | a level name decodes to that level; any other text to Info |
| Storage.LevelRoundTrip | storage/src/lib.rs:245-266 | a level written as its name reads back as itself |
| Storage.DecodeSeverity | storage/src/lib.rs:308-313 | a severity name decodes to that severity; any other text to Info |
| Storage.SeverityRoundTrip | storage/src/lib.rs:302-324 | a severity written as its name reads back as itself |
| Storage.InsertLog | storage/src/lib.rs:89-103 | appends one log row with the level's name, other tables untouched; a database failure is that error and writes nothing |
| Storage.InsertMetric | storage/src/lib.rs:105-119 | appends one metric row, other tables untouched; a database failure is that error and writes nothing |
| Storage.InsertAlert | storage/src/lib.rs:153-169 | appends one alert row with the severity's name, other tables untouched; a database failure is that error and writes nothing |
| Storage.LimitCount | storage/src/lib.rs:126-127 | `LIMIT` passes min(limit, rows) rows, and every row for a negative limit |
| Storage.Newest | storage/src/lib.rs:126-127 | `ORDER BY id DESC LIMIT` returns the last rows, newest first |
| Storage.NewestAfterAppend | storage/src/lib.rs:126-127 | a new row comes first, ahead of what was newest before |
| Storage.LatestLogs | storage/src/lib.rs:121-135 | the newest log rows, newest first, each decoded; a database failure is that error |
| Storage.LatestMetrics | storage/src/lib.rs:137-151 | the newest metric rows, newest first, each decoded; a database failure is that error |
| Storage.LatestAlerts | storage/src/lib.rs:171-186 | the newest alert rows, newest first, each decoded; a database failure is that error |
| Storage.LogReadBack | storage/src/lib.rs:89-103 | a log written and read back is the same event without its extra fields |
| Storage.MetricReadBack | storage/src/lib.rs:276-290 | a metric written and read back is the same metric without its labels |
| Storage.AlertReadBack | storage/src/lib.rs:302-324 | an alert written and read back is the same alert without its tags |
| Storage.Upsert | storage/src/lib.rs:188-212 | updates the plugin's row in place or appends it; other plugins' rows are untouched |
| Storage.UpsertBaseUrl | storage/src/lib.rs:188-212 | afterwards the plugin reads the new URL and every other plugin its old one |
| Storage.UpsertUnique | storage/src/lib.rs:188-212 | an upsert keeps one row per plugin |
| Storage.UpsertPluginApi | storage/src/lib.rs:188-213 | the API table becomes the upsert of the plugin's URL and nothing else changes; a database failure is that error and writes nothing |
| Storage.LastUpsertWins | storage/src/lib.rs:188-212 | of two upserts for one plugin, the later URL is read |
| Storage.GetAllPluginApis | storage/src/lib.rs:215-231 | one (plugin, base URL) pair per row, in table order; a database failure is that error |
| Storage.GetAllExact | storage/src/lib.rs:215-231 | under the primary key, a pair is listed exactly when the table holds that URL for that plugin |
| Storage.BaseUrlUnique | storage/src/lib.rs:188-231 | under the primary key, any row of a plugin is the one read |
| StorageInit.ScriptPath | storage/src/init.rs:5-9 | postgres and mysql get their own scripts; every other type the SQLite one |
| StorageInit.Statements | storage/src/init.rs:15-19 | exactly the non-blank `;`-separated pieces of the script |
| StorageInit.StatementsOfJoin | storage/src/init.rs:15-19 | statements joined by `;` are read back as the same statements |
| StorageInit.TrailingSeparator | storage/src/init.rs:15-19 | a final `;` followed by blank text adds no statement |
| StorageInit.RunStatements | storage/src/init.rs:15-19 | runs a prefix of the statements; stops at the first failure, reporting its error; succeeds iff all ran without failure |
| StorageInit.InitSchemaRunsAll | storage/src/init.rs:1-21 | with no failure every statement of the chosen script runs once, in order |
| StorageInit.InitSchemaStopsAtFailure | storage/src/init.rs:1-21 | a failing statement is the last one attempted |
| DbConfig.FromArgs | storage/src/db_config.rs:10-23 | each setting comes from the argument, else the environment, else the default |
| DbConfig.Independent | storage/src/db_config.rs:10-23 | the type and the URL are resolved independently |
| DbConfig.ArgumentsWin | storage/src/db_config.rs:10-23 | explicit arguments hide the environment entirely |
| BotHost.LoadConfig | bot-host/src/main.rs:154-172 | a missing or unparsable file gives the empty configuration; otherwise the parsed one |
| BotHost.PluginDir | bot-host/src/main.rs:174-187 | prod and release use the production directory, anything else the development one, each with its default |
| BotHost.Resolve | bot-host/src/main.rs:73-89 | mode from the environment or configuration, then directory, pattern and interval from configuration or defaults |
| BotHost.DefaultSettings | bot-host/src/main.rs:73-89 | with no override and no file the host runs dev, target/debug, `_monitor`, every 5 seconds |
| BotHost.PluginExt | bot-host/src/main.rs:189-197 | dll on Windows, dylib on macOS, so elsewhere |
| BotHost.Discover | bot-host/src/main.rs:201-235 | an unreadable directory yields nothing; otherwise the readable files with the extension, in listing order |
| BotHost.ExtensionCase | bot-host/src/main.rs:220-224 | the extension test ignores ASCII case |
| BotHost.BaseUrl | bot-host/src/main.rs:285-286 | the URL is the host, the port's digits, then the prefix or "/" |
| BotHost.BaseUrlIdentifies | bot-host/src/main.rs:285-286 | when prefixes do not start with a digit, equal URLs mean equal port and prefix |
| BotHost.Register | bot-host/src/main.rs:288-305 | a plugin already registered, or without an API, changes nothing; otherwise it is upserted, and marked registered only if the upsert succeeded, a failed upsert leaving the store as it was |
| BotHost.RegisterAll | bot-host/src/main.rs:288-305 | over any rounds, each plugin is upserted once, with the URL of its first successful recording, and the others keep their stored URL |
| BotHost.FirstRegistrationSticks | bot-host/src/main.rs:288-305 | a plugin that changes its port after registering is not upserted again |
| BotHost.FailedUpsertRetried | bot-host/src/main.rs:288-305 | a failed upsert leaves the plugin unregistered, so the next round upserts it |
| BotHost.HostLevel | bot-host/src/main.rs:369-374 | each plugin level maps to the host level of the same rank |
| BotHost.LevelBijection | bot-host/src/main.rs:369-374 | the level mapping and its inverse undo each other |
| PluginRegistry.Register | dashboard-frontend-react/src/plugins/registry.ts:12-19 | a known id leaves the list as it was and warns; a new plugin is appended; ids stay unique and the first plugin per id stays |
| PluginRegistry.FirstRegistrationWins | dashboard-frontend-react/src/plugins/registry.ts:12-19 | after registering any sequence, each id maps to its first plugin in that sequence |
| PluginRegistry.GetPlugins | dashboard-frontend-react/src/plugins/registry.ts:25-27 | a permutation sorted by `order ?? 99`, ties kept in registration order |
| PluginRegistry.GetPluginsStable | dashboard-frontend-react/src/plugins/plugin-registry.ts:14-16 | two plugins with the same order keep their relative order |
| StableSort.Sort | dashboard-frontend-react/src/plugins/registry.ts:25-27 | sorted by key, a permutation, and each key's elements in their original order |
| StableSort.StableTies | dashboard-frontend-react/src/plugins/registry.ts:25-27 | two elements with equal keys keep their relative order |
| Sidebar.FindSection | dashboard-frontend-react/src/layout/Sidebar.tsx:54 | the first section whose id equals the category, or none exactly when no id does |
| Sidebar.Attach | dashboard-frontend-react/src/layout/Sidebar.tsx:53-62 | sections keep ids and titles; only the matched section gains the plugin's item, at its end |
| Sidebar.BuildShape | dashboard-frontend-react/src/layout/Sidebar.tsx:48-65 | each section holds its own items followed by the items of the plugins it matches, in plugin order |
| Sidebar.SidebarContents | dashboard-frontend-react/src/layout/Sidebar.tsx:15-65 | the five base sections in order, each with its fixed items then its plugins' items in sorted order |
| Sidebar.PluginPlaced | dashboard-frontend-react/src/layout/Sidebar.tsx:53-62 | every plugin whose category names a section appears in that section |
| Layout.Segments | dashboard-frontend-react/src/layout/DashboardLayout.tsx:14 | the non-empty, slash-free pieces of the path |
| Layout.Current | dashboard-frontend-react/src/layout/DashboardLayout.tsx:15 | "overview" when the path has no segment, else its last segment |
| Layout.RootIsOverview | dashboard-frontend-react/src/layout/DashboardLayout.tsx:15 | "/" and "" both show "overview" |
| Layout.TrailingSlashIgnored | dashboard-frontend-react/src/layout/DashboardLayout.tsx:14-15 | a trailing slash does not change the breadcrumb |
| Layout.LeadingSlashIgnored | dashboard-frontend-react/src/layout/DashboardLayout.tsx:14 | a leading slash adds no segment |
| Layout.RepeatedSlashIgnored | dashboard-frontend-react/src/layout/DashboardLayout.tsx:14-15 | a doubled slash does not change the breadcrumb |
| Layout.LastNameShown | dashboard-frontend-react/src/layout/DashboardLayout.tsx:15-26 | a path ending in a slash-free name shows that name |
| Layout.Toggle | dashboard-frontend-react/src/layout/DashboardLayout.tsx:12 | the collapsed flag flips; the path and breadcrumb stay |
| Fetch.ApiBase | dashboard-frontend-react/src/pages/DashboardHome.tsx:11-12 | an absent or empty base falls back to the default; any other base is used as it is |
| Fetch.ErrorText | dashboard-frontend-react/src/pages/DashboardHome.tsx:24-31 | "HTTP <status>" for a non-ok reply, else the error's message, else the default text; never empty |
| Fetch.HttpTextIdentifiesStatus | dashboard-frontend-react/src/pages/DashboardHome.tsx:24-26 | distinct statuses give distinct messages |
| DashboardHome.Matches | dashboard-frontend-react/src/pages/DashboardHome.tsx:45 | keeps exactly the metrics of the plugin and name, each as often as it occurs |
| DashboardHome.MatchesAppend | dashboard-frontend-react/src/pages/DashboardHome.tsx:45 | filtering keeps list order: a concatenation filters part by part |
| DashboardHome.Ordered | dashboard-frontend-react/src/pages/DashboardHome.tsx:43-49 | those metrics, as a permutation, in ascending time, with metrics of equal time in their list order, as the stable `sort` keeps them |
| DashboardHome.ToSeries | dashboard-frontend-react/src/pages/DashboardHome.tsx:43-50 | one point per ordered metric, carrying its time and value |
| DashboardHome.SeriesMeaning | dashboard-frontend-react/src/pages/DashboardHome.tsx:43-50 | one point per matching metric, in ascending time, each from a metric of that series |
| DashboardHome.FetchMetrics | dashboard-frontend-react/src/pages/DashboardHome.tsx:19-35 | loading with no error while pending; afterwards not loading, and either the new list or the old one with the error text |
| DashboardHome.FailuresKeepMetrics | dashboard-frontend-react/src/pages/DashboardHome.tsx:19-41 | after any run of failed polls the last good list is still shown, with an error |
| FormUrl.QueryRoundTrip | clients/ui/hooks/useMetrics.ts:24-29 | splitting a written query at `&` and then at the first `=` gives every pair back, encoded, in order |
| FormUrl.NumberUnchanged | clients/ui/hooks/useAlerts.ts:24 | a decimal number is written into a query as it is |
| FetchHooks.MetricPairs | clients/ui/hooks/useMetrics.ts:24-27 | name, plugin and limit appear exactly when truthy, each once, with the limit as decimal text |
| FetchHooks.MetricsUrlParts | clients/ui/hooks/useMetrics.ts:23-29 | the URL is the base, `/metrics?`, and a query reading back as the truthy parameters |
| FetchHooks.LimitInUrlIffTruthy | clients/ui/hooks/useMetrics.ts:27-29 | the URL carries a limit exactly when the limit is truthy |
| FetchHooks.NamesWrittenAsIs | clients/ui/hooks/useMetrics.ts:25-27 | the parameter names need no encoding |
| FetchHooks.AlertsUrl | clients/ui/hooks/useAlerts.ts:14-26 | the URL always carries `limit`, 20 when none is given |
| FetchHooks.Start | clients/ui/hooks/useMetrics.ts:31-33 | a new run is loading with no error, data kept, and is the only live run |
| FetchHooks.Settle | clients/ui/hooks/useMetrics.ts:35-48 | a reply for a cancelled run changes nothing; a live one ends loading and sets the data or the error text |
| FetchHooks.Cleanup | clients/ui/hooks/useMetrics.ts:50-52 | afterwards no run is live, and data, loading and error are unchanged |
| FetchHooks.StaleReplyIgnored | clients/ui/hooks/useMetrics.ts:31-53 | after a dependency change, a reply for any earlier run changes nothing |
| FetchHooks.UnmountedIgnoresReplies | clients/ui/hooks/useMetrics.ts:50-52 | after unmounting no reply changes anything |
| FetchHooks.CurrentFailureShown | clients/ui/hooks/useMetrics.ts:35-45 | the current run's non-ok reply shows "HTTP <status>" and keeps the data |
| FetchHooks.Replay | clients/ui/hooks/useMetrics.ts:22-53 | over any sequence of dependency changes, replies and unmounts, at most the newest run is live |
| FetchHooks.UnmountIsFinal | clients/ui/hooks/useMetrics.ts:50-52 | once unmounted, however many replies arrive, the state stays as the unmount left it |
| WorkflowManagement.ApiBase | dashboard-frontend-react/src/pages/WorkflowManagement.tsx:28 | an absent setting gives the default; any given one, even empty, is used |
| WorkflowManagement.LoadDefinitions | dashboard-frontend-react/src/pages/WorkflowManagement.tsx:42-46 | the list becomes the reply; a failure leaves it as it was |
| WorkflowManagement.Select | dashboard-frontend-react/src/pages/WorkflowManagement.tsx:53-59 | the definition is opened, a missing description reads empty, the run result is cleared |
| WorkflowManagement.New | dashboard-frontend-react/src/pages/WorkflowManagement.tsx:62-68 | an unsaved, untitled, empty workflow |
| WorkflowManagement.Save | dashboard-frontend-react/src/pages/WorkflowManagement.tsx:71-96 | no graph does nothing; otherwise posts the body, adopts the returned id, reloads the list, alerts success only when both succeed; the document is unchanged |
| WorkflowManagement.SaveSelectedUpdates | dashboard-frontend-react/src/pages/WorkflowManagement.tsx:53-96 | saving an opened definition posts its own id and graph |
| WorkflowManagement.SaveNewInserts | dashboard-frontend-react/src/pages/WorkflowManagement.tsx:62-96 | saving a new workflow posts no id, the untitled name and the empty graph |
| WorkflowManagement.NewCannotRun | dashboard-frontend-react/src/pages/WorkflowManagement.tsx:99-103 | a new workflow's run button is disabled and the handler only alerts |
| WorkflowManagement.SavedCanRun | dashboard-frontend-react/src/pages/WorkflowManagement.tsx:213 | after a save that returns a non-zero id, the run button is enabled unless a run is under way |
| WorkflowClient.SaveBody | dashboard-frontend-react/src/pages/WorkflowManagement.tsx:75-80 | the body's id is the current id or null, the name falls back to the untitled one, an empty description is null, and the graph is sent as it is |
| WorkflowClient.Run | dashboard-frontend-react/src/pages/WorkflowManagement.tsx:99-127 | without an id it only alerts; otherwise it posts the run, and shows the instance it fetches iff both replies succeed and the instance is not null, else alerts |
| WorkflowClient.WithSteps | dashboard-frontend-react/src/pages/WorkflowManagement.tsx:119-120 | the instance's members with `steps` replaced by the normalised array |
| WorkflowClient.StepsOf | dashboard-frontend-react/src/pages/WorkflowManagement.tsx:119 | the instance's steps when they are an array, else an empty array |
| WorkflowClient.AiGenerate | dashboard-frontend-react/src/pages/WorkflowManagement.tsx:130-146 | posts the prompt; a non-null reply sets the graph to its `lf_json`, a failure alerts and changes nothing |
| WorkflowEditor.OnWorkflowId | clients/ui/workflow-designer/WorkflowEditor.tsx:55-80 | the id follows the property; a truthy id starts a load of that definition, a missing or zero one resets to an untitled empty workflow |
| WorkflowEditor.FinishLoad | clients/ui/workflow-designer/WorkflowEditor.tsx:61-72 | success replaces name, description and graph and drops the run result; failure alerts; loading ends either way |
| WorkflowEditor.StaleLoadApplied | clients/ui/workflow-designer/WorkflowEditor.tsx:55-80 | a load answered after a switch to another id shows the old definition under the new id |
| WorkflowEditor.ZeroIdResets | clients/ui/workflow-designer/WorkflowEditor.tsx:58-79 | an id of zero resets and requests nothing |
| WorkflowEditor.Save | clients/ui/workflow-designer/WorkflowEditor.tsx:83-108 | no graph does nothing; otherwise posts the body, adopts the returned id and notifies the parent once, or alerts the failure |
| WorkflowEditor.EnabledSaveSends | clients/ui/workflow-designer/WorkflowEditor.tsx:190 | an enabled save button always sends exactly one request |
| WorkflowEditor.AiWithoutGraphBlocksSave | clients/ui/workflow-designer/WorkflowEditor.tsx:140-156 | an AI reply without `lf_json` leaves no graph, which disables saving |

## Left out

- Async runtime, threads, channels, the notification worker queue and its delay (notification-center router.rs 137-152): concurrency is not modelled; `process_message` is one call per message, and the worker's "notification_process_duration_ms" metric (router.rs 148-150), a clock reading, is not reported.
- `api_get_message` (router.rs 110-133): a thin wrapper over `get_history`, which is modelled.
- Building and sending HTTP requests in `execute_http_node` (method, headers, body templating through the network client): the request's outcome is a parameter; only its effect on the context is modelled.
- Clock readings (`started_at`, `finished_at`, latency), uuids and random channel availability: they are parameters, and step timings are not recorded. Reported metrics are kept as their names in order; their values (1.0 or a latency) are left out.
- RFC 3339 text of timestamps and `timestamp_ms_to_datetime` (bot-host main.rs 438-443): times are integers.
- Floating point: metric values are carried as opaque numbers and never computed on, and JSON numbers are integers, so float formatting in `to_string` is not modelled.
- Plugin loading through the C interface, `plugin_run`, the log and metric bridges beyond the level mapping (bot-host main.rs 247-348, 400-427): foreign calls.
- The host's storage worker, main loop and sleep (bot-host main.rs 105-124, 138-141): I/O and timing.
- The default of `MONITOR_AI_DB_URL` (bot-host main.rs 99-100) and `create_pool` (db_config.rs 26-28): connection set-up.
- DDL in `init_schema` (storage lib.rs 25-87): table creation has no observable result beyond the tables the model already has.
- Panics: a missing configuration or schema file (`expect`) and `unwrap` on stored times are left out; the model takes the file contents as given.
- The final status update's database error in `process_message` is ignored by the code, so only its success is modelled.
- React rendering, JSX markup, styles and the DashboardHome 5-second timer with overlapping fetches: only state transitions are modelled; successive polls are handled one at a time.
- TypeScript casts (`as Metric[]`, `as { id: number }`): a reply is trusted to have the cast shape, or is an error.
- WorkflowCore.RunSteps: the code keeps step results in a `HashMap`, so the order of the summary's steps is unspecified; the model lists them in execution order.
- WorkflowCore.ApplyVarsFill: proved only when names, values and literal text are brace-free; with braces the result depends on the iteration order, which `ApplyVarsOrderMatters` exhibits.
- NotifyDb.BestTemplate: with two active templates of the same highest version the database may return either; the model takes the first.
- Sidebar.BuildShape: `category`, `title` and `route` are not declared by the plugin type, so they are optional here.

=== FILE: bot_host.dfy ===
/** The plugin host's decisions: where plugins are looked for and how often
    they run, which files count as plugins, the base URL a plugin's API is
    registered under and the once-per-process registration guard, and the
    plugin-to-host log level mapping. Loading libraries, calling into them
    and the scheduling loop are left out; the environment, the configuration
    file, the directory listing and the database's answers are parameters. */
module BotHost {
  import opened Wrappers
  import Strings
  import Storage

  // --------------------------------------------------------------- settings

  datatype PluginConfig = PluginConfig(mode: Option<string>, devDir: Option<string>, prodDir: Option<string>,
                                       namePattern: Option<string>, defaultInterval: Option<nat>)

  datatype AppConfig = AppConfig(plugin: Option<PluginConfig>)

  const NoPluginConfig: PluginConfig := PluginConfig(None, None, None, None, None)

  /** `load_config`: the parsed `config.toml`, or the empty configuration
      when the file is missing or does not parse. */
  function LoadConfig(file: Option<string>, parse: string -> Option<AppConfig>): (c: AppConfig)
    ensures file.None? ==> c == AppConfig(None)
    ensures file.Some? && parse(file.value).None? ==> c == AppConfig(None)
    ensures file.Some? && parse(file.value).Some? ==> c == parse(file.value).value
  {
    match file
    case None => AppConfig(None)
    case Some(text) => parse(text).GetOr(AppConfig(None))
  }

  datatype Settings = Settings(mode: string, dir: string, namePattern: string, interval: nat)

  /** `resolve_plugin_dir`: the production directory for "prod" and
      "release", the development one for any other mode. */
  function PluginDir(mode: string, cfg: PluginConfig): (dir: string)
    ensures mode in {"prod", "release"} ==> dir == cfg.prodDir.GetOr("plugins-bin")
    ensures mode !in {"prod", "release"} ==> dir == cfg.devDir.GetOr("target/debug")
  {
    if mode == "prod" || mode == "release" then cfg.prodDir.GetOr("plugins-bin")
    else cfg.devDir.GetOr("target/debug")
  }

  /** The start-up settings: the mode from `MONITOR_AI_PLUGIN_MODE`, else the
      configuration, else "dev"; the directory that mode selects; the name
      pattern (only ever logged) defaulting to "_monitor"; and the interval
      between rounds defaulting to 5 seconds. */
  function Resolve(env: string -> Option<string>, app: AppConfig): (s: Settings)
    ensures var cfg := app.plugin.GetOr(NoPluginConfig);
            (env("MONITOR_AI_PLUGIN_MODE").Some? ==> s.mode == env("MONITOR_AI_PLUGIN_MODE").value)
            && (env("MONITOR_AI_PLUGIN_MODE").None? && cfg.mode.Some? ==> s.mode == cfg.mode.value)
            && (env("MONITOR_AI_PLUGIN_MODE").None? && cfg.mode.None? ==> s.mode == "dev")
            && s.dir == PluginDir(s.mode, cfg)
            && (cfg.namePattern.None? ==> s.namePattern == "_monitor")
            && (cfg.namePattern.Some? ==> s.namePattern == cfg.namePattern.value)
            && (cfg.defaultInterval.None? ==> s.interval == 5)
            && (cfg.defaultInterval.Some? ==> s.interval == cfg.defaultInterval.value)
  {
    var cfg := app.plugin.GetOr(NoPluginConfig);
    var mode := env("MONITOR_AI_PLUGIN_MODE").OrElse(cfg.mode).GetOr("dev");
    Settings(mode, PluginDir(mode, cfg), cfg.namePattern.GetOr("_monitor"), cfg.defaultInterval.GetOr(5))
  }

  /** With no environment override and no configuration file, the host runs
      in development mode from `target/debug` every 5 seconds. */
  lemma DefaultSettings(env: string -> Option<string>, parse: string -> Option<AppConfig>)
    requires env("MONITOR_AI_PLUGIN_MODE").None?
    ensures Resolve(env, LoadConfig(None, parse)) == Settings("dev", "target/debug", "_monitor", 5)
  {
  }

  // -------------------------------------------------------------- discovery

  /** The shared-library extension of the target system. */
  function PluginExt(os: string): (ext: string)
    ensures os == "windows" ==> ext == "dll"
    ensures os == "macos" ==> ext == "dylib"
    ensures os !in {"windows", "macos"} ==> ext == "so"
  {
    if os == "windows" then "dll" else if os == "macos" then "dylib" else "so"
  }

  /** A directory entry: its path, whether it is a regular file, and its
      extension when it has one that is valid UTF-8. */
  datatype Entry = Entry(path: string, isFile: bool, ext: Option<string>)

  /** An entry is a plugin when it is a file whose extension equals `ext`
      ignoring ASCII case. The name is not looked at. */
  predicate IsPlugin(e: Entry, ext: string) {
    e.isFile && e.ext.Some? && Strings.EqIgnoreAsciiCase(e.ext.value, ext)
  }

  /** The plugin paths among the readable entries, in listing order. */
  function Kept(entries: seq<Result<Entry, string>>, ext: string): (r: seq<string>)
    ensures |r| <= |entries|
    ensures forall p :: p in r <==>
              exists i :: 0 <= i < |entries| && entries[i].Ok? && IsPlugin(entries[i].value, ext)
                          && entries[i].value.path == p
  {
    if entries == [] then []
    else
      var rest := Kept(entries[1..], ext);
      assert forall i :: 1 <= i < |entries| ==> entries[i] == entries[1..][i - 1];
      var head := if entries[0].Ok? && IsPlugin(entries[0].value, ext) then [entries[0].value.path] else [];
      assert forall p :: p in head <==> entries[0].Ok? && IsPlugin(entries[0].value, ext) && entries[0].value.path == p;
      head + rest
  }

  /** `discover_plugins`: an unreadable directory yields nothing, unreadable
      entries are skipped. */
  function Discover(listing: Result<seq<Result<Entry, string>>, string>, ext: string): (r: seq<string>)
    ensures listing.Err? ==> r == []
    ensures listing.Ok? ==> r == Kept(listing.value, ext)
  {
    match listing
    case Err(_) => []
    case Ok(entries) => Kept(entries, ext)
  }

  lemma {:induction false} KeptAppend(a: seq<Result<Entry, string>>, b: seq<Result<Entry, string>>, ext: string)
    ensures Kept(a + b, ext) == Kept(a, ext) + Kept(b, ext)
  {
    if a != [] {
      assert (a + b)[1..] == a[1..] + b;
      KeptAppend(a[1..], b, ext);
    } else {
      assert a + b == b;
    }
  }

  /** The extension test ignores ASCII case: `libx.SO` is a plugin on Linux. */
  lemma ExtensionCase(path: string)
    ensures IsPlugin(Entry(path, true, Some("SO")), PluginExt("linux"))
  {
    assert Strings.AsciiLower('S') == 's' && Strings.AsciiLower('O') == 'o';
  }

  // ------------------------------------------------------- API registration

  /** A plugin's exported API description: its port and, when the prefix is a
      valid string, the prefix. */
  datatype ApiInfo = ApiInfo(port: Port, prefix: Option<string>)

  /** A `u16` port number. */
  type Port = p: nat | p < 0x1_0000

  const UrlHead: string := "http://127.0.0.1:"

  /** The base URL a plugin's API is registered under: host, port, then the
      prefix, which defaults to "/". */
  function BaseUrl(info: ApiInfo): (u: string)
    ensures |u| > |UrlHead| && u[..|UrlHead|] == UrlHead
    ensures u[|UrlHead|..] == Strings.NatToString(info.port) + info.prefix.GetOr("/")
  {
    UrlHead + Strings.NatToString(info.port) + info.prefix.GetOr("/")
  }

  predicate DigitFree(s: string) {
    s == [] || !Strings.IsDigit(s[0])
  }

  /** The length of the run of digits `s` starts with. */
  function DigitRun(s: string): (n: nat)
    ensures n <= |s|
  {
    if s == [] || !Strings.IsDigit(s[0]) then 0 else 1 + DigitRun(s[1..])
  }

  lemma {:induction false} DigitRunOf(d: string, r: string)
    requires forall i :: 0 <= i < |d| ==> Strings.IsDigit(d[i])
    requires DigitFree(r)
    ensures DigitRun(d + r) == |d|
  {
    if d == [] {
      assert d + r == r;
    } else {
      assert (d + r)[1..] == d[1..] + r;
      DigitRunOf(d[1..], r);
    }
  }

  /** The digits of a number followed by text that does not start with a digit
      can be split back apart. */
  lemma DigitsThenRest(n1: nat, r1: string, n2: nat, r2: string)
    requires DigitFree(r1) && DigitFree(r2)
    requires Strings.NatToString(n1) + r1 == Strings.NatToString(n2) + r2
    ensures n1 == n2 && r1 == r2
  {
    var d1, d2 := Strings.NatToString(n1), Strings.NatToString(n2);
    var s := d1 + r1;
    DigitRunOf(d1, r1);
    DigitRunOf(d2, r2);
    assert d1 == s[..|d1|] == d2;
    Strings.NatToStringInjective(n1, n2);
    assert r1 == s[|d1|..] == r2;
  }

  /** The registered URL identifies the plugin's port and prefix, as long as
      the prefix does not start with a digit (the default "/" does not). */
  lemma BaseUrlIdentifies(a: ApiInfo, b: ApiInfo)
    requires DigitFree(a.prefix.GetOr("/")) && DigitFree(b.prefix.GetOr("/"))
    requires BaseUrl(a) == BaseUrl(b)
    ensures a.port == b.port && a.prefix.GetOr("/") == b.prefix.GetOr("/")
  {
    assert BaseUrl(a)[|UrlHead|..] == BaseUrl(b)[|UrlHead|..];
    DigitsThenRest(a.port, a.prefix.GetOr("/"), b.port, b.prefix.GetOr("/"));
  }

  /** One plugin execution as registration sees it: the plugin's name, its API
      description if it exports one, the database's failure on the upsert if
      it fails, and the clock. */
  datatype Run = Run(name: string, info: Option<ApiInfo>, upsertError: Option<string>, now: int)

  /** The run records the plugin's API: it exports one and the upsert succeeds. */
  predicate Records(r: Run) {
    r.info.Some? && r.upsertError.None?
  }

  /** The API description of the first run that records plugin `x`. */
  function FirstRecord(runs: seq<Run>, x: string): (r: Option<ApiInfo>)
    ensures r.Some? <==> exists i :: 0 <= i < |runs| && runs[i].name == x && Records(runs[i])
    decreases |runs|
  {
    if runs == [] then None
    else
      var prev := runs[..|runs| - 1];
      var last := runs[|runs| - 1];
      assert forall i :: 0 <= i < |prev| ==> prev[i] == runs[i];
      FirstRecord(prev, x).OrElse(if last.name == x && Records(last) then last.info else None)
  }

  /** The registration step of one plugin execution: a plugin whose name is not
      yet registered and that exports an API is upserted, and enters the
      registered set only when the upsert succeeds. */
  function Register(reg: set<string>, st: Storage.Store, r: Run): (out: (set<string>, Storage.Store))
    ensures r.name in reg || !Records(r) ==> out == (reg, st)
    ensures r.name !in reg && Records(r) ==>
              out == (reg + {r.name}, Storage.UpsertPluginApi(st, r.name, BaseUrl(r.info.value), r.now, None).value)
  {
    if r.info.None? || r.name in reg then (reg, st)
    else match Storage.UpsertPluginApi(st, r.name, BaseUrl(r.info.value), r.now, r.upsertError)
      case Err(_) => (reg, st)
      case Ok(st') => (reg + {r.name}, st')
  }

  predicate NoDup(s: seq<string>) {
    forall i, j :: 0 <= i < j < |s| ==> s[i] != s[j]
  }

  /** What registration has established after `runs`: the names upserted,
      each once, are the registered set and exactly the plugins some run
      records; each holds the URL of its first record; the rest of the table
      is as it was in `st0`. */
  ghost predicate RegInv(reg: set<string>, st: Storage.Store, upserted: seq<string>, st0: Storage.Store,
                         runs: seq<Run>) {
    NoDup(upserted)
    && (forall x :: x in reg <==> x in upserted)
    && (forall x :: x in upserted <==> FirstRecord(runs, x).Some?)
    && (forall x :: FirstRecord(runs, x).Some? ==>
          Storage.BaseUrlOf(st.apis, x) == Some(BaseUrl(FirstRecord(runs, x).value)))
    && (forall x :: FirstRecord(runs, x).None? ==> Storage.BaseUrlOf(st.apis, x) == Storage.BaseUrlOf(st0.apis, x))
  }

  lemma FirstRecordSnoc(runs: seq<Run>, r: Run, x: string)
    ensures FirstRecord(runs + [r], x)
            == FirstRecord(runs, x).OrElse(if r.name == x && Records(r) then r.info else None)
  {
    assert (runs + [r])[..|runs|] == runs;
  }

  /** One more run keeps what registration has established. */
  lemma RegisterStep(reg: set<string>, st: Storage.Store, upserted: seq<string>, st0: Storage.Store,
                     runs: seq<Run>, r: Run)
    requires RegInv(reg, st, upserted, st0, runs)
    ensures var out := Register(reg, st, r);
            RegInv(out.0, out.1, if r.name !in reg && Records(r) then upserted + [r.name] else upserted,
                   st0, runs + [r])
  {
    forall x ensures FirstRecord(runs + [r], x)
                     == FirstRecord(runs, x).OrElse(if r.name == x && Records(r) then r.info else None) {
      FirstRecordSnoc(runs, r, x);
    }
    if r.name !in reg && Records(r) {
      RegisterNew(reg, st, upserted, st0, runs, r);
    } else {
      assert Register(reg, st, r) == (reg, st);
      forall x ensures FirstRecord(runs + [r], x).Some? <==> FirstRecord(runs, x).Some? {
        if r.name == x && Records(r) {
          assert x in upserted;
        }
      }
      forall x ensures FirstRecord(runs + [r], x).Some? ==> FirstRecord(runs + [r], x) == FirstRecord(runs, x) {
      }
    }
  }

  lemma RegisterPrefix(reg: set<string>, st: Storage.Store, upserted: seq<string>, st0: Storage.Store,
                       runs: seq<Run>, i: nat)
    requires i < |runs| && RegInv(reg, st, upserted, st0, runs[..i])
    ensures var r := runs[i];
            var out := Register(reg, st, r);
            RegInv(out.0, out.1, if r.name !in reg && Records(r) then upserted + [r.name] else upserted,
                   st0, runs[..i + 1])
  {
    assert runs[..i + 1] == runs[..i] + [runs[i]];
    RegisterStep(reg, st, upserted, st0, runs[..i], runs[i]);
  }

  /** A plugin recorded for the first time is upserted once, with this run's URL. */
  lemma RegisterNew(reg: set<string>, st: Storage.Store, upserted: seq<string>, st0: Storage.Store,
                    runs: seq<Run>, r: Run)
    requires RegInv(reg, st, upserted, st0, runs)
    requires r.name !in reg && Records(r)
    requires forall x :: FirstRecord(runs + [r], x)
                         == FirstRecord(runs, x).OrElse(if r.name == x && Records(r) then r.info else None)
    ensures var out := Register(reg, st, r);
            RegInv(out.0, out.1, upserted + [r.name], st0, runs + [r])
  {
    RegisterNewNames(reg, upserted, runs, r);
    RegisterNewUrls(st, st0, runs, r);
  }

  lemma RegisterNewNames(reg: set<string>, upserted: seq<string>, runs: seq<Run>, r: Run)
    requires NoDup(upserted)
    requires forall x :: x in reg <==> x in upserted
    requires forall x :: x in upserted <==> FirstRecord(runs, x).Some?
    requires r.name !in reg && Records(r)
    requires forall x :: FirstRecord(runs + [r], x)
                         == FirstRecord(runs, x).OrElse(if r.name == x && Records(r) then r.info else None)
    ensures NoDup(upserted + [r.name])
    ensures forall x :: x in reg + {r.name} <==> x in upserted + [r.name]
    ensures forall x :: x in upserted + [r.name] <==> FirstRecord(runs + [r], x).Some?
  {
    var up := upserted + [r.name];
    assert r.name !in upserted;
    assert forall x :: x in up <==> x in upserted || x == r.name;
  }

  lemma RegisterNewUrls(st: Storage.Store, st0: Storage.Store, runs: seq<Run>, r: Run)
    requires Records(r) && FirstRecord(runs, r.name).None?
    requires forall x :: FirstRecord(runs, x).Some? ==>
               Storage.BaseUrlOf(st.apis, x) == Some(BaseUrl(FirstRecord(runs, x).value))
    requires forall x :: FirstRecord(runs, x).None? ==> Storage.BaseUrlOf(st.apis, x) == Storage.BaseUrlOf(st0.apis, x)
    requires forall x :: FirstRecord(runs + [r], x)
                         == FirstRecord(runs, x).OrElse(if r.name == x && Records(r) then r.info else None)
    ensures var st' := Storage.UpsertPluginApi(st, r.name, BaseUrl(r.info.value), r.now, None).value;
            (forall x :: FirstRecord(runs + [r], x).Some? ==>
               Storage.BaseUrlOf(st'.apis, x) == Some(BaseUrl(FirstRecord(runs + [r], x).value)))
            && (forall x :: FirstRecord(runs + [r], x).None? ==>
                  Storage.BaseUrlOf(st'.apis, x) == Storage.BaseUrlOf(st0.apis, x))
  {
    var url := BaseUrl(r.info.value);
    var st' := Storage.UpsertPluginApi(st, r.name, url, r.now, None).value;
    forall q ensures Storage.BaseUrlOf(st'.apis, q)
                     == (if q == r.name then Some(url) else Storage.BaseUrlOf(st.apis, q)) {
      Storage.UpsertBaseUrl(st.apis, r.name, url, r.now, q);
    }
  }

  /** Every round of plugin executions through the registration guard, starting
      from an empty registered set. Returns the registered set, the store and
      the names upserted, in order: each name is upserted at most once, exactly
      the plugins that some run records are, each keeps the URL of its first
      successful registration, and other plugins' rows are left alone. */
  method RegisterAll(st0: Storage.Store, runs: seq<Run>)
    returns (reg: set<string>, st: Storage.Store, upserted: seq<string>)
    ensures NoDup(upserted)
    ensures forall x :: x in reg <==> x in upserted
    ensures forall x :: x in upserted <==> FirstRecord(runs, x).Some?
    ensures forall x :: FirstRecord(runs, x).Some? ==>
              Storage.BaseUrlOf(st.apis, x) == Some(BaseUrl(FirstRecord(runs, x).value))
    ensures forall x :: FirstRecord(runs, x).None? ==> Storage.BaseUrlOf(st.apis, x) == Storage.BaseUrlOf(st0.apis, x)
  {
    reg, st, upserted := {}, st0, [];
    var i := 0;
    while i < |runs|
      invariant 0 <= i <= |runs|
      invariant RegInv(reg, st, upserted, st0, runs[..i])
    {
      var r := runs[i];
      var out := Register(reg, st, r);
      var up := if r.name !in reg && Records(r) then upserted + [r.name] else upserted;
      RegisterPrefix(reg, st, upserted, st0, runs, i);
      reg, st, upserted := out.0, out.1, up;
      i := i + 1;
    }
    assert runs[..i] == runs;
    assert RegInv(reg, st, upserted, st0, runs);
  }

  /** A plugin that changes its port after registering is not registered
      again: the first URL stays. */
  lemma FirstRegistrationSticks(st0: Storage.Store, name: string, a: ApiInfo, b: ApiInfo, t1: int, t2: int)
    ensures var s1 := Register({}, st0, Run(name, Some(a), None, t1));
            var s2 := Register(s1.0, s1.1, Run(name, Some(b), None, t2));
            s2 == s1 && Storage.BaseUrlOf(s2.1.apis, name) == Some(BaseUrl(a))
  {
    Storage.UpsertBaseUrl(st0.apis, name, BaseUrl(a), t1, name);
  }

  /** A failed upsert leaves the plugin unregistered, so the next round tries again. */
  lemma FailedUpsertRetried(st0: Storage.Store, name: string, a: ApiInfo, e: string, t1: int, t2: int)
    ensures var s1 := Register({}, st0, Run(name, Some(a), Some(e), t1));
            s1 == ({}, st0)
            && Register(s1.0, s1.1, Run(name, Some(a), None, t2)).0 == {name}
  {
  }

  // -------------------------------------------------------------- log levels

  /** The level a plugin passes across the C interface. */
  datatype PluginLevel = PluginDebug | PluginInfo | PluginWarn | PluginError

  /** The discriminant each plugin level has in the C interface. */
  function PluginLevelCode(l: PluginLevel): nat {
    match l
    case PluginDebug => 0
    case PluginInfo => 1
    case PluginWarn => 2
    case PluginError => 3
  }

  /** The host level a plugin's log line is stored with: the level of the
      same name, so the stored text names the plugin's level. */
  function HostLevel(l: PluginLevel): (h: Storage.LogLevel)
    ensures Storage.LevelName(h) == ["Debug", "Info", "Warn", "Error"][PluginLevelCode(l)]
  {
    match l
    case PluginDebug => Storage.Debug
    case PluginInfo => Storage.Info
    case PluginWarn => Storage.Warn
    case PluginError => Storage.Error
  }

  /** The inverse mapping. */
  function PluginLevelOf(h: Storage.LogLevel): PluginLevel {
    match h
    case Debug => PluginDebug
    case Info => PluginInfo
    case Warn => PluginWarn
    case Error => PluginError
  }

  /** The level mapping is a bijection: each direction undoes the other. */
  lemma LevelBijection(l: PluginLevel, h: Storage.LogLevel)
    ensures PluginLevelOf(HostLevel(l)) == l
    ensures HostLevel(PluginLevelOf(h)) == h
    ensures HostLevel(l) == h <==> l == PluginLevelOf(h)
  {
  }
}

=== FILE: dashboard_home.dfy ===
/** The dashboard home page: the fetched metric list, the per-series view of it
    (one plugin's one metric, oldest first), and the state a fetch leaves. */
module DashboardHome {
  import opened Wrappers
  import Fetch
  import StableSort

  /** A metric as the page receives it. `timeMs` is `new Date(time).getTime()`
      for the record's timestamp text; the value is an opaque number. */
  datatype Metric = Metric(time: string, timeMs: int, plugin: string, name: string, value: real)

  /** A chart point: the record's own time text and value. */
  datatype Point = Point(time: string, value: real)

  function TimeKey(m: Metric): int {
    m.timeMs
  }

  predicate InSeries(m: Metric, plugin: string, name: string) {
    m.plugin == plugin && m.name == name
  }

  /** The `filter` step: the metrics of one series, in list order, each as
      many times as it occurs. */
  function Matches(ms: seq<Metric>, plugin: string, name: string): (r: seq<Metric>)
    ensures forall i :: 0 <= i < |r| ==> InSeries(r[i], plugin, name)
    ensures forall m :: multiset(r)[m] == if InSeries(m, plugin, name) then multiset(ms)[m] else 0
  {
    if ms == [] then []
    else
      var rest := Matches(ms[1..], plugin, name);
      assert ms == [ms[0]] + ms[1..];
      (if InSeries(ms[0], plugin, name) then [ms[0]] else []) + rest
  }

  /** Filtering keeps list order: the matches of a concatenation are the
      matches of each part, one after the other. */
  lemma {:induction false} MatchesAppend(a: seq<Metric>, b: seq<Metric>, plugin: string, name: string)
    ensures Matches(a + b, plugin, name) == Matches(a, plugin, name) + Matches(b, plugin, name)
  {
    if a == [] {
      assert a + b == b;
    } else {
      assert (a + b)[0] == a[0] && (a + b)[1..] == a[1..] + b;
      MatchesAppend(a[1..], b, plugin, name);
    }
  }

  /** The `sort` step: the matches ordered by time, ties in list order. */
  function Ordered(ms: seq<Metric>, plugin: string, name: string): (o: seq<Metric>)
    ensures StableSort.SortedBy(o, TimeKey)
    ensures forall k :: StableSort.WithKey(o, TimeKey, k) == StableSort.WithKey(Matches(ms, plugin, name), TimeKey, k)
    ensures forall i :: 0 <= i < |o| ==> InSeries(o[i], plugin, name)
    ensures forall m :: multiset(o)[m] == if InSeries(m, plugin, name) then multiset(ms)[m] else 0
  {
    var s := Matches(ms, plugin, name);
    var o := StableSort.Sort(s, TimeKey);
    assert forall i :: 0 <= i < |o| ==> o[i] in multiset(s);
    o
  }

  function PointOf(m: Metric): Point {
    Point(m.time, m.value)
  }

  /** `toSeries`: the chart points of one series. */
  function ToSeries(ms: seq<Metric>, plugin: string, name: string): (r: seq<Point>)
    ensures |r| == |Ordered(ms, plugin, name)|
    ensures forall i :: 0 <= i < |r| ==> r[i] == PointOf(Ordered(ms, plugin, name)[i])
  {
    var o := Ordered(ms, plugin, name);
    seq(|o|, i requires 0 <= i < |o| => PointOf(o[i]))
  }

  /** The series has one point per matching metric, each carrying that
      metric's own time and value, in ascending time order; metrics of other
      series contribute nothing. */
  lemma SeriesMeaning(ms: seq<Metric>, plugin: string, name: string)
    ensures var r := ToSeries(ms, plugin, name);
            var o := Ordered(ms, plugin, name);
            |r| == |o| == |Matches(ms, plugin, name)|
            && (forall i, j :: 0 <= i < j < |r| ==> o[i].timeMs <= o[j].timeMs)
            && (forall i :: 0 <= i < |r| ==> InSeries(o[i], plugin, name) && r[i] == PointOf(o[i]))
  {
    var s := Matches(ms, plugin, name);
    var o := Ordered(ms, plugin, name);
    assert multiset(o) == multiset(s);
    assert |multiset(o)| == |o| && |multiset(s)| == |s|;
  }

  /** The page's state. */
  datatype Page = Page(metrics: seq<Metric>, loading: bool, error: Option<string>)

  /** `fetchMetrics`: the state once the request is under way, and the state
      once its response has been handled. */
  function FetchMetrics(p: Page, resp: Fetch.Response<seq<Metric>>): (r: (Page, Page))
    ensures r.0 == Page(p.metrics, true, None)
    ensures !r.1.loading
    ensures r.1.error.None? <==> resp.Data?
    ensures resp.Data? ==> r.1.metrics == resp.body
    ensures !resp.Data? ==> r.1.metrics == p.metrics && r.1.error == Some(Fetch.ErrorText(resp))
    ensures resp.NotOk? ==> r.1.error.value[..5] == "HTTP "
  {
    var started := p.(loading := true, error := None);
    var settled := match resp
      case Data(ms) => started.(metrics := ms)
      case _ => started.(error := Some(Fetch.ErrorText(resp)));
    (started, settled.(loading := false))
  }

  /** A failed refresh keeps the last good list on screen: after any run of
      failures the metrics are those of the last success. */
  lemma {:induction false} FailuresKeepMetrics(p: Page, resps: seq<Fetch.Response<seq<Metric>>>)
    requires forall i :: 0 <= i < |resps| ==> !resps[i].Data?
    ensures Refresh(p, resps).metrics == p.metrics
    ensures |resps| > 0 ==> Refresh(p, resps).error.Some? && !Refresh(p, resps).loading
  {
    if resps != [] {
      FailuresKeepMetrics(p, resps[..|resps| - 1]);
    }
  }

  /** Successive polls, each handled before the next starts. */
  function Refresh(p: Page, resps: seq<Fetch.Response<seq<Metric>>>): Page {
    if resps == [] then p else FetchMetrics(Refresh(p, resps[..|resps| - 1]), resps[|resps| - 1]).1
  }
}

=== FILE: db_config.dfy ===
/** Database settings: each comes from the explicit argument, else from the
    environment, else from a built-in default. The environment (including
    what the `.env` file adds to it) is a parameter. */
module DbConfig {
  import opened Wrappers

  datatype Config = Config(dbType: string, url: string)

  const DefaultType: string := "sqlite"
  const DefaultUrl: string := "sqlite://database/monitor_ai.db"

  /** `DbConfig::from_args`. */
  function FromArgs(dbType: Option<string>, dbUrl: Option<string>, env: string -> Option<string>): (c: Config)
    ensures dbType.Some? ==> c.dbType == dbType.value
    ensures dbType.None? && env("DB_TYPE").Some? ==> c.dbType == env("DB_TYPE").value
    ensures dbType.None? && env("DB_TYPE").None? ==> c.dbType == DefaultType
    ensures dbUrl.Some? ==> c.url == dbUrl.value
    ensures dbUrl.None? && env("DATABASE_URL").Some? ==> c.url == env("DATABASE_URL").value
    ensures dbUrl.None? && env("DATABASE_URL").None? ==> c.url == DefaultUrl
  {
    Config(dbType.OrElse(env("DB_TYPE")).GetOr(DefaultType),
           dbUrl.OrElse(env("DATABASE_URL")).GetOr(DefaultUrl))
  }

  /** The two settings are resolved independently: changing how one is
      given never changes the other. */
  lemma Independent(t1: Option<string>, t2: Option<string>, u1: Option<string>, u2: Option<string>,
                    env: string -> Option<string>)
    ensures FromArgs(t1, u1, env).dbType == FromArgs(t1, u2, env).dbType
    ensures FromArgs(t1, u1, env).url == FromArgs(t2, u1, env).url
  {
  }

  /** An explicit argument hides the environment entirely. */
  lemma ArgumentsWin(t: string, u: string, e1: string -> Option<string>, e2: string -> Option<string>)
    ensures FromArgs(Some(t), Some(u), e1) == FromArgs(Some(t), Some(u), e2) == Config(t, u)
  {
  }
}

=== FILE: fetch.dfy ===
/** What a browser `fetch` followed by `resp.json()` can come back with, and
    the error text the dashboard pages derive from it. The network itself is
    left out: a response is a parameter of every transition that awaits one. */
module Fetch {
  import opened Wrappers
  import Strings

  /** `Failed`: the request or the body parse rejected with an error whose
      `message` is given; `NotOk`: the server answered with a status outside
      200-299; `Data`: the parsed body. */
  datatype Response<T> = Failed(message: string) | NotOk(status: int) | Data(body: T)

  const DefaultApiBase: string := "http://127.0.0.1:3001"

  /** `apiBase || DEFAULT_API_BASE`: an absent or empty base falls back. */
  function ApiBase(given: Option<string>): (r: string)
    ensures r != []
    ensures r == DefaultApiBase <==> given.None? || given.value == [] || given.value == DefaultApiBase
    ensures given.Some? && given.value != [] ==> r == given.value
  {
    if given.None? || given.value == [] then DefaultApiBase else given.value
  }

  const LoadFailed: string := "加载失败"

  /** The message shown for a failure: "HTTP <status>" for a non-ok reply,
      the error's own message otherwise, and "加载失败" when that is empty
      (`e.message || "加载失败"`). */
  function ErrorText<T>(resp: Response<T>): (r: string)
    requires !resp.Data?
    ensures r != []
    ensures resp.NotOk? ==> r == "HTTP " + Strings.IntToString(resp.status)
    ensures resp.Failed? && resp.message != [] ==> r == resp.message
  {
    match resp
    case NotOk(s) => "HTTP " + Strings.IntToString(s)
    case Failed(m) => if m == [] then LoadFailed else m
  }

  /** Distinct statuses give distinct messages, so the status can be read
      back from the text. */
  lemma HttpTextIdentifiesStatus<T>(a: int, b: int)
    ensures ErrorText<T>(NotOk(a)) == ErrorText<T>(NotOk(b)) ==> a == b
  {
    if ErrorText<T>(NotOk(a)) == ErrorText<T>(NotOk(b)) {
      var p := "HTTP ";
      assert (p + Strings.IntToString(a))[|p|..] == Strings.IntToString(a);
      assert (p + Strings.IntToString(b))[|p|..] == Strings.IntToString(b);
      Strings.IntToStringInjective(a, b);
    }
  }
}

=== FILE: form_url.dfy ===
/** `URLSearchParams` serialisation (the application/x-www-form-urlencoded
    serializer of the WHATWG URL Standard): every name and value is encoded
    byte by byte over UTF-8, the pairs are written `name=value` and joined with
    `&`. A reader splitting at `&` and then at the first `=` gets the encoded
    pairs back. */
module FormUrl {
  import Strings

  const HexUpper: string := "0123456789ABCDEF"

  /** The characters written as themselves: ASCII letters and digits and `*-._`. */
  predicate Unreserved(c: char) {
    ('a' <= c <= 'z') || ('A' <= c <= 'Z') || ('0' <= c <= '9')
    || c == '*' || c == '-' || c == '.' || c == '_'
  }

  /** The UTF-8 bytes of a Unicode scalar value. */
  function Utf8(cp: nat): (r: seq<nat>)
    requires cp < 0x11_0000
    ensures 1 <= |r| <= 4
    ensures forall i :: 0 <= i < |r| ==> r[i] < 256
    ensures |r| == 1 <==> cp < 0x80
  {
    if cp < 0x80 then [cp]
    else if cp < 0x800 then [0xC0 + cp / 64, 0x80 + cp % 64]
    else if cp < 0x1_0000 then [0xE0 + cp / 4096, 0x80 + (cp / 64) % 64, 0x80 + cp % 64]
    else [0xF0 + cp / 262144, 0x80 + (cp / 4096) % 64, 0x80 + (cp / 64) % 64, 0x80 + cp % 64]
  }

  /** `%XX` with upper-case hex for every byte. */
  function Percent(bytes: seq<nat>): (r: string)
    requires forall i :: 0 <= i < |bytes| ==> bytes[i] < 256
    ensures |r| == 3 * |bytes|
    ensures forall i :: 0 <= i < |r| ==> r[i] == '%' || r[i] in HexUpper
  {
    if bytes == [] then []
    else "%" + [HexUpper[bytes[0] / 16], HexUpper[bytes[0] % 16]] + Percent(bytes[1..])
  }

  function EncodeChar(c: char): (r: string)
    ensures r != []
    ensures '&' !in r && '=' !in r
    ensures Unreserved(c) ==> r == [c]
  {
    if Unreserved(c) then [c]
    else if c == ' ' then "+"
    else
      var r := Percent(Utf8(c as nat));
      assert forall i :: 0 <= i < |r| ==> r[i] != '&' && r[i] != '=';
      r
  }

  function Encode(s: string): (r: string)
    ensures '&' !in r && '=' !in r
    ensures |r| >= |s|
  {
    if s == [] then [] else EncodeChar(s[0]) + Encode(s[1..])
  }

  /** Text made of unreserved characters is written as it is. */
  lemma {:induction false} EncodeUnreserved(s: string)
    requires forall i :: 0 <= i < |s| ==> Unreserved(s[i])
    ensures Encode(s) == s
  {
    if s != [] {
      EncodeUnreserved(s[1..]);
      assert [s[0]] + s[1..] == s;
    }
  }

  /** Lower-case ASCII words are written as they are. */
  lemma LowerWordUnchanged(w: string)
    requires forall i :: 0 <= i < |w| ==> 'a' <= w[i] <= 'z'
    ensures Encode(w) == w
  {
    EncodeUnreserved(w);
  }

  /** A decimal number is written as it is. */
  lemma NumberUnchanged(n: int)
    ensures Encode(Strings.IntToString(n)) == Strings.IntToString(n)
  {
    var t := Strings.IntToString(n);
    if n < 0 {
      assert t == "-" + Strings.NatToString(-n);
    }
    assert forall i :: 0 <= i < |t| ==> Unreserved(t[i]);
    EncodeUnreserved(t);
  }

  function EncodePair(p: (string, string)): (string, string) {
    (Encode(p.0), Encode(p.1))
  }

  /** The encoded pairs, in order. */
  function EncodeAll(pairs: seq<(string, string)>): (r: seq<(string, string)>)
    ensures |r| == |pairs|
    ensures forall i :: 0 <= i < |r| ==> r[i] == EncodePair(pairs[i])
  {
    seq(|pairs|, i requires 0 <= i < |pairs| => EncodePair(pairs[i]))
  }

  function Field(p: (string, string)): string {
    Encode(p.0) + "=" + Encode(p.1)
  }

  /** `URLSearchParams.toString()`. */
  function QueryText(pairs: seq<(string, string)>): string {
    Strings.Join(seq(|pairs|, i requires 0 <= i < |pairs| => Field(pairs[i])), '&')
  }

  /** A query of one pair is that pair's field alone. */
  lemma QuerySingle(p: (string, string))
    ensures QueryText([p]) == Encode(p.0) + "=" + Encode(p.1)
  {
    var fields := seq(1, i requires 0 <= i < 1 => Field([p][i]));
    assert fields == [Field(p)];
  }

  /** The position of the first `c`, or the length when there is none. */
  function IndexOf(s: string, c: char): (r: nat)
    ensures r <= |s|
    ensures r < |s| ==> s[r] == c
    ensures forall j :: 0 <= j < r ==> s[j] != c
  {
    if s == [] then 0 else if s[0] == c then 0 else 1 + IndexOf(s[1..], c)
  }

  /** A field cut at its first `=`; a field without one is a name with an
      empty value. */
  function Cut(field: string): (string, string) {
    var i := IndexOf(field, '=');
    if i == |field| then (field, "") else (field[..i], field[i + 1..])
  }

  /** Reading a query back: split at `&`, then cut each field. */
  function ParseQuery(t: string): seq<(string, string)> {
    if t == [] then []
    else
      var fields := Strings.Split(t, '&');
      seq(|fields|, i requires 0 <= i < |fields| => Cut(fields[i]))
  }

  /** Cutting `name=value` at its first `=` gives the name and value back
      when the name has no `=`. */
  lemma CutAt(k: string, v: string)
    requires '=' !in k
    ensures Cut(k + "=" + v) == (k, v)
  {
    var f := k + "=" + v;
    var i := IndexOf(f, '=');
    assert f[|k|] == '=';
    forall j | 0 <= j < |k| ensures f[j] != '=' {
      assert f[j] == k[j];
    }
    assert i == |k|;
    assert f[..i] == k;
    assert f[i + 1..] == v;
  }

  lemma CutField(p: (string, string))
    ensures Cut(Field(p)) == EncodePair(p)
  {
    CutAt(Encode(p.0), Encode(p.1));
  }

  /** Reading back a written query gives every pair, encoded, in order. */
  lemma QueryRoundTrip(pairs: seq<(string, string)>)
    ensures ParseQuery(QueryText(pairs)) == EncodeAll(pairs)
  {
    var fields := seq(|pairs|, i requires 0 <= i < |pairs| => Field(pairs[i]));
    var t := QueryText(pairs);
    if pairs != [] {
      forall i | 0 <= i < |fields| ensures '&' !in fields[i] {
        assert fields[i] == Encode(pairs[i].0) + "=" + Encode(pairs[i].1);
      }
      Strings.SplitJoin(fields, '&');
      assert |fields[0]| > 0 by {
        assert fields[0] == Encode(pairs[0].0) + "=" + Encode(pairs[0].1);
      }
      assert |t| >= |fields[0]|;
      forall i | 0 <= i < |pairs| ensures Cut(fields[i]) == EncodePair(pairs[i]) {
        CutField(pairs[i]);
      }
    }
  }
}

=== FILE: graph.dfy ===
/** The LogicFlow graph the workflow core executes (`LogicFlowNode`,
    `LogicFlowEdge`, `LogicFlowGraph`), with the graph vocabulary used to state
    what the topological ordering promises. */
module LogicFlow {
  import Json

  datatype Node = Node(id: string, nodeType: string, properties: Json.Value)

  datatype Edge = Edge(id: string, source: string, target: string, properties: Json.Value)

  datatype Graph = Graph(nodes: seq<Node>, edges: seq<Edge>)

  /** The ids carried by the nodes of `nodes`. */
  function Ids(nodes: seq<Node>): set<string> {
    set i | 0 <= i < |nodes| :: nodes[i].id
  }

  lemma IdsAt(nodes: seq<Node>, i: nat)
    requires i < |nodes|
    ensures nodes[i].id in Ids(nodes)
  {
  }

  lemma IdsSnoc(nodes: seq<Node>, n: Node)
    ensures Ids(nodes + [n]) == Ids(nodes) + {n.id}
  {
    var s := nodes + [n];
    assert s[|nodes|] == n;
    forall v | v in Ids(nodes)
      ensures v in Ids(s)
    {
      var i :| 0 <= i < |nodes| && nodes[i].id == v;
      assert s[i] == nodes[i];
    }
  }

  lemma IdsElem(nodes: seq<Node>, n: Node)
    requires n in nodes
    ensures n.id in Ids(nodes)
  {
    var i :| 0 <= i < |nodes| && nodes[i] == n;
    IdsAt(nodes, i);
  }

  /** No two nodes share an id. */
  predicate UniqueIds(nodes: seq<Node>) {
    forall i, j :: 0 <= i < j < |nodes| ==> nodes[i].id != nodes[j].id
  }

  /** Every edge starts and ends at a node of the graph. */
  predicate EdgesWellFormed(g: Graph) {
    forall k :: 0 <= k < |g.edges| ==> g.edges[k].source in Ids(g.nodes) && g.edges[k].target in Ids(g.nodes)
  }

  /** Some edge leads from `a` to `b`. */
  predicate HasEdge(g: Graph, a: string, b: string) {
    exists k :: 0 <= k < |g.edges| && g.edges[k].source == a && g.edges[k].target == b
  }

  /** `w` is a closed walk along edges: it returns to where it started. */
  predicate IsCycle(g: Graph, w: seq<string>) {
    |w| >= 2 && w[0] == w[|w| - 1]
    && forall i :: 0 <= i < |w| - 1 ==> HasEdge(g, w[i], w[i + 1])
  }

  ghost predicate Acyclic(g: Graph) {
    forall w :: !IsCycle(g, w)
  }

  /** A node whose id lies on some cycle. */
  ghost predicate OnCycle(g: Graph, v: string) {
    exists w :: IsCycle(g, w) && v in w
  }
}

=== FILE: hooks.dfy ===
/** The `useMetrics` and `useAlerts` data hooks: the request URL each effect
    run builds, and the loading/error/data state with the per-run `cancelled`
    flag that keeps a superseded or unmounted run from touching it. Both hooks
    share the same lifecycle; only their URLs differ. */
module FetchHooks {
  import opened Wrappers
  import Strings
  import Json
  import Fetch
  import FormUrl

  // ------------------------------------------------------------------ URLs

  /** The query parameter names. */
  const NameKey: string := "name"
  const PluginKey: string := "plugin"
  const LimitKey: string := "limit"

  /** `useMetrics` parameters; an absent field is `undefined`. */
  datatype MetricParams = MetricParams(name: Option<string>, plugin: Option<string>, limit: Option<int>)

  predicate TruthyText(o: Option<string>) {
    o.Some? && o.value != []
  }

  predicate TruthyNumber(o: Option<int>) {
    o.Some? && o.value != 0
  }

  /** The value of the first pair named `key`. */
  function Lookup(pairs: seq<(string, string)>, key: string): (r: Option<string>)
    ensures r.None? <==> forall i :: 0 <= i < |pairs| ==> pairs[i].0 != key
  {
    if pairs == [] then None
    else if pairs[0].0 == key then Some(pairs[0].1)
    else
      assert forall i :: 1 <= i < |pairs| ==> pairs[i] == pairs[1..][i - 1];
      Lookup(pairs[1..], key)
  }

  /** The parameters set on the query, in the order `name`, `plugin`,
      `limit`, each only when truthy: an empty name or a zero limit is left
      out. */
  function MetricPairs(p: MetricParams): (r: seq<(string, string)>)
    ensures Lookup(r, NameKey) == if TruthyText(p.name) then p.name else None
    ensures Lookup(r, PluginKey) == if TruthyText(p.plugin) then p.plugin else None
    ensures Lookup(r, LimitKey) == if TruthyNumber(p.limit) then Some(Strings.IntToString(p.limit.value)) else None
    ensures forall i :: 0 <= i < |r| ==> r[i].0 in [NameKey, PluginKey, LimitKey]
    ensures forall i, j :: 0 <= i < j < |r| ==> r[i].0 != r[j].0
  {
    var n := if TruthyText(p.name) then [(NameKey, p.name.value)] else [];
    var g := if TruthyText(p.plugin) then [(PluginKey, p.plugin.value)] else [];
    var l := if TruthyNumber(p.limit) then [(LimitKey, Strings.IntToString(p.limit.value))] else [];
    LookupConcat(n + g, l, LimitKey);
    LookupConcat(n, g, LimitKey);
    LookupConcat(n + g, l, PluginKey);
    LookupConcat(n, g, PluginKey);
    LookupConcat(n + g, l, NameKey);
    LookupConcat(n, g, NameKey);
    n + g + l
  }

  lemma {:induction false} LookupConcat(a: seq<(string, string)>, b: seq<(string, string)>, key: string)
    ensures Lookup(a + b, key) == Lookup(a, key).OrElse(Lookup(b, key))
  {
    if a == [] {
      assert a + b == b;
    } else {
      assert (a + b)[1..] == a[1..] + b;
      LookupConcat(a[1..], b, key);
    }
  }

  /** Encoding leaves a name that is written as it is findable under itself. */
  lemma LookupEncoded(r: seq<(string, string)>, key: string)
    requires forall i :: 0 <= i < |r| ==> FormUrl.Encode(r[i].0) == r[i].0
    ensures Lookup(FormUrl.EncodeAll(r), key).None? <==> Lookup(r, key).None?
  {
    var e := FormUrl.EncodeAll(r);
    assert forall i :: 0 <= i < |r| ==> e[i].0 == r[i].0;
  }

  /** The `useMetrics` request URL. */
  function MetricsUrl(apiBase: Option<string>, p: MetricParams): string {
    Fetch.ApiBase(apiBase) + "/metrics?" + FormUrl.QueryText(MetricPairs(p))
  }

  /** The URL is the base, `/metrics?`, and a query that reads back as the
      truthy parameters, each encoded, under their own names. */
  lemma MetricsUrlParts(apiBase: Option<string>, p: MetricParams)
    ensures var head := Fetch.ApiBase(apiBase) + "/metrics?";
            var u := MetricsUrl(apiBase, p);
            |head| <= |u| && u[..|head|] == head
            && FormUrl.ParseQuery(u[|head|..]) == FormUrl.EncodeAll(MetricPairs(p))
  {
    var head := Fetch.ApiBase(apiBase) + "/metrics?";
    var q := FormUrl.QueryText(MetricPairs(p));
    assert MetricsUrl(apiBase, p) == head + q;
    assert (head + q)[|head|..] == q;
    FormUrl.QueryRoundTrip(MetricPairs(p));
  }

  /** The parameter names are written as they are, so the query carries
      `limit` exactly when the limit is truthy. */
  lemma LimitInUrlIffTruthy(apiBase: Option<string>, p: MetricParams)
    ensures var head := Fetch.ApiBase(apiBase) + "/metrics?";
            var u := MetricsUrl(apiBase, p);
            |head| <= |u|
            && (Lookup(FormUrl.ParseQuery(u[|head|..]), LimitKey).Some? <==> TruthyNumber(p.limit))
  {
    var head := Fetch.ApiBase(apiBase) + "/metrics?";
    var u := MetricsUrl(apiBase, p);
    var r := MetricPairs(p);
    MetricsUrlParts(apiBase, p);
    assert FormUrl.ParseQuery(u[|head|..]) == FormUrl.EncodeAll(r);
    NamesWrittenAsIs(r);
    LookupEncoded(r, LimitKey);
    assert Lookup(r, LimitKey).Some? <==> TruthyNumber(p.limit);
  }

  lemma NamesWrittenAsIs(r: seq<(string, string)>)
    requires forall i :: 0 <= i < |r| ==> r[i].0 in [NameKey, PluginKey, LimitKey]
    ensures forall i :: 0 <= i < |r| ==> FormUrl.Encode(r[i].0) == r[i].0
  {
    forall i | 0 <= i < |r| ensures FormUrl.Encode(r[i].0) == r[i].0 {
      KeyIsLowerWord(r[i].0);
      FormUrl.LowerWordUnchanged(r[i].0);
    }
  }

  lemma KeyIsLowerWord(k: string)
    requires k in [NameKey, PluginKey, LimitKey]
    ensures forall j :: 0 <= j < |k| ==> 'a' <= k[j] <= 'z'
  {
  }

  const DefaultAlertLimit: int := 20

  /** The `useAlerts` request URL: `limit` is always present, 20 when the
      argument is left out. */
  function AlertsUrl(apiBase: Option<string>, limit: Option<int>): (u: string)
    ensures u == Fetch.ApiBase(apiBase) + "/alerts?limit=" + Strings.IntToString(limit.GetOr(DefaultAlertLimit))
  {
    var n := Strings.IntToString(limit.GetOr(DefaultAlertLimit));
    FormUrl.QuerySingle((LimitKey, n));
    FormUrl.NumberUnchanged(limit.GetOr(DefaultAlertLimit));
    LimitKeyUnchanged();
    Fetch.ApiBase(apiBase) + "/alerts?" + FormUrl.QueryText([(LimitKey, n)])
  }

  lemma LimitKeyUnchanged()
    ensures FormUrl.Encode(LimitKey) == LimitKey
  {
    KeyIsLowerWord(LimitKey);
    FormUrl.LowerWordUnchanged(LimitKey);
  }

  // ------------------------------------------------------------- lifecycle

  /** A hook's state. `cancelled[k]` is the flag of the k-th effect run;
      `data` holds whatever JSON the last applied reply carried. */
  datatype Hook = Hook(data: Json.Value, loading: bool, error: Option<string>, cancelled: seq<bool>)

  const Initial: Hook := Hook(Json.Arr([]), false, None, [])

  /** Only the newest run can still be live. */
  predicate AtMostNewestLive(h: Hook) {
    forall k :: 0 <= k < |h.cancelled| - 1 ==> h.cancelled[k]
  }

  predicate Live(h: Hook, run: nat) {
    run < |h.cancelled| && !h.cancelled[run]
  }

  /** The effect's cleanup: the newest run's flag is set. Used when the
      dependencies change and when the component unmounts. */
  function Cleanup(h: Hook): (r: Hook)
    requires AtMostNewestLive(h)
    ensures AtMostNewestLive(r)
    ensures forall run :: !Live(r, run)
    ensures r.data == h.data && r.loading == h.loading && r.error == h.error
  {
    if h.cancelled == [] then h
    else h.(cancelled := h.cancelled[|h.cancelled| - 1 := true])
  }

  /** An effect run starts: loading, no error, data as it was, and a new live
      run whose number is the old run count. */
  function Start(h: Hook): (r: Hook)
    requires forall run :: !Live(h, run)
    ensures AtMostNewestLive(r)
    ensures r.loading && r.error.None? && r.data == h.data
    ensures |r.cancelled| == |h.cancelled| + 1
    ensures forall run :: Live(r, run) <==> run == |h.cancelled|
  {
    assert forall k :: 0 <= k < |h.cancelled| ==> h.cancelled[k] by {
      forall k | 0 <= k < |h.cancelled| ensures h.cancelled[k] {
        assert !Live(h, k);
      }
    }
    h.(loading := true, error := None, cancelled := h.cancelled + [false])
  }

  /** A dependency change: the old run's cleanup, then the new run. */
  function Rerun(h: Hook): Hook
    requires AtMostNewestLive(h)
  {
    Start(Cleanup(h))
  }

  /** Run `run`'s reply arriving: applied only while that run is live. A
      reply sets the data; a failure sets the error and keeps the data. */
  function Settle(h: Hook, run: nat, resp: Fetch.Response<Json.Value>): (r: Hook)
    ensures r.cancelled == h.cancelled
    ensures !Live(h, run) ==> r == h
    ensures Live(h, run) ==> !r.loading
    ensures Live(h, run) && resp.Data? ==> r.data == resp.body && r.error == h.error
    ensures Live(h, run) && !resp.Data? ==> r.data == h.data && r.error == Some(Fetch.ErrorText(resp))
  {
    if !Live(h, run) then h
    else match resp
      case Data(json) => h.(data := json, loading := false)
      case _ => h.(error := Some(Fetch.ErrorText(resp)), loading := false)
  }

  /** Once the dependencies change, a reply for any earlier run changes
      nothing. */
  lemma StaleReplyIgnored(h: Hook, run: nat, resp: Fetch.Response<Json.Value>)
    requires AtMostNewestLive(h) && run < |h.cancelled|
    ensures Settle(Rerun(h), run, resp) == Rerun(h)
  {
    assert !Live(Rerun(h), run);
  }

  /** After unmounting, no reply changes anything. */
  lemma UnmountedIgnoresReplies(h: Hook, run: nat, resp: Fetch.Response<Json.Value>)
    requires AtMostNewestLive(h)
    ensures Settle(Cleanup(h), run, resp) == Cleanup(h)
  {
    assert !Live(Cleanup(h), run);
  }

  /** The current run's non-ok reply: error "HTTP <status>", data kept,
      loading over. */
  lemma CurrentFailureShown(h: Hook, status: int)
    requires AtMostNewestLive(h)
    ensures var s := Rerun(h);
            var r := Settle(s, |h.cancelled|, Fetch.NotOk(status));
            r.error == Some("HTTP " + Strings.IntToString(status)) && r.data == h.data && !r.loading
  {
    assert Live(Rerun(h), |h.cancelled|);
  }

  /** What can happen to a mounted hook. */
  datatype Event = DepsChanged | Reply(run: nat, resp: Fetch.Response<Json.Value>) | Unmount

  function Replay(h: Hook, events: seq<Event>): (r: Hook)
    requires AtMostNewestLive(h)
    ensures AtMostNewestLive(r)
  {
    if events == [] then h
    else
      var s := Replay(h, events[..|events| - 1]);
      match events[|events| - 1]
      case DepsChanged => Rerun(s)
      case Reply(run, resp) => Settle(s, run, resp)
      case Unmount => Cleanup(s)
  }

  /** Once unmounted, however many replies still arrive, the state is the
      one the unmount left. */
  lemma {:induction false} UnmountIsFinal(h: Hook, events: seq<Event>)
    requires AtMostNewestLive(h)
    requires forall i :: 0 <= i < |events| ==> events[i].Reply?
    ensures Replay(Cleanup(h), events) == Cleanup(h)
  {
    if events != [] {
      UnmountIsFinal(h, events[..|events| - 1]);
      var e := events[|events| - 1];
      UnmountedIgnoresReplies(h, e.run, e.resp);
    }
  }
}

=== FILE: json.dfy ===
/** The JSON value shared by the workflow engine, the notification center and the
    front-end state: serde_json's `Value` with integer numbers. Objects are kept as
    member lists in their iteration order. */
module Json {
  import opened Wrappers
  import Strings

  datatype Value =
    | Null
    | Bool(b: bool)
    | Num(n: int)
    | Str(s: string)
    | Arr(items: seq<Value>)
    | Obj(fields: seq<Field>)

  datatype Field = Field(key: string, value: Value)

  /** Member keys are distinct, as in a serde_json `Map`. */
  predicate UniqueKeys(fields: seq<Field>) {
    forall i, j :: 0 <= i < j < |fields| ==> fields[i].key != fields[j].key
  }

  /** The value stored under `key` in a member list. */
  function Find(fields: seq<Field>, key: string): (r: Option<Value>)
    ensures r.None? <==> forall i :: 0 <= i < |fields| ==> fields[i].key != key
    ensures r.Some? ==> exists i :: 0 <= i < |fields| && fields[i].key == key && fields[i].value == r.value
  {
    if fields == [] then None
    else if fields[0].key == key then Some(fields[0].value)
    else
      var r := Find(fields[1..], key);
      assert forall i :: 1 <= i < |fields| ==> fields[i] == fields[1..][i - 1];
      r
  }

  /** With distinct keys, each member is found under its own key. */
  lemma FindUnique(fields: seq<Field>, i: nat)
    requires UniqueKeys(fields) && i < |fields|
    ensures Find(fields, fields[i].key) == Some(fields[i].value)
  {
  }

  /** serde_json `Value::get(&str)`: an object's member; every other kind of value
      has no members. */
  function Get(v: Value, key: string): Option<Value> {
    if v.Obj? then Find(v.fields, key) else None
  }

  /** serde_json `Value::as_str`. */
  function AsStr(v: Value): Option<string> {
    if v.Str? then Some(v.s) else None
  }

  /** `serde_json::json!({})`-style object construction. */
  function ObjectOf(fields: seq<Field>): Value {
    Obj(fields)
  }

  /** serde_json `Map::insert`: replaces the value of an existing key in place,
      otherwise appends a new member. */
  function Insert(fields: seq<Field>, key: string, v: Value): seq<Field>
  {
    if fields == [] then [Field(key, v)]
    else if fields[0].key == key then [Field(key, v)] + fields[1..]
    else [fields[0]] + Insert(fields[1..], key, v)
  }

  /** After an insert, the key holds the new value and every other key keeps its own. */
  lemma {:induction false} InsertFind(fields: seq<Field>, key: string, v: Value, k: string)
    ensures Find(Insert(fields, key, v), k) == (if k == key then Some(v) else Find(fields, k))
  {
    if fields != [] && fields[0].key != key {
      InsertFind(fields[1..], key, v, k);
      assert Insert(fields, key, v)[1..] == Insert(fields[1..], key, v);
    } else if fields != [] {
      assert Insert(fields, key, v)[1..] == fields[1..];
    }
  }

  // ------------------------------------------------------------- path lookup

  /** The text a scalar shows: strings verbatim, numbers and booleans through
      `to_string`; null, arrays and objects have none. */
  function ScalarText(v: Value): (r: Option<string>)
    ensures r.Some? <==> (v.Str? || v.Num? || v.Bool?)
    ensures v.Str? ==> r == Some(v.s)
  {
    match v
    case Str(s) => Some(s)
    case Num(n) => Some(Strings.IntToString(n))
    case Bool(b) => Some(if b then "true" else "false")
    case _ => None
  }

  /** Follows a list of member keys from `v`. */
  function Walk(v: Value, segs: seq<string>): Option<Value>
    decreases |segs|
  {
    if segs == [] then Some(v)
    else match Get(v, segs[0])
      case None => None
      case Some(c) => Walk(c, segs[1..])
  }

  /** `get_json_path_str` (workflow core) and `lookup` (notification templates):
      follow the `.`-separated keys of `path`, then show the scalar found. */
  function PathScalar(v: Value, path: string): Option<string> {
    match Walk(v, Strings.Split(path, '.'))
    case None => None
    case Some(x) => ScalarText(x)
  }

  /** A path without dots is a single member lookup. */
  lemma PathScalarKey(v: Value, key: string)
    requires '.' !in key
    ensures PathScalar(v, key) == (match Get(v, key) case None => None case Some(x) => ScalarText(x))
  {
    Strings.SplitNoSep(key, '.');
    assert [key][1..] == [];
    match Get(v, key)
    case None =>
    case Some(c) => assert Walk(v, [key]) == Walk(c, []);
  }

  /** `a.rest` looks `a` up first and then follows `rest` inside the member found;
      a missing member ends the lookup with nothing. */
  lemma PathScalarStep(v: Value, key: string, rest: string)
    requires '.' !in key
    ensures PathScalar(v, key + "." + rest)
            == (match Get(v, key) case None => None case Some(c) => PathScalar(c, rest))
  {
    Strings.SplitPrefix(key, rest, '.');
    assert key + "." + rest == key + ['.'] + rest;
    var segs := Strings.Split(key + "." + rest, '.');
    assert segs[1..] == Strings.Split(rest, '.');
  }

  /** Whatever the lookup finds is the text of a string, number or boolean
      reached by following the keys. */
  lemma PathScalarFound(v: Value, path: string)
    requires PathScalar(v, path).Some?
    ensures var x := Walk(v, Strings.Split(path, '.'));
            x.Some? && (x.value.Str? || x.value.Num? || x.value.Bool?)
            && ScalarText(x.value) == PathScalar(v, path)
  {
  }

  // ---------------------------------------------------- serde_json text form

  const HexDigits: string := "0123456789abcdef"

  /** serde_json's escape of one character inside a string literal. */
  function EscapeChar(c: char): string {
    if c == '"' then "\\\""
    else if c == '\\' then "\\\\"
    else if c == '\n' then "\\n"
    else if c == '\r' then "\\r"
    else if c == '\t' then "\\t"
    else if c == '\U{0008}' then "\\b"
    else if c == '\U{000C}' then "\\f"
    else if c < ' ' then "\\u00" + [HexDigits[c as int / 16], HexDigits[c as int % 16]]
    else [c]
  }

  function Escape(s: string): string {
    if s == [] then [] else EscapeChar(s[0]) + Escape(s[1..])
  }

  /** A string as a JSON literal. */
  function Quote(s: string): string {
    "\"" + Escape(s) + "\""
  }

  /** Value of a lowercase hexadecimal digit. */
  function HexValue(c: char): Option<nat> {
    if '0' <= c <= '9' then Some(c as int - '0' as int)
    else if 'a' <= c <= 'f' then Some(c as int - 'a' as int + 10)
    else None
  }

  /** Reads back the body of a JSON string literal written by `Escape`. */
  function Unescape(t: string): Option<string>
    decreases |t|
  {
    if t == [] then Some([])
    else if t[0] != '\\' then
      match Unescape(t[1..])
      case None => None
      case Some(r) => Some([t[0]] + r)
    else if |t| < 2 then None
    else
      var e := t[1];
      var simple :=
        if e == '"' then Some('"') else if e == '\\' then Some('\\')
        else if e == 'n' then Some('\n') else if e == 'r' then Some('\r')
        else if e == 't' then Some('\t') else if e == 'b' then Some('\U{0008}')
        else if e == 'f' then Some('\U{000C}') else None;
      if simple.Some? then
        match Unescape(t[2..])
        case None => None
        case Some(r) => Some([simple.value] + r)
      else if e == 'u' && |t| >= 6 && t[2] == '0' && t[3] == '0'
              && HexValue(t[4]).Some? && HexValue(t[5]).Some?
              && HexValue(t[4]).value < 2 then
        match Unescape(t[6..])
        case None => None
        case Some(r) => Some([(HexValue(t[4]).value * 16 + HexValue(t[5]).value) as char] + r)
      else None
  }

  lemma UnescapeOne(c: char, rest: string)
    ensures Unescape(EscapeChar(c) + rest)
            == (match Unescape(rest) case None => None case Some(r) => Some([c] + r))
  {
    var t := EscapeChar(c) + rest;
    if c < ' ' && c != '\n' && c != '\r' && c != '\t' && c != '\U{0008}' && c != '\U{000C}' {
      var hi := c as int / 16;
      var lo := c as int % 16;
      assert t[4] == HexDigits[hi] && t[5] == HexDigits[lo];
      assert HexValue(HexDigits[hi]) == Some(hi);
      assert HexValue(HexDigits[lo]) == Some(lo);
      assert t[6..] == rest;
    } else if c == '"' || c == '\\' || c == '\n' || c == '\r' || c == '\t'
              || c == '\U{0008}' || c == '\U{000C}' {
      assert t[2..] == rest;
    } else {
      assert t[1..] == rest;
    }
  }

  /** Escaping loses nothing: the literal reads back as the original string, so
      two strings have the same JSON text only if they are equal. */
  lemma {:induction false} UnescapeEscape(s: string)
    ensures Unescape(Escape(s)) == Some(s)
  {
    if s != [] {
      UnescapeEscape(s[1..]);
      UnescapeOne(s[0], Escape(s[1..]));
      assert [s[0]] + s[1..] == s;
    }
  }

  /** serde_json's compact `to_string`. */
  function Text(v: Value): string
    decreases v, 2
  {
    match v
    case Null => "null"
    case Bool(b) => if b then "true" else "false"
    case Num(n) => Strings.IntToString(n)
    case Str(s) => Quote(s)
    case Arr(items) => "[" + ItemsText(items, v) + "]"
    case Obj(fields) => "{" + FieldsText(fields, v) + "}"
  }

  function ItemsText(items: seq<Value>, ghost parent: Value): string
    requires forall i :: 0 <= i < |items| ==> items[i] < parent
    decreases parent, 1, |items|
  {
    if items == [] then ""
    else if |items| == 1 then Text(items[0])
    else Text(items[0]) + "," + ItemsText(items[1..], parent)
  }

  function FieldsText(fields: seq<Field>, ghost parent: Value): string
    requires forall i :: 0 <= i < |fields| ==> fields[i].value < parent
    decreases parent, 1, |fields|
  {
    if fields == [] then ""
    else
      var one := Quote(fields[0].key) + ":" + Text(fields[0].value);
      if |fields| == 1 then one else one + "," + FieldsText(fields[1..], parent)
  }
}

=== FILE: layout.dfy ===
/** The dashboard frame: the breadcrumb names the last non-empty `/`-segment of
    the current path ("overview" at the root), and the sidebar toggle flips the
    collapsed flag. */
module Layout {
  import Strings

  /** `filter(Boolean)` on strings: the non-empty ones, in order. */
  function NonEmpty(pieces: seq<string>): (r: seq<string>)
    ensures |r| <= |pieces|
    ensures forall i :: 0 <= i < |r| ==> r[i] != [] && r[i] in pieces
    ensures forall x :: x in pieces && x != [] ==> x in r
  {
    if pieces == [] then []
    else
      var rest := NonEmpty(pieces[1..]);
      assert forall x :: x in pieces[1..] ==> x in pieces;
      assert forall x :: x in pieces ==> x == pieces[0] || x in pieces[1..];
      (if pieces[0] == [] then [] else [pieces[0]]) + rest
  }

  lemma {:induction false} NonEmptyAppend(a: seq<string>, b: seq<string>)
    ensures NonEmpty(a + b) == NonEmpty(a) + NonEmpty(b)
  {
    if a == [] {
      assert a + b == b;
    } else {
      assert (a + b)[1..] == a[1..] + b;
      NonEmptyAppend(a[1..], b);
    }
  }

  /** `pathname.split("/").filter(Boolean)`. */
  function Segments(path: string): (r: seq<string>)
    ensures forall i :: 0 <= i < |r| ==> r[i] != [] && '/' !in r[i]
  {
    var pieces := Strings.Split(path, '/');
    var r := NonEmpty(pieces);
    assert forall i :: 0 <= i < |r| ==> '/' !in r[i] by {
      forall i | 0 <= i < |r| ensures '/' !in r[i] {
        var j :| 0 <= j < |pieces| && pieces[j] == r[i];
      }
    }
    r
  }

  /** The breadcrumb's page name. */
  function Current(path: string): (r: string)
    ensures r != [] && '/' !in r
    ensures Segments(path) == [] ==> r == "overview"
    ensures Segments(path) != [] ==> r == Segments(path)[|Segments(path)| - 1]
  {
    var segs := Segments(path);
    if |segs| == 0 then "overview" else segs[|segs| - 1]
  }

  /** Cutting a path at a `/` splits its segments there. */
  lemma SegmentsAround(x: string, y: string)
    ensures Segments(x + "/" + y) == Segments(x) + Segments(y)
  {
    Strings.SplitAround(x, y, '/');
    NonEmptyAppend(Strings.Split(x, '/'), Strings.Split(y, '/'));
  }

  lemma NoSegmentsInEmpty()
    ensures Segments("") == []
  {
    assert Strings.Split("", '/') == [""];
  }

  /** The root path and the empty path both show "overview". */
  lemma RootIsOverview()
    ensures Current("/") == "overview" && Current("") == "overview"
  {
    NoSegmentsInEmpty();
    SegmentsAround("", "");
  }

  /** A trailing slash does not change the breadcrumb. */
  lemma TrailingSlashIgnored(path: string)
    ensures Current(path + "/") == Current(path)
  {
    SegmentsAround(path, "");
    NoSegmentsInEmpty();
    assert path + "/" + "" == path + "/";
    assert Segments(path) + [] == Segments(path);
  }

  /** A leading slash adds no segment. */
  lemma LeadingSlashIgnored(y: string)
    ensures Segments("/" + y) == Segments(y)
  {
    SegmentsAround("", y);
    NoSegmentsInEmpty();
    assert "" + "/" + y == "/" + y;
  }

  /** Doubling a slash does not change the breadcrumb. */
  lemma RepeatedSlashIgnored(x: string, y: string)
    ensures Current(x + "//" + y) == Current(x + "/" + y)
  {
    var t := "/" + y;
    assert x + "//" + y == x + "/" + t;
    SegmentsAround(x, t);
    LeadingSlashIgnored(y);
    SegmentsAround(x, y);
  }

  /** A path ending in a non-empty, slash-free name shows that name. */
  lemma LastNameShown(x: string, name: string)
    requires name != [] && '/' !in name
    ensures Current(x + "/" + name) == name
  {
    SegmentsAround(x, name);
    Strings.SplitNoSep(name, '/');
    assert NonEmpty([name]) == [name] by {
      assert [name][1..] == [];
    }
  }

  /** The layout's own state: whether the sidebar is collapsed, and the
      current path (owned by the router, never changed here). */
  datatype View = View(collapsed: bool, pathname: string)

  /** The header text. */
  function Breadcrumb(v: View): string {
    "控制台 / " + Current(v.pathname)
  }

  /** `toggleSidebar`: the collapsed flag flips, and the path and the
      breadcrumb stay as they were. */
  function Toggle(v: View): (r: View)
    ensures r.collapsed != v.collapsed
    ensures r.pathname == v.pathname && Breadcrumb(r) == Breadcrumb(v)
  {
    v.(collapsed := !v.collapsed)
  }
}

=== FILE: nc_channel.dfy ===
/** Channel selection for a notification: the scene's category fixes a base
    priority list, a recognised channel hint moves to the front, and sending
    falls back along the list. User preferences, channel availability and the
    channel senders are parameters. */
module NotifyChannel {
  import opened Wrappers
  import Strings
  import opened NotifyTypes

  datatype SceneCategory = StrongVerify | StrongRemind | Marketing | UserCare | SystemNotify

  /** `classify_scene`: substring rules tried in a fixed order, the first that
      matches deciding. */
  function ClassifyScene(scene: string): (cat: SceneCategory)
    ensures cat == StrongVerify <==> Strings.Contains(scene, "verify") || Strings.Contains(scene, "otp")
    ensures cat == StrongRemind <==>
              (cat != StrongVerify && (Strings.Contains(scene, "order") || Strings.Contains(scene, "payment")))
    ensures cat == Marketing <==>
              (cat !in {StrongVerify, StrongRemind}
               && (Strings.Contains(scene, "marketing") || Strings.Contains(scene, "campaign")))
    ensures cat == UserCare <==>
              (cat !in {StrongVerify, StrongRemind, Marketing}
               && (Strings.Contains(scene, "birthday") || Strings.Contains(scene, "care")))
  {
    if Strings.Contains(scene, "verify") || Strings.Contains(scene, "otp") then StrongVerify
    else if Strings.Contains(scene, "order") || Strings.Contains(scene, "payment") then StrongRemind
    else if Strings.Contains(scene, "marketing") || Strings.Contains(scene, "campaign") then Marketing
    else if Strings.Contains(scene, "birthday") || Strings.Contains(scene, "care") then UserCare
    else SystemNotify
  }

  /** An earlier rule wins: a one-time-password scene about an order is still
      a verification. */
  lemma ClassifyFirstRuleWins()
    ensures Strings.Contains("order_otp", "order")
    ensures ClassifyScene("order_otp") == StrongVerify
  {
    Strings.ContainsAt("order_otp", "otp", 6);
    Strings.ContainsAt("order_otp", "order", 0);
  }

  function BaseChannels(cat: SceneCategory): seq<Channel> {
    match cat
    case StrongVerify => [Sms, Inbox]
    case StrongRemind => [Push, Sms, Inbox]
    case Marketing => [Push, Email, Inbox]
    case UserCare => [Inbox, Email, Push]
    case SystemNotify => [Inbox, Email]
  }

  predicate NoDup(s: seq<Channel>) {
    forall i, j :: 0 <= i < j < |s| ==> s[i] != s[j]
  }

  /** `s` without `c`, the rest in order. */
  function Without(s: seq<Channel>, c: Channel): seq<Channel> {
    if s == [] then []
    else if s[0] == c then Without(s[1..], c)
    else [s[0]] + Without(s[1..], c)
  }

  /** Removing `c` drops exactly `c` and never creates a repeat. */
  lemma {:induction false} WithoutContents(s: seq<Channel>, c: Channel)
    ensures c !in Without(s, c)
    ensures forall x :: x != c ==> (x in Without(s, c) <==> x in s)
    ensures NoDup(s) ==> NoDup(Without(s, c))
  {
    if s != [] {
      WithoutContents(s[1..], c);
      var rest := Without(s[1..], c);
      if s[0] != c {
        assert Without(s, c) == [s[0]] + rest;
        assert NoDup(s) ==> s[0] !in s[1..];
      }
    }
  }

  /** The first position holding `c`. */
  function FirstIndex(s: seq<Channel>, c: Channel): (p: nat)
    requires c in s
    ensures p < |s| && s[p] == c && c !in s[..p]
  {
    if s[0] == c then 0
    else
      var p := FirstIndex(s[1..], c);
      assert s[..p + 1] == [s[0]] + s[1..][..p];
      p + 1
  }

  /** `Vec::remove` at the first position holding `c`, if any. */
  function RemoveFirst(s: seq<Channel>, c: Channel): seq<Channel> {
    if c in s then s[..FirstIndex(s, c)] + s[FirstIndex(s, c) + 1..] else s
  }

  lemma {:induction false} WithoutAppend(a: seq<Channel>, b: seq<Channel>, c: Channel)
    ensures Without(a + b, c) == Without(a, c) + Without(b, c)
  {
    if a == [] {
      assert a + b == b;
    } else {
      var x, t := a[0], a[1..];
      assert a == [x] + t;
      assert a + b == [x] + (t + b);
      WithoutAppend(t, b, c);
      WithoutCons(x, t, c);
      WithoutCons(x, t + b, c);
    }
  }

  lemma WithoutCons(x: Channel, s: seq<Channel>, c: Channel)
    ensures Without([x] + s, c) == if x == c then Without(s, c) else [x] + Without(s, c)
  {
    assert ([x] + s)[1..] == s;
  }

  lemma {:induction false} WithoutAbsent(s: seq<Channel>, c: Channel)
    requires c !in s
    ensures Without(s, c) == s
  {
    if s != [] {
      WithoutAbsent(s[1..], c);
    }
  }

  /** In a list without repeats, removing the first `c` removes every `c`,
      leaving the other channels in their order. */
  lemma RemoveFirstNoDup(s: seq<Channel>, c: Channel)
    requires NoDup(s)
    ensures RemoveFirst(s, c) == Without(s, c)
  {
    if c in s {
      var p := FirstIndex(s, c);
      LaterCopiesAbsent(s, p);
      WithoutAround(s[..p], s[p + 1..], c);
      assert s == s[..p] + [c] + s[p + 1..];
    } else {
      WithoutAbsent(s, c);
    }
  }

  /** In a list without repeats nothing after position `p` equals `s[p]`. */
  lemma LaterCopiesAbsent(s: seq<Channel>, p: nat)
    requires NoDup(s) && p < |s|
    ensures s[p] !in s[p + 1..]
  {
    var post := s[p + 1..];
    forall j | 0 <= j < |post| ensures post[j] != s[p] {
      assert post[j] == s[p + 1 + j];
    }
  }

  /** Removing the one `c` between two `c`-free pieces joins the pieces. */
  lemma WithoutAround(pre: seq<Channel>, post: seq<Channel>, c: Channel)
    requires c !in pre && c !in post
    ensures Without(pre + [c] + post, c) == pre + post
  {
    var x := pre + [c];
    WithoutAppend(x, post, c);
    WithoutAppend(pre, [c], c);
    assert Without([c], c) == [] by {
      assert [c][1..] == [];
    }
    WithoutAbsent(pre, c);
    WithoutAbsent(post, c);
    assert Without(x, c) == pre by {
      assert pre + [] == pre;
    }
  }

  /** `priority_channels`. A hint naming one of the four channels moves that
      channel to the front (added if the base list lacks it); any other hint,
      or none, leaves the category's list as it is. */
  function PriorityChannels(scene: string, hint: Option<string>): (r: seq<Channel>)
    ensures var base := BaseChannels(ClassifyScene(scene));
            if hint.Some? && ParseChannel(hint.value).Some?
            then r == [ParseChannel(hint.value).value] + Without(base, ParseChannel(hint.value).value)
            else r == base
    ensures NoDup(r) && Inbox in r && |r| >= 2
  {
    var base := BaseChannels(ClassifyScene(scene));
    BaseChannelsShape(ClassifyScene(scene));
    if hint.Some? && ParseChannel(hint.value).Some? then
      var c := ParseChannel(hint.value).value;
      MoveToFront(base, c);
      [c] + RemoveFirst(base, c)
    else base
  }

  /** Every category's list has no repeats, includes the inbox and has at
      least two channels. */
  lemma BaseChannelsShape(cat: SceneCategory)
    ensures var base := BaseChannels(cat);
            NoDup(base) && Inbox in base && |base| >= 2
  {
  }

  /** Moving `c` to the front of a repeat-free list holding the inbox keeps
      it repeat-free, keeps the inbox, and drops every other copy of `c`. */
  lemma MoveToFront(base: seq<Channel>, c: Channel)
    requires NoDup(base) && Inbox in base && |base| >= 2
    ensures var r := [c] + RemoveFirst(base, c);
            r == [c] + Without(base, c) && NoDup(r) && Inbox in r && |r| >= 2
  {
    RemoveFirstNoDup(base, c);
    WithoutContents(base, c);
    var r := [c] + RemoveFirst(base, c);
    assert Inbox != c ==> Inbox in Without(base, c);
    assert forall i :: 1 <= i < |r| ==> r[i] in Without(base, c);
    if c in base {
      assert |RemoveFirst(base, c)| == |base| - 1;
    }
  }

  /** The front of the list is the hinted channel, it appears once, and the
      other channels keep their order from the base list. */
  lemma HintFirst(scene: string, h: string)
    requires ParseChannel(h).Some?
    ensures var r := PriorityChannels(scene, Some(h));
            var c := ParseChannel(h).value;
            r[0] == c && c !in r[1..] && r[1..] == Without(BaseChannels(ClassifyScene(scene)), c)
  {
  }

  /** What a fallback send ends with; the latency is left out. */
  datatype Outcome = Outcome(channel: Channel, status: MessageStatus, error: Option<string>)

  /** The user's preference lookup, the channel's availability and the
      sender's verdict for one channel. */
  datatype Oracles = Oracles(pref: Channel -> Result<bool, string>, up: Channel -> bool, send: Channel -> bool)

  /** A channel is tried unless the user turned it off (a failed preference
      lookup does not skip it) or it is down. */
  predicate Tried(o: Oracles, c: Channel) {
    o.pref(c) != Ok(false) && o.up(c)
  }

  predicate Succeeds(o: Oracles, c: Channel) {
    Tried(o, c) && o.send(c)
  }

  const AllFailed: Outcome := Outcome(Inbox, Failed, Some("all channels failed"))

  /** The channels of `s` that are tried, in order. */
  function TriedIn(s: seq<Channel>, o: Oracles): (r: seq<Channel>)
    ensures forall i :: 0 <= i < |r| ==> Tried(o, r[i]) && r[i] in s
  {
    if s == [] then [] else (if Tried(o, s[0]) then [s[0]] else []) + TriedIn(s[1..], o)
  }

  /** The metric a send through channel `c` reports its latency under. */
  function LatencyMetric(c: Channel): string {
    "notification_channel_latency_ms_" + ChannelName(c)
  }

  /** `send_with_fallback`: the first channel in priority order that is tried
      and sends delivers the message; when none does, the result is a failure
      recorded against the inbox. The second component lists the channels
      actually sent through, each of which reports its latency: every tried
      channel up to and including the one that delivers, or every tried
      channel when none does. */
  function SendWithFallback(pri: seq<Channel>, o: Oracles): (r: (Outcome, seq<Channel>))
    ensures r.0.status == Delivered <==> exists i :: 0 <= i < |pri| && Succeeds(o, pri[i])
    ensures r.0.status == Delivered ==>
              r.0.error.None?
              && exists i :: 0 <= i < |pri| && r.0.channel == pri[i] && Succeeds(o, pri[i])
                             && (forall j :: 0 <= j < i ==> !Succeeds(o, pri[j]))
                             && r.1 == TriedIn(pri[..i], o) + [pri[i]]
    ensures r.0.status != Delivered ==> r.0 == AllFailed && r.1 == TriedIn(pri, o)
  {
    if pri == [] then (AllFailed, [])
    else if Succeeds(o, pri[0]) then
      assert pri[..0] == [];
      (Outcome(pri[0], Delivered, None), [pri[0]])
    else
      var r := SendWithFallback(pri[1..], o);
      var head := if Tried(o, pri[0]) then [pri[0]] else [];
      if r.0.status == Delivered then
        FallbackLater(pri, o, r.0.channel, r.1);
        (r.0, head + r.1)
      else
        assert TriedIn(pri, o) == head + TriedIn(pri[1..], o);
        (r.0, head + r.1)
  }

  /** A delivery found after an unsuccessful first channel is, for the whole
      list, the first success, sent through after the tried channels before it. */
  lemma FallbackLater(pri: seq<Channel>, o: Oracles, ch: Channel, sent: seq<Channel>)
    requires pri != [] && !Succeeds(o, pri[0])
    requires exists i :: 0 <= i < |pri[1..]| && ch == pri[1..][i] && Succeeds(o, pri[1..][i])
                         && (forall j :: 0 <= j < i ==> !Succeeds(o, pri[1..][j]))
                         && sent == TriedIn(pri[1..][..i], o) + [pri[1..][i]]
    ensures exists i :: 0 <= i < |pri| && ch == pri[i] && Succeeds(o, pri[i])
                        && (forall j :: 0 <= j < i ==> !Succeeds(o, pri[j]))
                        && (if Tried(o, pri[0]) then [pri[0]] else []) + sent == TriedIn(pri[..i], o) + [pri[i]]
  {
    var rest := pri[1..];
    var i :| 0 <= i < |rest| && ch == rest[i] && Succeeds(o, rest[i])
             && (forall j :: 0 <= j < i ==> !Succeeds(o, rest[j]))
             && sent == TriedIn(rest[..i], o) + [rest[i]];
    assert pri[i + 1] == rest[i];
    forall j | 0 <= j < i + 1 ensures !Succeeds(o, pri[j]) {
      if j > 0 {
        assert pri[j] == rest[j - 1];
      }
    }
    var pre := pri[..i + 1];
    assert pre[0] == pri[0] && pre[1..] == rest[..i];
    assert TriedIn(pre, o) == (if Tried(o, pri[0]) then [pri[0]] else []) + TriedIn(rest[..i], o);
  }
}

=== FILE: nc_db.dfy ===
/** The notification center's tables (`notification_history`,
    `notification_templates`, `notification_user_pref`) as values, and the
    queries the pipeline issues against them. Timestamps are integers (ms);
    `backend` parameters stand for the database failing for reasons of its own. */
module NotifyDb {
  import opened Wrappers
  import opened NotifyTypes

  // ------------------------------------------------------ send history

  /** One `notification_history` row. The status is stored as its text. */
  datatype HistoryRow = HistoryRow(
    userId: string, scene: string, channel: string, content: string, status: string,
    traceId: string, error: Option<string>, retries: int, createdAt: int,
    waitingAt: Option<int>, processingAt: Option<int>,
    sentAt: Option<int>, deliveredAt: Option<int>, failedAt: Option<int>)

  /** The table keyed by its UNIQUE `msg_id` column. */
  type History = map<string, HistoryRow>

  datatype DbError = UniqueViolation | Backend(message: string)

  /** `insert_waiting`: a fresh record in state waiting, no channel or content
      yet, no retries, waiting since its creation. A second record with the same
      message id violates the UNIQUE constraint. */
  function InsertWaiting(h: History, msgId: string, userId: string, scene: string, traceId: string,
                         createdAt: int, backend: Option<string>): (r: Result<History, DbError>)
    ensures r.Ok? <==> backend.None? && msgId !in h
    ensures msgId in h && backend.None? ==> r == Err(UniqueViolation)
    ensures r.Ok? ==> r.value.Keys == h.Keys + {msgId}
                      && (forall m :: m in h ==> r.value[m] == h[m])
                      && var row := r.value[msgId];
                         row.status == StatusName(Waiting) && row.retries == 0
                         && row.channel == "" && row.content == "" && row.error.None?
                         && row.userId == userId && row.scene == scene && row.traceId == traceId
                         && row.createdAt == createdAt && row.waitingAt == Some(createdAt)
                         && row.processingAt.None? && row.sentAt.None?
                         && row.deliveredAt.None? && row.failedAt.None?
  {
    if backend.Some? then Err(Backend(backend.value))
    else if msgId in h then Err(UniqueViolation)
    else Ok(h[msgId := HistoryRow(userId, scene, "", "", "waiting", traceId, None, 0, createdAt,
                                  Some(createdAt), None, None, None, None)])
  }

  /** `update_status_processing`: marks the record processing and stamps
      `processing_at`, whatever its status was; an unknown id updates nothing. */
  function UpdateProcessing(h: History, msgId: string, now: int, backend: Option<string>)
    : (r: Result<History, DbError>)
    ensures r.Err? <==> backend.Some?
    ensures r.Ok? ==> r.value.Keys == h.Keys && forall m :: m in h && m != msgId ==> r.value[m] == h[m]
    ensures r.Ok? && msgId in h ==>
              r.value[msgId] == h[msgId].(status := StatusName(Processing), processingAt := Some(now))
  {
    if backend.Some? then Err(Backend(backend.value))
    else if msgId !in h then Ok(h)
    else Ok(h[msgId := h[msgId].(status := "processing", processingAt := Some(now))])
  }

  /** The timestamps a final update offers, as (sent, delivered, failed): only
      the one matching the status, none for blocked or any other status. */
  function FinalStamps(st: MessageStatus, now: int): (r: (Option<int>, Option<int>, Option<int>))
    ensures r.0.Some? <==> st == Sent
    ensures r.1.Some? <==> st == Delivered
    ensures r.2.Some? <==> st == Failed
    ensures r.0.GetOr(now) == now && r.1.GetOr(now) == now && r.2.GetOr(now) == now
  {
    match st
    case Sent => (Some(now), None, None)
    case Delivered => (None, Some(now), None)
    case Failed => (None, None, Some(now))
    case Blocked => (None, None, None)
    case _ => (None, None, None)
  }

  /** SQL `COALESCE(stored, offered)`: a value already present wins. */
  function Coalesce(stored: Option<int>, offered: Option<int>): (r: Option<int>)
    ensures stored.Some? ==> r == stored
    ensures stored.None? ==> r == offered
  {
    if stored.Some? then stored else offered
  }

  /** `update_status_final`: overwrites status, channel, content, error and
      retries; a final timestamp is written only if it was never set. */
  function UpdateFinal(h: History, msgId: string, st: MessageStatus, ch: Channel, content: string,
                       error: Option<string>, retries: int, now: int, backend: Option<string>)
    : (r: Result<History, DbError>)
    ensures r.Err? <==> backend.Some?
    ensures r.Ok? ==> r.value.Keys == h.Keys && forall m :: m in h && m != msgId ==> r.value[m] == h[m]
    ensures r.Ok? && msgId in h ==>
              var was := h[msgId];
              var row := r.value[msgId];
              row.status == StatusName(st) && row.channel == ChannelName(ch) && row.content == content
              && row.error == error && row.retries == retries
              && row.userId == was.userId && row.scene == was.scene && row.traceId == was.traceId
              && row.createdAt == was.createdAt && row.waitingAt == was.waitingAt
              && row.processingAt == was.processingAt
              && row.sentAt == (if was.sentAt.Some? then was.sentAt else if st == Sent then Some(now) else None)
              && row.deliveredAt == (if was.deliveredAt.Some? then was.deliveredAt
                                     else if st == Delivered then Some(now) else None)
              && row.failedAt == (if was.failedAt.Some? then was.failedAt else if st == Failed then Some(now) else None)
  {
    if backend.Some? then Err(Backend(backend.value))
    else if msgId !in h then Ok(h)
    else
      var stamps := FinalStamps(st, now);
      var was := h[msgId];
      var row := was.(status := StatusName(st), channel := ChannelName(ch), content := content,
                      error := error, retries := retries,
                      sentAt := Coalesce(was.sentAt, stamps.0),
                      deliveredAt := Coalesce(was.deliveredAt, stamps.1),
                      failedAt := Coalesce(was.failedAt, stamps.2));
      Ok(h[msgId := row])
  }

  /** A change to the history table the pipeline can make. */
  datatype Update =
    | ToProcessing(msgId: string, now: int)
    | ToFinal(msgId: string, st: MessageStatus, ch: Channel, content: string, error: Option<string>,
              retries: int, now: int)

  function Apply(h: History, u: Update): History {
    match u
    case ToProcessing(m, now) => UpdateProcessing(h, m, now, None).value
    case ToFinal(m, st, ch, c, e, k, now) => UpdateFinal(h, m, st, ch, c, e, k, now, None).value
  }

  function ApplyAll(h: History, us: seq<Update>): History
    decreases |us|
  {
    if us == [] then h else ApplyAll(Apply(h, us[0]), us[1..])
  }

  /** `b` keeps `a`'s creation and waiting times and every final timestamp
      `a` has. */
  predicate StampsKept(a: HistoryRow, b: HistoryRow) {
    b.createdAt == a.createdAt && b.waitingAt == a.waitingAt
    && (a.sentAt.Some? ==> b.sentAt == a.sentAt)
    && (a.deliveredAt.Some? ==> b.deliveredAt == a.deliveredAt)
    && (a.failedAt.Some? ==> b.failedAt == a.failedAt)
  }

  /** One update keeps every row and its stamps. */
  lemma ApplyKeepsStamps(h: History, u: Update, m: string)
    requires m in h
    ensures m in Apply(h, u) && StampsKept(h[m], Apply(h, u)[m])
  {
  }

  lemma StampsKeptTrans(a: HistoryRow, b: HistoryRow, c: HistoryRow)
    requires StampsKept(a, b) && StampsKept(b, c)
    ensures StampsKept(a, c)
  {
  }

  /** Creation and waiting times and every final timestamp, once written, survive
      any later status updates unchanged, and rows never disappear. */
  lemma {:induction false} StampsWriteOnce(h: History, us: seq<Update>, m: string)
    requires m in h
    ensures m in ApplyAll(h, us) && StampsKept(h[m], ApplyAll(h, us)[m])
    decreases |us|
  {
    if us != [] {
      var h1 := Apply(h, us[0]);
      ApplyKeepsStamps(h, us[0], m);
      StampsWriteOnce(h1, us[1..], m);
      StampsKeptTrans(h[m], h1[m], ApplyAll(h, us)[m]);
    }
  }

  /** How `get_history` reads a stored status: the inverse of `as_str`, and
      any text it does not know reads as failed. */
  function DecodeStatus(s: string): MessageStatus {
    if s == "waiting" then Waiting
    else if s == "processing" then Processing
    else if s == "sent" then Sent
    else if s == "delivered" then Delivered
    else if s == "failed" then Failed
    else if s == "blocked" then Blocked
    else Failed
  }

  /** Decoding undoes `as_str`, and a text decodes to a status other than failed
      exactly when it is that status's name. */
  lemma DecodeStatusInverse(st: MessageStatus, s: string)
    ensures DecodeStatus(StatusName(st)) == st
    ensures DecodeStatus(s) != Failed ==> s == StatusName(DecodeStatus(s))
    ensures (forall t :: s != StatusName(t)) ==> DecodeStatus(s) == Failed
  {
  }

  /** `HistoryRecord`: what `get_history` hands back. */
  datatype HistoryRecord = HistoryRecord(msgId: string, userId: string, scene: string, channel: string,
                                         content: string, status: MessageStatus, traceId: string,
                                         error: Option<string>, retries: int, createdAt: int)

  /** `get_history`: the record of a message id, or nothing for an unknown id. */
  function GetHistory(h: History, msgId: string, backend: Option<string>)
    : (r: Result<Option<HistoryRecord>, DbError>)
    ensures r.Err? <==> backend.Some?
    ensures r.Ok? ==> (r.value.None? <==> msgId !in h)
    ensures r.Ok? && msgId in h ==>
              var row := h[msgId];
              var rec := r.value.value;
              rec.msgId == msgId && rec.userId == row.userId && rec.scene == row.scene
              && rec.channel == row.channel && rec.content == row.content
              && StatusName(rec.status) == (if row.status in {"waiting", "processing", "sent", "delivered", "blocked"}
                                            then row.status else "failed")
              && rec.traceId == row.traceId && rec.error == row.error
              && rec.retries == row.retries && rec.createdAt == row.createdAt
  {
    if backend.Some? then Err(Backend(backend.value))
    else if msgId !in h then Ok(None)
    else
      var row := h[msgId];
      Ok(Some(HistoryRecord(msgId, row.userId, row.scene, row.channel, row.content,
                            DecodeStatus(row.status), row.traceId, row.error, row.retries, row.createdAt)))
  }

  /** What a freshly queued message looks like when read back. */
  lemma ReadBackWaiting(h: History, msgId: string, userId: string, scene: string, traceId: string, createdAt: int)
    requires msgId !in h
    ensures var h' := InsertWaiting(h, msgId, userId, scene, traceId, createdAt, None).value;
            GetHistory(h', msgId, None)
            == Ok(Some(HistoryRecord(msgId, userId, scene, "", "", Waiting, traceId, None, 0, createdAt)))
  {
  }

  // ------------------------------------------------------------ templates

  datatype TemplateRow = TemplateRow(scene: string, channel: string, lang: string, version: int,
                                     content: string, isActive: int)

  predicate Candidate(t: TemplateRow, scene: string, ch: Channel) {
    t.scene == scene && t.channel == ChannelName(ch) && t.isActive == 1
  }

  /** The index of an active template for the scene and channel with the highest
      version, the earliest such row among equal versions. */
  function BestTemplate(rows: seq<TemplateRow>, scene: string, ch: Channel): (r: Option<nat>)
    ensures r.None? <==> forall i :: 0 <= i < |rows| ==> !Candidate(rows[i], scene, ch)
    ensures r.Some? ==> r.value < |rows| && Candidate(rows[r.value], scene, ch)
                        && forall i :: 0 <= i < |rows| && Candidate(rows[i], scene, ch) ==>
                             rows[i].version <= rows[r.value].version
    decreases |rows|
  {
    if rows == [] then None
    else
      var last := |rows| - 1;
      var best := BestTemplate(rows[..last], scene, ch);
      assert forall i :: 0 <= i < last ==> rows[..last][i] == rows[i];
      if !Candidate(rows[last], scene, ch) then best
      else if best.None? || rows[best.value].version < rows[last].version then Some(last)
      else best
  }

  /** `get_template`: the content of the highest-version active template for the
      scene and channel, or nothing when there is none. Among rows of equal
      version the database may return any; the model takes the first. */
  function GetTemplate(rows: seq<TemplateRow>, scene: string, ch: Channel, backend: Option<string>)
    : (r: Result<Option<string>, DbError>)
    ensures r.Err? <==> backend.Some?
    ensures r.Ok? ==> (r.value.None? <==> forall i :: 0 <= i < |rows| ==> !Candidate(rows[i], scene, ch))
    ensures r.Ok? && r.value.Some? ==>
              exists k :: 0 <= k < |rows| && Candidate(rows[k], scene, ch) && rows[k].content == r.value.value
                          && forall i :: 0 <= i < |rows| && Candidate(rows[i], scene, ch) ==>
                               rows[i].version <= rows[k].version
  {
    if backend.Some? then Err(Backend(backend.value))
    else match BestTemplate(rows, scene, ch)
      case None => Ok(None)
      case Some(k) => Ok(Some(rows[k].content))
  }

  // --------------------------------------------------- user preferences

  datatype PrefRow = PrefRow(userId: string, channel: string, enabled: int, updatedAt: int)

  predicate PrefFor(p: PrefRow, userId: string, ch: Channel) {
    p.userId == userId && p.channel == ChannelName(ch)
  }

  /** The index of the most recently updated preference row for the user and
      channel, the earliest such row among equal times. */
  function LatestPref(rows: seq<PrefRow>, userId: string, ch: Channel): (r: Option<nat>)
    ensures r.None? <==> forall i :: 0 <= i < |rows| ==> !PrefFor(rows[i], userId, ch)
    ensures r.Some? ==> r.value < |rows| && PrefFor(rows[r.value], userId, ch)
                        && forall i :: 0 <= i < |rows| && PrefFor(rows[i], userId, ch) ==>
                             rows[i].updatedAt <= rows[r.value].updatedAt
    decreases |rows|
  {
    if rows == [] then None
    else
      var last := |rows| - 1;
      var best := LatestPref(rows[..last], userId, ch);
      assert forall i :: 0 <= i < last ==> rows[..last][i] == rows[i];
      if !PrefFor(rows[last], userId, ch) then best
      else if best.None? || rows[best.value].updatedAt < rows[last].updatedAt then Some(last)
      else best
  }

  /** `is_channel_enabled`: the latest preference decides (enabled only when it
      is 1); a user who never set one gets every channel. */
  function IsChannelEnabled(rows: seq<PrefRow>, userId: string, ch: Channel, backend: Option<string>)
    : (r: Result<bool, DbError>)
    ensures r.Err? <==> backend.Some?
    ensures r.Ok? && (forall i :: 0 <= i < |rows| ==> !PrefFor(rows[i], userId, ch)) ==> r.value
    ensures r.Ok? && (exists i :: 0 <= i < |rows| && PrefFor(rows[i], userId, ch)) ==>
              exists k :: 0 <= k < |rows| && PrefFor(rows[k], userId, ch)
                          && (forall i :: 0 <= i < |rows| && PrefFor(rows[i], userId, ch) ==>
                                rows[i].updatedAt <= rows[k].updatedAt)
                          && (r.value <==> rows[k].enabled == 1)
  {
    if backend.Some? then Err(Backend(backend.value))
    else match LatestPref(rows, userId, ch)
      case None => Ok(true)
      case Some(k) => Ok(rows[k].enabled == 1)
  }
}

=== FILE: nc_mock_channels.dfy ===
/** The DingTalk and WeCom senders. Both are mock implementations whose only
    behaviour is input validation: the user id is checked first, then the
    content, and a blank value (nothing left after `trim`) is refused with a
    message naming the field. The reported latency is always zero and is left
    out. */
module MockChannels {
  import opened Wrappers
  import Strings

  datatype SendResult = SendResult(ok: bool, error: Option<string>)

  /** The refusal text of sender `tag` for the empty field `field`. */
  function Refusal(tag: string, field: string): string {
    "[notification-center][" + tag + "] " + field + " 为空，放弃发送"
  }

  /** The validation both senders share. */
  function Validate(tag: string, userId: string, content: string): (r: SendResult)
    ensures r.ok <==> !Strings.IsBlank(userId) && !Strings.IsBlank(content)
    ensures r.ok <==> r.error.None?
    ensures Strings.IsBlank(userId) ==> r.error == Some(Refusal(tag, "user_id"))
    ensures !Strings.IsBlank(userId) && Strings.IsBlank(content) ==> r.error == Some(Refusal(tag, "content"))
  {
    Strings.TrimEmptyIffBlank(userId);
    Strings.TrimEmptyIffBlank(content);
    if Strings.Trim(userId) == [] then SendResult(false, Some(Refusal(tag, "user_id")))
    else if Strings.Trim(content) == [] then SendResult(false, Some(Refusal(tag, "content")))
    else SendResult(true, None)
  }

  /** `dingtalk::send`. */
  function DingtalkSend(userId: string, content: string): (r: SendResult)
    ensures r.ok <==> !Strings.IsBlank(userId) && !Strings.IsBlank(content)
    ensures Strings.IsBlank(userId) ==> r.error == Some(Refusal("dingtalk", "user_id"))
    ensures !Strings.IsBlank(userId) && Strings.IsBlank(content) ==>
              r.error == Some(Refusal("dingtalk", "content"))
    ensures r.ok ==> r.error.None?
  {
    Validate("dingtalk", userId, content)
  }

  /** `wecom::send`. */
  function WecomSend(userId: string, content: string): (r: SendResult)
    ensures r.ok <==> !Strings.IsBlank(userId) && !Strings.IsBlank(content)
    ensures Strings.IsBlank(userId) ==> r.error == Some(Refusal("wecom", "user_id"))
    ensures !Strings.IsBlank(userId) && Strings.IsBlank(content) ==>
              r.error == Some(Refusal("wecom", "content"))
    ensures r.ok ==> r.error.None?
  {
    Validate("wecom", userId, content)
  }

  /** The user id is checked before the content: when both are blank the
      refusal names the user id, and the two refusals differ. */
  lemma UserIdFirst(tag: string, userId: string, content: string)
    requires Strings.IsBlank(userId) && Strings.IsBlank(content)
    ensures Validate(tag, userId, content).error == Some(Refusal(tag, "user_id"))
    ensures Refusal(tag, "user_id") != Refusal(tag, "content")
  {
    var p := "[notification-center][" + tag + "] ";
    assert Refusal(tag, "user_id")[|p|] == 'u';
    assert Refusal(tag, "content")[|p|] == 'c';
  }
}

=== FILE: nc_risk.dfy ===
/** The notification risk guard: a blacklist, quiet hours, and a sliding
    one-minute limit of five messages per (user, scene). The clock's hour and
    millisecond reading are parameters. */
module RiskGuard {
  import opened Wrappers

  datatype RiskError = Blacklist | TooManyRequests | QuietTime

  /** The `Display` text of each rejection, used as the recorded reason. */
  function Reason(e: RiskError): (s: string)
    ensures s != []
  {
    match e
    case Blacklist => "user is in blacklist"
    case TooManyRequests => "too many requests"
    case QuietTime => "quiet time"
  }

  const WindowMs: int := 60000
  const MaxPerWindow: nat := 5

  type Key = (string, string)

  /** The guard's process-wide state: the blacklist and, per (user, scene),
      the times of recently accepted requests. */
  datatype RiskState = RiskState(blacklist: seq<string>, rate: map<Key, seq<int>>)

  /** The list kept for a key; a key never seen has an empty one. */
  function ListOf(st: RiskState, k: Key): seq<int> {
    if k in st.rate then st.rate[k] else []
  }

  /** Local hours 22:00–07:59 are quiet. */
  predicate QuietHour(hour: nat) {
    hour >= 22 || hour < 8
  }

  /** `retain(|ts| now - ts <= 60_000)`: the entries at most a minute old, in order. */
  function Recent(ts: seq<int>, now: int): (r: seq<int>)
    ensures |r| <= |ts|
    ensures forall x :: x in r <==> x in ts && now - x <= WindowMs
  {
    if ts == [] then []
    else (if now - ts[0] <= WindowMs then [ts[0]] else []) + Recent(ts[1..], now)
  }

  /** `check_risk`. The blacklist is consulted first, then the hour, then the
      rate. Pruning stores its result even when the request is then refused;
      only an accepted request records its time, under its own key. */
  function CheckRisk(st: RiskState, user: string, scene: string, hour: nat, now: int)
    : (r: (Result<(), RiskError>, RiskState))
    ensures user in st.blacklist ==> r == (Err(Blacklist), st)
    ensures user !in st.blacklist && QuietHour(hour) ==> r == (Err(QuietTime), st)
    ensures r.1.blacklist == st.blacklist
    ensures forall k :: k != (user, scene) ==> ListOf(r.1, k) == ListOf(st, k)
    ensures user !in st.blacklist && !QuietHour(hour) ==>
              var kept := Recent(ListOf(st, (user, scene)), now);
              (r.0.Ok? <==> |kept| < MaxPerWindow)
              && (r.0.Err? ==> r.0.error == TooManyRequests && ListOf(r.1, (user, scene)) == kept)
              && (r.0.Ok? ==> ListOf(r.1, (user, scene)) == kept + [now])
  {
    if user in st.blacklist then (Err(Blacklist), st)
    else if QuietHour(hour) then (Err(QuietTime), st)
    else
      var key := (user, scene);
      var kept := Recent(ListOf(st, key), now);
      if |kept| >= MaxPerWindow then (Err(TooManyRequests), st.(rate := st.rate[key := kept]))
      else (Ok(()), st.(rate := st.rate[key := kept + [now]]))
  }

  // ------------------------------------------------ the rate bound over time

  /** One call of the guard. */
  datatype Attempt = Attempt(user: string, scene: string, hour: nat, now: int)

  function After(st: RiskState, attempts: seq<Attempt>): RiskState
    decreases |attempts|
  {
    if attempts == [] then st
    else
      var a := attempts[|attempts| - 1];
      CheckRisk(After(st, attempts[..|attempts| - 1]), a.user, a.scene, a.hour, a.now).1
  }

  /** The times of the attempts under `key` that the guard accepted, in order. */
  function Accepted(st: RiskState, attempts: seq<Attempt>, key: Key): seq<int>
    decreases |attempts|
  {
    if attempts == [] then []
    else
      var prev := attempts[..|attempts| - 1];
      var a := attempts[|attempts| - 1];
      var ok := CheckRisk(After(st, prev), a.user, a.scene, a.hour, a.now).0.Ok?;
      Accepted(st, prev, key) + (if ok && (a.user, a.scene) == key then [a.now] else [])
  }

  predicate Sorted(s: seq<int>) {
    forall i, j :: 0 <= i < j < |s| ==> s[i] <= s[j]
  }

  /** Any six accepted times span more than a minute. */
  predicate Spaced(s: seq<int>) {
    forall i :: 0 <= i && i + MaxPerWindow < |s| ==> s[i + MaxPerWindow] - s[i] > WindowMs
  }

  /** Pruning a sorted list drops a prefix of entries older than a minute. */
  lemma {:induction false} RecentSuffix(ts: seq<int>, now: int) returns (d: nat)
    requires Sorted(ts)
    ensures d <= |ts| && Recent(ts, now) == ts[d..]
    ensures forall j :: 0 <= j < d ==> now - ts[j] > WindowMs
    decreases |ts|
  {
    if ts == [] {
      d := 0;
    } else if now - ts[0] <= WindowMs {
      RecentKeepsAll(ts, now);
      d := 0;
    } else {
      var d' := RecentSuffix(ts[1..], now);
      d := d' + 1;
      assert ts[1..][d'..] == ts[d..];
    }
  }

  lemma {:induction false} RecentKeepsAll(ts: seq<int>, now: int)
    requires Sorted(ts) && ts != [] && now - ts[0] <= WindowMs
    ensures Recent(ts, now) == ts
    decreases |ts|
  {
    if |ts| > 1 {
      RecentKeepsAll(ts[1..], now);
    }
  }

  /** What the stored list for one key says about the accepted times `acc`
      once the clock has reached `t`: it is the tail `acc[m..]`, and everything
      before the tail is more than a minute old. */
  ghost predicate WindowInv(list: seq<int>, acc: seq<int>, m: int, t: int) {
    0 <= m <= |acc| && list == acc[m..] && Sorted(acc) && Spaced(acc)
    && (forall j :: 0 <= j < |acc| ==> acc[j] <= t)
    && (forall j :: 0 <= j < m ==> t - acc[j] > WindowMs)
  }

  /** A later clock reading keeps the invariant when the list is left alone. */
  lemma InvLater(list: seq<int>, acc: seq<int>, m: int, t: int, now: int)
    requires WindowInv(list, acc, m, t) && t <= now
    ensures WindowInv(list, acc, m, now)
  {
  }

  /** Pruning at `now` keeps the invariant, with a longer dropped prefix. */
  lemma InvPrune(acc: seq<int>, m: int, t: int, now: int) returns (m': int)
    requires 0 <= m <= |acc| && WindowInv(acc[m..], acc, m, t) && t <= now
    ensures m <= m' <= |acc| && Recent(acc[m..], now) == acc[m'..]
    ensures WindowInv(acc[m'..], acc, m', now)
  {
    var d := RecentSuffix(acc[m..], now);
    assert acc[m..][d..] == acc[m + d..];
    m' := m + d;
    assert forall j :: m <= j < m' ==> acc[j] == acc[m..][j - m];
  }

  /** Recording `now` after a prune that left fewer than five entries keeps
      the invariant: the entry five places back is more than a minute old. */
  lemma InvRecord(acc: seq<int>, m: int, now: int)
    requires 0 <= m <= |acc| && WindowInv(acc[m..], acc, m, now) && |acc| - m < MaxPerWindow
    ensures WindowInv(acc[m..] + [now], acc + [now], m, now)
  {
    var acc' := acc + [now];
    assert acc'[m..] == acc[m..] + [now];
    forall i | 0 <= i && i + MaxPerWindow < |acc'|
      ensures acc'[i + MaxPerWindow] - acc'[i] > WindowMs
    {
      if i + MaxPerWindow < |acc| {
        assert acc'[i + MaxPerWindow] == acc[i + MaxPerWindow] && acc'[i] == acc[i];
      } else {
        assert acc'[i] == acc[i] && i < m;
      }
    }
  }

  /** One call of the guard keeps the invariant for `key`, whoever made it. */
  lemma GuardStep(st: RiskState, a: Attempt, key: Key, acc: seq<int>, m: int, t: int)
    returns (acc': seq<int>, m': int)
    requires WindowInv(ListOf(st, key), acc, m, t) && t <= a.now
    ensures var r := CheckRisk(st, a.user, a.scene, a.hour, a.now);
            acc' == acc + (if r.0.Ok? && (a.user, a.scene) == key then [a.now] else [])
            && WindowInv(ListOf(r.1, key), acc', m', a.now)
  {
    var r := CheckRisk(st, a.user, a.scene, a.hour, a.now);
    if (a.user, a.scene) != key || a.user in st.blacklist || QuietHour(a.hour) {
      acc', m' := acc, m;
      InvLater(ListOf(st, key), acc, m, t, a.now);
    } else {
      m' := InvPrune(acc, m, t, a.now);
      if r.0.Ok? {
        acc' := acc + [a.now];
        InvRecord(acc, m', a.now);
      } else {
        acc' := acc;
      }
    }
  }

  /** Replaying one more attempt runs the guard once more on the state so far. */
  lemma ReplayStep(st: RiskState, attempts: seq<Attempt>, i: nat, key: Key)
    requires i < |attempts|
    ensures var a := attempts[i];
            var r := CheckRisk(After(st, attempts[..i]), a.user, a.scene, a.hour, a.now);
            After(st, attempts[..i + 1]) == r.1
            && Accepted(st, attempts[..i + 1], key)
               == Accepted(st, attempts[..i], key) + (if r.0.Ok? && (a.user, a.scene) == key then [a.now] else [])
  {
    assert attempts[..i + 1][..i] == attempts[..i];
    assert attempts[..i + 1][i] == attempts[i];
  }

  /** The replay loop's state after `i` attempts: the guard state and the
      accepted times are those of the first `i` attempts, the window invariant
      holds for `key`, and the clock has not passed the next attempt. */
  ghost predicate ReplayInv(st: RiskState, attempts: seq<Attempt>, key: Key, i: int, cur: RiskState,
                            acc: seq<int>, m: int, t: int) {
    0 <= i <= |attempts| && cur == After(st, attempts[..i]) && acc == Accepted(st, attempts[..i], key)
    && WindowInv(ListOf(cur, key), acc, m, t)
    && (i < |attempts| ==> t <= attempts[i].now)
  }

  /** One more attempt keeps the replay invariant. */
  lemma ReplayAdvance(st: RiskState, attempts: seq<Attempt>, key: Key, i: int, cur: RiskState,
                      acc: seq<int>, m: int, t: int) returns (acc': seq<int>, m': int)
    requires forall i, j :: 0 <= i < j < |attempts| ==> attempts[i].now <= attempts[j].now
    requires ReplayInv(st, attempts, key, i, cur, acc, m, t) && i < |attempts|
    ensures var a := attempts[i];
            var r := CheckRisk(cur, a.user, a.scene, a.hour, a.now);
            acc' == acc + (if r.0.Ok? && (a.user, a.scene) == key then [a.now] else [])
            && ReplayInv(st, attempts, key, i + 1, r.1, acc', m', a.now)
  {
    ReplayStep(st, attempts, i, key);
    acc', m' := GuardStep(cur, attempts[i], key, acc, m, t);
  }

  /** Replays a sequence of guard calls and returns the times accepted under
      `key`. With a clock that never goes back and no earlier history for the
      key, at most five requests per (user, scene) are accepted in any window
      of 60 seconds: any six accepted times span more than a minute. */
  method AcceptedTimes(st: RiskState, attempts: seq<Attempt>, key: Key) returns (acc: seq<int>)
    requires ListOf(st, key) == []
    requires forall i, j :: 0 <= i < j < |attempts| ==> attempts[i].now <= attempts[j].now
    ensures acc == Accepted(st, attempts, key)
    ensures Sorted(acc)
    ensures forall i :: 0 <= i && i + MaxPerWindow < |acc| ==> acc[i + MaxPerWindow] - acc[i] > WindowMs
  {
    acc := [];
    var cur := st;
    ghost var m := 0;
    ghost var t := if attempts == [] then 0 else attempts[0].now;
    assert attempts[..0] == [];
    var i := 0;
    while i < |attempts|
      invariant ReplayInv(st, attempts, key, i, cur, acc, m, t)
      decreases |attempts| - i
    {
      var a := attempts[i];
      var r := CheckRisk(cur, a.user, a.scene, a.hour, a.now);
      ghost var acc', m' := ReplayAdvance(st, attempts, key, i, cur, acc, m, t);
      acc := acc + (if r.0.Ok? && (a.user, a.scene) == key then [a.now] else []);
      cur := r.1;
      m, t := m', a.now;
      i := i + 1;
    }
    assert attempts[..i] == attempts;
  }
}

=== FILE: nc_router.dfy ===
/** The notification pipeline: `api_send` records a waiting message and queues
    it; `process_message` takes one queued message through the risk guard,
    template rendering and fallback sending, and records the final status.
    Ids, clocks, the queue's health and every database failure are parameters;
    the worker loop and its delay are left out. */
module NotifyRouter {
  import opened Wrappers
  import Json
  import opened NotifyTypes
  import NotifyDb
  import RiskGuard
  import NotifyTemplate
  import NotifyChannel

  // ---------------------------------------------------------------- api_send

  datatype SendResponse = SendResponse(msgId: string, traceId: string, status: string)

  /** The message id built from a fresh uuid. */
  function MessageId(uuid: string): (m: string)
    ensures |m| == |uuid| + 4 && m[..4] == "ntf_" && m[4..] == uuid
  {
    "ntf_" + uuid
  }

  /** `api_send`: write the waiting record, then enqueue the message with no
      delay and no retries, and count the enqueue in the metric
      "notification_enqueue". A failed insert answers "db_error" and queues
      nothing; a failed enqueue answers "queue_error" and leaves the waiting
      record behind; neither records the metric. `metrics` are the metric
      names reported so far, in order. */
  function ApiSend(h: NotifyDb.History, queue: seq<InternalMessage>, metrics: seq<string>, req: SendRequest,
                   traceUuid: string, msgUuid: string, createdAt: int,
                   dbFailure: Option<string>, enqueueOk: bool)
    : (r: (SendResponse, NotifyDb.History, seq<InternalMessage>, seq<string>))
    ensures r.0.msgId == MessageId(msgUuid) && r.0.traceId == traceUuid
    ensures r.0.status in {"db_error", "queue_error", "queued"}
    ensures var ins := NotifyDb.InsertWaiting(h, MessageId(msgUuid), req.userId, req.scene, traceUuid,
                                              createdAt, dbFailure);
            (r.0.status == "db_error" <==> ins.Err?)
            && (ins.Err? ==> r.1 == h && r.2 == queue)
            && (ins.Ok? ==> r.1 == ins.value)
            && (r.0.status == "queued" <==> ins.Ok? && enqueueOk)
            && (r.0.status == "queued" ==>
                  r.2 == queue + [InternalMessage(MessageId(msgUuid), traceUuid, req, createdAt, 0, 0)])
            && (r.0.status != "queued" ==> r.2 == queue)
    ensures r.3 == metrics + (if r.0.status == "queued" then ["notification_enqueue"] else [])
  {
    var msgId := MessageId(msgUuid);
    match NotifyDb.InsertWaiting(h, msgId, req.userId, req.scene, traceUuid, createdAt, dbFailure)
    case Err(_) => (SendResponse(msgId, traceUuid, "db_error"), h, queue, metrics)
    case Ok(h') =>
      var msg := InternalMessage(msgId, traceUuid, req, createdAt, 0, 0);
      if !enqueueOk then (SendResponse(msgId, traceUuid, "queue_error"), h', queue, metrics)
      else (SendResponse(msgId, traceUuid, "queued"), h', queue + [msg], metrics + ["notification_enqueue"])
  }

  /** A queued message is on record as waiting, with nothing sent yet. */
  lemma QueuedIsWaiting(h: NotifyDb.History, queue: seq<InternalMessage>, metrics: seq<string>, req: SendRequest,
                        traceUuid: string, msgUuid: string, createdAt: int, enqueueOk: bool)
    requires MessageId(msgUuid) !in h
    ensures var r := ApiSend(h, queue, metrics, req, traceUuid, msgUuid, createdAt, None, enqueueOk);
            r.0.status != "db_error"
            && NotifyDb.GetHistory(r.1, MessageId(msgUuid), None)
               == Ok(Some(NotifyDb.HistoryRecord(MessageId(msgUuid), req.userId, req.scene, "", "",
                                                  Waiting, traceUuid, None, 0, createdAt)))
  {
    NotifyDb.ReadBackWaiting(h, MessageId(msgUuid), req.userId, req.scene, traceUuid, createdAt);
  }

  // --------------------------------------------------------- process_message

  const DefaultTemplate: string := "【默认模板】{{scene}} 通知"

  /** The variables a template sees: null becomes an empty object; an object
      gets `scene` and `user_id` set, overriding the caller's; any other value
      is passed on as it is. */
  function TemplateVars(vars: Json.Value, scene: string, userId: string): (r: Json.Value)
    ensures vars.Null? || vars.Obj? ==>
              r.Obj? && Json.Get(r, "scene") == Some(Json.Str(scene))
              && Json.Get(r, "user_id") == Some(Json.Str(userId))
              && forall k :: k != "scene" && k != "user_id" ==>
                   Json.Get(r, k) == (if vars.Obj? then Json.Get(vars, k) else None)
    ensures !(vars.Null? || vars.Obj?) ==> r == vars
  {
    var v := if vars.Null? then Json.Obj([]) else vars;
    if v.Obj? then
      var f1 := Json.Insert(v.fields, "scene", Json.Str(scene));
      var f2 := Json.Insert(f1, "user_id", Json.Str(userId));
      assert forall k :: Json.Find(f2, k) == (if k == "user_id" then Some(Json.Str(userId)) else Json.Find(f1, k)) by {
        forall k { Json.InsertFind(f1, "user_id", Json.Str(userId), k); }
      }
      assert forall k :: Json.Find(f1, k) == (if k == "scene" then Some(Json.Str(scene)) else Json.Find(v.fields, k)) by {
        forall k { Json.InsertFind(v.fields, "scene", Json.Str(scene), k); }
      }
      Json.Obj(f2)
    else v
  }

  /** The notification center's state: its tables and the risk guard. */
  datatype World = World(history: NotifyDb.History, risk: RiskGuard.RiskState,
                         templates: seq<NotifyDb.TemplateRow>, prefs: seq<NotifyDb.PrefRow>,
                         metrics: seq<string>)

  /** Everything `process_message` learns from outside: clock readings, the
      outcome of each database call it checks, channel availability and the
      senders' verdicts. The final update's outcome is ignored by the source,
      so only a successful one is modelled. */
  datatype Env = Env(processingAt: int, processingFailure: Option<string>, hour: nat, nowMs: int,
                     templateFailure: Option<string>, prefFailure: Channel -> Option<string>,
                     up: Channel -> bool, send: Channel -> bool, finalAt: int)

  /** The metric reported for a final status. */
  function MetricName(st: MessageStatus): string {
    match st
    case Delivered => "notification_success"
    case Failed => "notification_failed"
    case Blocked => "notification_blocked"
    case _ => "notification_other"
  }

  /** The template used: the stored one for the scene and the first priority
      channel, or the default when none is found or the lookup fails. */
  function TemplateFor(w: World, req: SendRequest, failure: Option<string>): (t: string)
    ensures var found := NotifyDb.GetTemplate(w.templates, req.scene,
                                              NotifyChannel.PriorityChannels(req.scene, req.channelHint)[0], failure);
            t == (if found.Ok? && found.value.Some? then found.value.value else DefaultTemplate)
  {
    var primary := NotifyChannel.PriorityChannels(req.scene, req.channelHint)[0];
    match NotifyDb.GetTemplate(w.templates, req.scene, primary, failure)
    case Ok(Some(t)) => t
    case _ => DefaultTemplate
  }

  /** The channel oracles as the sender sees them, preferences read from the table. */
  function OraclesFor(w: World, userId: string, env: Env): NotifyChannel.Oracles {
    NotifyChannel.Oracles(
      c => match NotifyDb.IsChannelEnabled(w.prefs, userId, c, env.prefFailure(c))
           case Ok(b) => Ok(b)
           case Err(_) => Err("preference lookup failed"),
      env.up, env.send)
  }

  /** The latency metrics of the channels sent through, in order. */
  function LatencyMetrics(cs: seq<Channel>): (r: seq<string>)
    ensures |r| == |cs|
    ensures forall i :: 0 <= i < |r| ==> r[i] == NotifyChannel.LatencyMetric(cs[i])
  {
    seq(|cs|, i requires 0 <= i < |cs| => NotifyChannel.LatencyMetric(cs[i]))
  }

  /** `process_message`. The metrics it reports are "notification_blocked" for
      a refused message; otherwise one latency metric per channel sent
      through, then the one for the final status. */
  function ProcessMessage(w: World, msg: InternalMessage, env: Env): (w': World)
    ensures env.processingFailure.Some? ==> w' == w
    ensures w'.templates == w.templates && w'.prefs == w.prefs && w'.history.Keys == w.history.Keys
    ensures forall m :: m in w.history && m != msg.msgId ==> w'.history[m] == w.history[m]
    ensures env.processingFailure.None? ==>
              var guard := RiskGuard.CheckRisk(w.risk, msg.req.userId, msg.req.scene, env.hour, env.nowMs);
              w'.risk == guard.1
              && (guard.0.Err? ==>
                    w'.metrics == w.metrics + ["notification_blocked"]
                    && (msg.msgId in w.history ==>
                          var row := w'.history[msg.msgId];
                          row.status == StatusName(Blocked) && row.channel == ChannelName(Inbox)
                          && row.content == "" && row.error == Some(RiskGuard.Reason(guard.0.error))))
              && (guard.0.Ok? ==>
                    var sent := NotifyChannel.SendWithFallback(
                                  NotifyChannel.PriorityChannels(msg.req.scene, msg.req.channelHint),
                                  OraclesFor(w, msg.req.userId, env));
                    var out := sent.0;
                    w'.metrics == w.metrics + LatencyMetrics(sent.1) + [MetricName(out.status)]
                    && (msg.msgId in w.history ==>
                          var row := w'.history[msg.msgId];
                          row.status == StatusName(out.status) && row.channel == ChannelName(out.channel)
                          && row.error == out.error
                          && row.content == NotifyTemplate.Render(TemplateFor(w, msg.req, env.templateFailure),
                                                                   TemplateVars(msg.req.vars, msg.req.scene, msg.req.userId))))
  {
    match NotifyDb.UpdateProcessing(w.history, msg.msgId, env.processingAt, env.processingFailure)
    case Err(_) => w
    case Ok(h1) =>
      var guard := RiskGuard.CheckRisk(w.risk, msg.req.userId, msg.req.scene, env.hour, env.nowMs);
      if guard.0.Err? then
        var h2 := NotifyDb.UpdateFinal(h1, msg.msgId, Blocked, Inbox, "", Some(RiskGuard.Reason(guard.0.error)),
                                       msg.retries, env.finalAt, None).value;
        w.(history := h2, risk := guard.1, metrics := w.metrics + ["notification_blocked"])
      else
        var pri := NotifyChannel.PriorityChannels(msg.req.scene, msg.req.channelHint);
        var content := NotifyTemplate.Render(TemplateFor(w, msg.req, env.templateFailure),
                                             TemplateVars(msg.req.vars, msg.req.scene, msg.req.userId));
        var sent := NotifyChannel.SendWithFallback(pri, OraclesFor(w, msg.req.userId, env));
        var out := sent.0;
        var h2 := NotifyDb.UpdateFinal(h1, msg.msgId, out.status, out.channel, content, out.error,
                                       msg.retries, env.finalAt, None).value;
        w.(history := h2, risk := guard.1, metrics := w.metrics + LatencyMetrics(sent.1) + [MetricName(out.status)])
  }

  /** A message the risk guard refuses is finalised without any channel being
      asked: the outcome does not depend on availability or the senders. */
  lemma BlockedSendsNothing(w: World, msg: InternalMessage, env: Env,
                            up: Channel -> bool, send: Channel -> bool)
    requires RiskGuard.CheckRisk(w.risk, msg.req.userId, msg.req.scene, env.hour, env.nowMs).0.Err?
    ensures ProcessMessage(w, msg, env) == ProcessMessage(w, msg, env.(up := up, send := send))
  {
  }

  /** A final status other than delivered or blocked is the fallback's failure:
      recorded against the inbox with the reason "all channels failed". */
  lemma FailureIsAllChannels(w: World, msg: InternalMessage, env: Env)
    requires env.processingFailure.None? && msg.msgId in w.history
    requires RiskGuard.CheckRisk(w.risk, msg.req.userId, msg.req.scene, env.hour, env.nowMs).0.Ok?
    ensures var row := ProcessMessage(w, msg, env).history[msg.msgId];
            row.status == StatusName(Delivered)
            || (row.status == StatusName(Failed) && row.channel == "inbox"
                && row.error == Some("all channels failed"))
  {
  }

  /** An accepted message's metrics end with the latency of every channel sent
      through and its status metric. When delivered, the last two are the
      delivering channel's latency and "notification_success". Otherwise
      every tried channel reported its latency before "notification_failed". */
  lemma AcceptedMetrics(w: World, msg: InternalMessage, env: Env)
    requires env.processingFailure.None?
    requires RiskGuard.CheckRisk(w.risk, msg.req.userId, msg.req.scene, env.hour, env.nowMs).0.Ok?
    ensures var m := ProcessMessage(w, msg, env).metrics;
            var pri := NotifyChannel.PriorityChannels(msg.req.scene, msg.req.channelHint);
            var o := OraclesFor(w, msg.req.userId, env);
            var out := NotifyChannel.SendWithFallback(pri, o).0;
            |m| >= |w.metrics| + 1 && m[..|w.metrics|] == w.metrics
            && (out.status == Delivered ==>
                  |m| >= |w.metrics| + 2
                  && m[|m| - 2] == NotifyChannel.LatencyMetric(out.channel) && m[|m| - 1] == "notification_success")
            && (out.status != Delivered ==>
                  m == w.metrics + LatencyMetrics(NotifyChannel.TriedIn(pri, o)) + ["notification_failed"])
  {
    var pri := NotifyChannel.PriorityChannels(msg.req.scene, msg.req.channelHint);
    var o := OraclesFor(w, msg.req.userId, env);
    var sent := NotifyChannel.SendWithFallback(pri, o);
    assert ProcessMessage(w, msg, env).metrics == w.metrics + LatencyMetrics(sent.1) + [MetricName(sent.0.status)];
    FallbackMetrics(w.metrics, pri, o);
  }

  /** The metrics a fallback send appends to `base`, as `AcceptedMetrics` states them. */
  lemma FallbackMetrics(base: seq<string>, pri: seq<Channel>, o: NotifyChannel.Oracles)
    ensures var sent := NotifyChannel.SendWithFallback(pri, o);
            var out := sent.0;
            var m := base + LatencyMetrics(sent.1) + [MetricName(out.status)];
            |m| >= |base| + 1 && m[..|base|] == base
            && (out.status == Delivered ==>
                  |m| >= |base| + 2
                  && m[|m| - 2] == NotifyChannel.LatencyMetric(out.channel) && m[|m| - 1] == "notification_success")
            && (out.status != Delivered ==>
                  m == base + LatencyMetrics(NotifyChannel.TriedIn(pri, o)) + ["notification_failed"])
  {
    var sent := NotifyChannel.SendWithFallback(pri, o);
    var m := base + LatencyMetrics(sent.1) + [MetricName(sent.0.status)];
    assert m[..|base|] == base;
    if sent.0.status == Delivered {
      var i :| 0 <= i < |pri| && sent.0.channel == pri[i] && sent.1 == NotifyChannel.TriedIn(pri[..i], o) + [pri[i]];
      assert sent.1[|sent.1| - 1] == sent.0.channel;
      assert m[|m| - 2] == LatencyMetrics(sent.1)[|sent.1| - 1];
    }
  }

  /** A placeholder between two brace-free texts is the only thing replaced. */
  lemma RenderAround(pre: string, ph: string, k: string, post: string, v: Json.Value)
    requires '{' !in pre && '{' !in post && NotifyTemplate.IsPlaceholder(ph, k)
    ensures NotifyTemplate.Render(pre + ph + post, v)
            == pre + NotifyTemplate.Lookup(v, k).GetOr("") + post
  {
    var tail := ph + post;
    assert pre + ph + post == pre + tail;
    RenderTail(ph, k, post, v);
    NotifyTemplate.RenderLiteral(pre, tail, v);
  }

  /** A placeholder followed by brace-free text: only the placeholder is replaced. */
  lemma RenderTail(ph: string, k: string, post: string, v: Json.Value)
    requires '{' !in post && NotifyTemplate.IsPlaceholder(ph, k)
    ensures NotifyTemplate.Render(ph + post, v) == NotifyTemplate.Lookup(v, k).GetOr("") + post
  {
    NotifyTemplate.RenderPlaceholder(ph, k, post, v);
    NotifyTemplate.RenderLiteral(post, [], v);
    assert post + [] == post;
    assert NotifyTemplate.Render([], v) == [];
  }

  /** The default template renders the default text around whatever the
      variables hold for `scene`, and around nothing when they hold no text. */
  lemma DefaultRender(v: Json.Value)
    ensures NotifyTemplate.Render(DefaultTemplate, v)
            == "【默认模板】" + NotifyTemplate.Lookup(v, "scene").GetOr("") + " 通知"
  {
    var pre, ph, post := "【默认模板】", "{{scene}}", " 通知";
    assert NotifyTemplate.IsPlaceholder(ph, "scene") by {
      assert NotifyTemplate.PlaceholderSplit(ph, "scene", 2, 7);
    }
    assert DefaultTemplate == pre + ph + post;
    RenderAround(pre, ph, "scene", post, v);
  }

  /** With no stored template, a message renders the default text around the
      scene name, since the scene is always among the template's variables. */
  lemma DefaultContent(vars: Json.Value, scene: string, userId: string)
    requires vars.Null? || vars.Obj?
    ensures NotifyTemplate.Render(DefaultTemplate, TemplateVars(vars, scene, userId))
            == "【默认模板】" + scene + " 通知"
  {
    var v := TemplateVars(vars, scene, userId);
    Json.PathScalarKey(v, "scene");
    assert NotifyTemplate.Lookup(v, "scene") == Some(scene);
    DefaultRender(v);
  }
}

=== FILE: nc_template.dfy ===
/** The notification template renderer: every `{{ key }}` placeholder (the
    pattern `\{\{\s*([a-zA-Z0-9_.]+)\s*\}\}`) is replaced, in one left-to-right
    pass, by the text the dotted key finds in the variables. */
module NotifyTemplate {
  import opened Wrappers
  import Strings
  import Json

  predicate IsKeyChar(c: char) {
    'a' <= c <= 'z' || 'A' <= c <= 'Z' || '0' <= c <= '9' || c == '_' || c == '.'
  }

  /** The capture group `[a-zA-Z0-9_.]+`. */
  predicate IsKey(k: string) {
    |k| > 0 && forall i :: 0 <= i < |k| ==> IsKeyChar(k[i])
  }

  /** `t` is one whole placeholder whose key is `k`: two opening braces,
      optional whitespace, the key, optional whitespace, two closing braces. */
  ghost predicate IsPlaceholder(t: string, k: string) {
    |t| >= 4 && t[0] == '{' && t[1] == '{' && t[|t| - 2] == '}' && t[|t| - 1] == '}'
    && IsKey(k)
    && exists a, b :: PlaceholderSplit(t, k, a, b)
  }

  /** The key of placeholder `t` occupies `t[a..b]`, with only whitespace
      between it and the braces. */
  predicate PlaceholderSplit(t: string, k: string, a: int, b: int) {
    2 <= a < b <= |t| - 2 && t[a..b] == k
    && (forall y :: 2 <= y < a ==> Strings.IsWhitespace(t[y]))
    && (forall y :: b <= y < |t| - 2 ==> Strings.IsWhitespace(t[y]))
  }

  /** The first index at or after `i` that is not whitespace. */
  function SkipWs(s: string, i: nat): (r: nat)
    requires i <= |s|
    ensures i <= r <= |s|
    ensures forall x :: i <= x < r ==> Strings.IsWhitespace(s[x])
    ensures r == |s| || !Strings.IsWhitespace(s[r])
    decreases |s| - i
  {
    if i == |s| || !Strings.IsWhitespace(s[i]) then i else SkipWs(s, i + 1)
  }

  /** The first index at or after `i` that is not a key character. */
  function KeyEnd(s: string, i: nat): (r: nat)
    requires i <= |s|
    ensures i <= r <= |s|
    ensures forall x :: i <= x < r ==> IsKeyChar(s[x])
    ensures r == |s| || !IsKeyChar(s[r])
    decreases |s| - i
  {
    if i == |s| || !IsKeyChar(s[i]) then i else KeyEnd(s, i + 1)
  }

  datatype Match = Match(key: string, len: nat)

  /** The placeholder `s` starts with, if any. The pattern's parts cannot
      overlap (whitespace, key characters and braces are disjoint), so reading
      each part greedily finds the regex's match at this position. */
  function MatchPrefix(s: string): (r: Option<Match>)
    ensures r.Some? ==> 4 <= r.value.len <= |s|
  {
    if |s| >= 2 && s[0] == '{' && s[1] == '{' then
      var a := SkipWs(s, 2);
      var b := KeyEnd(s, a);
      if a < b then
        var c := SkipWs(s, b);
        if c + 2 <= |s| && s[c] == '}' && s[c + 1] == '}' then Some(Match(s[a..b], c + 2)) else None
      else None
    else None
  }

  /** What the scanner finds is a placeholder with that key. */
  lemma MatchPrefixSound(s: string)
    ensures MatchPrefix(s).Some? ==>
              IsPlaceholder(s[0..MatchPrefix(s).value.len], MatchPrefix(s).value.key)
  {
    if MatchPrefix(s).Some? {
      var a := SkipWs(s, 2);
      var b := KeyEnd(s, a);
      var c := SkipWs(s, b);
      var t := s[0..c + 2];
      assert PlaceholderSplit(t, s[a..b], a, b);
    }
  }

  /** Any index that ends a whitespace run at `i` is where skipping stops. */
  lemma SkipWsAt(s: string, i: nat, x: nat)
    requires i <= x <= |s|
    requires forall y :: i <= y < x ==> Strings.IsWhitespace(s[y])
    requires x == |s| || !Strings.IsWhitespace(s[x])
    ensures SkipWs(s, i) == x
  {
    var r := SkipWs(s, i);
  }

  lemma KeyEndAt(s: string, i: nat, x: nat)
    requires i <= x <= |s|
    requires forall y :: i <= y < x ==> IsKeyChar(s[y])
    requires x == |s| || !IsKeyChar(s[x])
    ensures KeyEnd(s, i) == x
  {
    var r := KeyEnd(s, i);
  }

  /** Every placeholder at the start of `s` is what the scanner finds: the
      match at a position is unique. */
  lemma MatchPrefixComplete(s: string, e: nat, k: string)
    requires e <= |s| && IsPlaceholder(s[..e], k)
    ensures MatchPrefix(s) == Some(Match(k, e))
  {
    var a, b :| PlaceholderSplit(s[..e], k, a, b);
    SplitInPrefix(s, e, k, a, b);
    ScanStops(s, e, a, b);
  }

  /** The facts of a split of `s[..e]`, read on `s` itself. */
  lemma SplitInPrefix(s: string, e: nat, k: string, a: int, b: int)
    requires e <= |s| && IsPlaceholder(s[..e], k) && PlaceholderSplit(s[..e], k, a, b)
    ensures 2 <= a < b <= e - 2 && s[a..b] == k
    ensures s[0] == '{' && s[1] == '{' && s[e - 2] == '}' && s[e - 1] == '}'
    ensures forall y :: 2 <= y < a ==> Strings.IsWhitespace(s[y])
    ensures forall y :: b <= y < e - 2 ==> Strings.IsWhitespace(s[y])
    ensures forall y :: a <= y < b ==> IsKeyChar(s[y])
  {
    var t := s[..e];
    assert forall y :: 0 <= y < e ==> t[y] == s[y];
    assert s[a..b] == t[a..b];
    assert forall y :: a <= y < b ==> s[y] == k[y - a];
  }

  /** Where the scanner's three greedy reads stop on a placeholder laid out
      at `a`, `b` and `e`. */
  lemma ScanStops(s: string, e: nat, a: int, b: int)
    requires 2 <= a < b <= e - 2 && e <= |s|
    requires s[0] == '{' && s[1] == '{' && s[e - 2] == '}' && s[e - 1] == '}'
    requires forall y :: 2 <= y < a ==> Strings.IsWhitespace(s[y])
    requires forall y :: b <= y < e - 2 ==> Strings.IsWhitespace(s[y])
    requires forall y :: a <= y < b ==> IsKeyChar(s[y])
    ensures MatchPrefix(s) == Some(Match(s[a..b], e))
  {
    WsNotKey(s[a]);
    SkipWsAt(s, 2, a);
    WsNotKey(s[b]);
    KeyEndAt(s, a, b);
    SkipWsAt(s, b, e - 2);
  }

  /** Whitespace is never a key character. */
  lemma WsNotKey(c: char)
    ensures Strings.IsWhitespace(c) ==> !IsKeyChar(c)
  {
  }

  /** `lookup`: the dotted-path scalar text of the variables. */
  function Lookup(vars: Json.Value, key: string): Option<string> {
    Json.PathScalar(vars, key)
  }

  /** `render`: each placeholder becomes its lookup, or nothing when the lookup
      fails; all other text is copied. Replacements are not scanned again. */
  function Render(s: string, vars: Json.Value): string
    decreases |s|
  {
    if s == [] then []
    else match MatchPrefix(s)
      case Some(m) => Lookup(vars, m.key).GetOr("") + Render(s[m.len..], vars)
      case None => [s[0]] + Render(s[1..], vars)
  }

  /** No substring of `s` is a placeholder. */
  ghost predicate NoPlaceholder(s: string) {
    forall i, e, k :: 0 <= i <= e <= |s| ==> !IsPlaceholder(s[i..e], k)
  }

  /** A template without placeholders renders to itself. */
  lemma {:induction false} RenderPlain(s: string, vars: Json.Value)
    requires NoPlaceholder(s)
    ensures Render(s, vars) == s
    decreases |s|
  {
    if s != [] {
      MatchPrefixSound(s);
      assert MatchPrefix(s).None?;
      forall i, e, k | 0 <= i <= e <= |s[1..]|
        ensures !IsPlaceholder(s[1..][i..e], k)
      {
        assert s[1..][i..e] == s[i + 1..e + 1];
      }
      RenderPlain(s[1..], vars);
    }
  }

  /** A placeholder at the front becomes its lookup (or nothing) and the
      renderer carries on after it, without looking at what it inserted. */
  lemma RenderPlaceholder(ph: string, k: string, rest: string, vars: Json.Value)
    requires IsPlaceholder(ph, k)
    ensures Render(ph + rest, vars) == Lookup(vars, k).GetOr("") + Render(rest, vars)
  {
    var s := ph + rest;
    assert s[..|ph|] == ph;
    MatchPrefixComplete(s, |ph|, k);
    assert s[|ph|..] == rest;
  }

  /** Text without an opening brace is copied through unchanged. */
  lemma {:induction false} RenderLiteral(lit: string, rest: string, vars: Json.Value)
    requires '{' !in lit
    ensures Render(lit + rest, vars) == lit + Render(rest, vars)
    decreases |lit|
  {
    if lit != [] {
      var s := lit + rest;
      assert s[0] == lit[0] && s[0] != '{';
      assert s[1..] == lit[1..] + rest;
      RenderLiteral(lit[1..], rest, vars);
      assert [lit[0]] + lit[1..] == lit;
    } else {
      assert lit + rest == rest;
    }
  }

  /** A template read as text and placeholders. */
  datatype Part = Text(text: string) | Slot(raw: string, key: string)

  ghost predicate WellFormed(ps: seq<Part>) {
    forall i :: 0 <= i < |ps| ==>
      (ps[i].Text? ==> '{' !in ps[i].text) && (ps[i].Slot? ==> IsPlaceholder(ps[i].raw, ps[i].key))
  }

  function Source(ps: seq<Part>): string {
    if ps == [] then [] else (match ps[0] case Text(t) => t case Slot(raw, _) => raw) + Source(ps[1..])
  }

  /** The reference meaning of a template: every slot replaced by its lookup. */
  function Expand(ps: seq<Part>, vars: Json.Value): string {
    if ps == [] then []
    else (match ps[0] case Text(t) => t case Slot(_, k) => Lookup(vars, k).GetOr("")) + Expand(ps[1..], vars)
  }

  /** Rendering agrees with the reference meaning: each placeholder is replaced
      by its own lookup, exactly once, and everything else is kept. */
  lemma {:induction false} RenderExpand(ps: seq<Part>, vars: Json.Value)
    requires WellFormed(ps)
    ensures Render(Source(ps), vars) == Expand(ps, vars)
  {
    if ps != [] {
      assert WellFormed(ps[1..]) by {
        forall i | 0 <= i < |ps[1..]| ensures ps[1..][i] == ps[i + 1] { }
      }
      RenderExpand(ps[1..], vars);
      match ps[0]
      case Text(t) => RenderLiteral(t, Source(ps[1..]), vars);
      case Slot(raw, k) => RenderPlaceholder(raw, k, Source(ps[1..]), vars);
    }
  }

  /** One pass only: a placeholder renders to its value verbatim, even when
      that value is itself a placeholder of some bound key. */
  lemma SinglePass(ph: string, k: string, vars: Json.Value, v: string)
    requires IsPlaceholder(ph, k) && Lookup(vars, k) == Some(v)
    ensures Render(ph, vars) == v
  {
    RenderPlaceholder(ph, k, [], vars);
    assert ph + [] == ph;
  }

  /** With `a` bound to `{{b}}` and `b` to `x`, `{{a}}` renders to `{{b}}`. */
  lemma SinglePassExample()
    ensures Render("{{a}}", Json.Obj([Json.Field("a", Json.Str("{{b}}")), Json.Field("b", Json.Str("x"))]))
            == "{{b}}"
  {
    var vars := Json.Obj([Json.Field("a", Json.Str("{{b}}")), Json.Field("b", Json.Str("x"))]);
    Json.PathScalarKey(vars, "a");
    assert Lookup(vars, "a") == Some("{{b}}");
    assert IsPlaceholder("{{a}}", "a") by {
      assert PlaceholderSplit("{{a}}", "a", 2, 3);
    }
    SinglePass("{{a}}", "a", vars, "{{b}}");
  }
}

=== FILE: nc_types.dfy ===
/** The notification center's vocabulary: delivery channels, the message status
    machine's states, and the body of a send request. */
module NotifyTypes {
  import opened Wrappers
  import Json

  datatype Channel = Sms | Email | Push | Inbox

  /** `Channel::as_str`. */
  function ChannelName(c: Channel): (s: string)
    ensures s != [] && forall i :: 0 <= i < |s| ==> 'a' <= s[i] <= 'z'
  {
    match c
    case Sms => "sms"
    case Email => "email"
    case Push => "push"
    case Inbox => "inbox"
  }

  /** The channel a hint names: the four `as_str` names, nothing else. */
  function ParseChannel(s: string): (r: Option<Channel>)
    ensures r.Some? ==> ChannelName(r.value) == s
  {
    if s == "sms" then Some(Sms)
    else if s == "email" then Some(Email)
    else if s == "push" then Some(Push)
    else if s == "inbox" then Some(Inbox)
    else None
  }

  /** Reading a channel's name gives the channel back, so `as_str` is injective
      and comparing channels by name is comparing channels. */
  lemma ChannelNameRoundTrip(c: Channel, d: Channel)
    ensures ParseChannel(ChannelName(c)) == Some(c)
    ensures ChannelName(c) == ChannelName(d) <==> c == d
  {
  }

  datatype MessageStatus = Waiting | Processing | Sent | Delivered | Failed | Blocked

  /** `MessageStatus::as_str`. */
  function StatusName(st: MessageStatus): (s: string)
    ensures s != [] && forall i :: 0 <= i < |s| ==> 'a' <= s[i] <= 'z'
  {
    match st
    case Waiting => "waiting"
    case Processing => "processing"
    case Sent => "sent"
    case Delivered => "delivered"
    case Failed => "failed"
    case Blocked => "blocked"
  }

  /** The six status names are pairwise distinct. */
  lemma StatusNameInjective(a: MessageStatus, b: MessageStatus)
    ensures StatusName(a) == StatusName(b) <==> a == b
  {
  }

  /** A send request as posted to `/send`. */
  datatype SendRequest = SendRequest(userId: string, scene: string, channelHint: Option<string>, vars: Json.Value)

  /** serde's reading of a `SendRequest` body: `user_id` and `scene` must be
      strings; `channel_hint` may be absent or null (no hint) or a string; a
      missing `vars` defaults to JSON null; other members are ignored. */
  function DecodeSendRequest(body: Json.Value): (r: Option<SendRequest>)
    ensures r.Some? <==> body.Obj?
                         && Json.Get(body, "user_id").Some? && Json.Get(body, "user_id").value.Str?
                         && Json.Get(body, "scene").Some? && Json.Get(body, "scene").value.Str?
                         && (Json.Get(body, "channel_hint").None? || Json.Get(body, "channel_hint").value.Null?
                             || Json.Get(body, "channel_hint").value.Str?)
    ensures r.Some? ==> r.value.userId == Json.Get(body, "user_id").value.s
                        && r.value.scene == Json.Get(body, "scene").value.s
    ensures r.Some? && Json.Get(body, "vars").None? ==> r.value.vars == Json.Null
    ensures r.Some? && Json.Get(body, "vars").Some? ==> r.value.vars == Json.Get(body, "vars").value
    ensures r.Some? ==> r.value.channelHint == (match Json.Get(body, "channel_hint")
                                                case Some(Str(t)) => Some(t)
                                                case _ => None)
  {
    match (Json.Get(body, "user_id"), Json.Get(body, "scene"), Json.Get(body, "channel_hint"))
    case (Some(Str(u)), Some(Str(s)), h) =>
      var hint: Option<Option<string>> :=
        match h
        case None => Some(None)
        case Some(Null) => Some(None)
        case Some(Str(t)) => Some(Some(t))
        case _ => None;
      if hint.None? then None
      else Some(SendRequest(u, s, hint.value, Json.Get(body, "vars").GetOr(Json.Null)))
    case _ => None
  }

  /** serde's derived writing of a `SendRequest`: the four members in declaration
      order, with an absent hint written as null. */
  function EncodeSendRequest(q: SendRequest): (r: Json.Value)
    ensures r.Obj? && |r.fields| == 4 && Json.UniqueKeys(r.fields)
  {
    Json.Obj([Json.Field("user_id", Json.Str(q.userId)),
              Json.Field("scene", Json.Str(q.scene)),
              Json.Field("channel_hint", if q.channelHint.Some? then Json.Str(q.channelHint.value) else Json.Null),
              Json.Field("vars", q.vars)])
  }

  /** Serialize then deserialize gives the request back, hint included. */
  lemma SendRequestRoundTrip(q: SendRequest)
    ensures DecodeSendRequest(EncodeSendRequest(q)) == Some(q)
  {
    var f := EncodeSendRequest(q).fields;
    Json.FindUnique(f, 0);
    Json.FindUnique(f, 1);
    Json.FindUnique(f, 2);
    Json.FindUnique(f, 3);
  }

  /** A queued message: the request plus its identifiers, creation time (ms),
      delay and retry count. */
  datatype InternalMessage = InternalMessage(msgId: string, traceId: string, req: SendRequest,
                                             createdAt: int, delaySecs: int, retries: int)
}

=== FILE: registry.dfy ===
/** The dashboard's frontend plugin registry: a first-wins list of plugins
    keyed by id, read back as a copy sorted by `order`, with a missing order
    counted as 99. The registry is a value here; the module-level array the
    source mutates becomes the argument and result of each call. */
module PluginRegistry {
  import opened Wrappers
  import StableSort

  /** A registered plugin. `category`, `title` and `route` are read by the
      sidebar but are not declared by the plugin interface, so a plugin may
      lack them; the component and icon are not modelled. */
  datatype Plugin = Plugin(
    id: string,
    name: string,
    path: string,
    order: Option<int>,
    category: Option<string>,
    title: Option<string>,
    route: Option<string>)

  /** The sort key, `order ?? 99`. */
  function OrderKey(p: Plugin): int {
    p.order.GetOr(99)
  }

  function IdsOf(reg: seq<Plugin>): set<string> {
    set i | 0 <= i < |reg| :: reg[i].id
  }

  predicate UniqueIds(reg: seq<Plugin>) {
    forall i, j :: 0 <= i < j < |reg| ==> reg[i].id != reg[j].id
  }

  /** The first plugin carrying `id`, scanning in registration order. */
  function FirstOf(reg: seq<Plugin>, id: string): (r: Option<Plugin>)
    ensures r.Some? <==> id in IdsOf(reg)
    ensures r.Some? ==> r.value in reg && r.value.id == id
  {
    if reg == [] then None
    else if reg[0].id == id then Some(reg[0])
    else
      var r := FirstOf(reg[1..], id);
      assert id in IdsOf(reg[1..]) <==> id in IdsOf(reg) by {
        if id in IdsOf(reg) {
          var i :| 0 <= i < |reg| && reg[i].id == id;
          assert i > 0 && reg[1..][i - 1] == reg[i];
        }
        if id in IdsOf(reg[1..]) {
          var i :| 0 <= i < |reg[1..]| && reg[1..][i].id == id;
          assert reg[i + 1] == reg[1..][i];
        }
      }
      r
  }

  /** Appending keeps every earlier first occurrence. */
  lemma {:induction false} FirstOfSnoc(reg: seq<Plugin>, p: Plugin, id: string)
    ensures FirstOf(reg + [p], id)
            == (if id in IdsOf(reg) then FirstOf(reg, id) else if p.id == id then Some(p) else None)
  {
    if reg == [] {
      assert [] + [p] == [p];
    } else {
      assert (reg + [p])[1..] == reg[1..] + [p];
      FirstOfSnoc(reg[1..], p, id);
      if reg[0].id != id && id in IdsOf(reg) {
        var i :| 0 <= i < |reg| && reg[i].id == id;
        assert reg[1..][i - 1] == reg[i];
      }
    }
  }

  /** `registerPlugin`: returns the new registry and whether a warning was
      logged. A duplicate id leaves the registry as it was. */
  function Register(reg: seq<Plugin>, p: Plugin): (r: (seq<Plugin>, bool))
    ensures r.1 <==> p.id in IdsOf(reg)
    ensures r.1 ==> r.0 == reg
    ensures !r.1 ==> |r.0| == |reg| + 1 && r.0[..|reg|] == reg && r.0[|reg|] == p
    ensures IdsOf(r.0) == IdsOf(reg) + {p.id}
    ensures UniqueIds(reg) ==> UniqueIds(r.0)
    ensures forall id :: FirstOf(r.0, id) == FirstOf(reg, id).OrElse(if id == p.id then Some(p) else None)
  {
    if exists i :: 0 <= i < |reg| && reg[i].id == p.id then
      assert FirstOf(reg, p.id).Some?;
      (reg, true)
    else
      var reg' := reg + [p];
      assert reg'[..|reg|] == reg;
      assert IdsOf(reg') == IdsOf(reg) + {p.id} by {
        forall x | x in IdsOf(reg) ensures x in IdsOf(reg') {
          var i :| 0 <= i < |reg| && reg[i].id == x;
          assert reg'[i] == reg[i];
        }
        assert reg'[|reg|].id == p.id;
      }
      forall id ensures FirstOf(reg', id) == FirstOf(reg, id).OrElse(if id == p.id then Some(p) else None) {
        FirstOfSnoc(reg, p, id);
      }
      (reg', false)
  }

  /** Registering a sequence of plugins, one call after another, from an
      empty registry. */
  function RegisterAll(ps: seq<Plugin>): seq<Plugin> {
    if ps == [] then [] else Register(RegisterAll(ps[..|ps| - 1]), ps[|ps| - 1]).0
  }

  /** The first registration of each id wins: the registry holds every id
      that was offered, each once, with the plugin offered first under it. */
  lemma {:induction false} FirstRegistrationWins(ps: seq<Plugin>)
    ensures UniqueIds(RegisterAll(ps))
    ensures IdsOf(RegisterAll(ps)) == IdsOf(ps)
    ensures forall id :: FirstOf(RegisterAll(ps), id) == FirstOf(ps, id)
  {
    if ps != [] {
      var init := ps[..|ps| - 1];
      var p := ps[|ps| - 1];
      assert ps == init + [p];
      FirstRegistrationWins(init);
      forall id ensures FirstOf(RegisterAll(ps), id) == FirstOf(ps, id) {
        FirstOfSnoc(init, p, id);
      }
      assert IdsOf(ps) == IdsOf(init) + {p.id} by {
        forall x | x in IdsOf(ps) ensures x in IdsOf(init) + {p.id} {
          var i :| 0 <= i < |ps| && ps[i].id == x;
          if i < |init| { assert init[i] == ps[i]; }
        }
        forall x | x in IdsOf(init) ensures x in IdsOf(ps) {
          var i :| 0 <= i < |init| && init[i].id == x;
          assert ps[i] == init[i];
        }
      }
    }
  }

  /** `getPlugins`: a sorted copy; the registry itself is untouched, since
      it is a value. */
  function GetPlugins(reg: seq<Plugin>): (r: seq<Plugin>)
    ensures StableSort.SortedBy(r, OrderKey)
    ensures multiset(r) == multiset(reg)
    ensures forall k :: StableSort.WithKey(r, OrderKey, k) == StableSort.WithKey(reg, OrderKey, k)
  {
    StableSort.Sort(reg, OrderKey)
  }

  /** Plugins with the same effective order keep their registration order. */
  lemma GetPluginsStable(reg: seq<Plugin>, i: nat, j: nat)
    requires i < j < |reg| && OrderKey(reg[i]) == OrderKey(reg[j])
    ensures var w := StableSort.WithKey(GetPlugins(reg), OrderKey, OrderKey(reg[i]));
            exists a, b :: 0 <= a < b < |w| && w[a] == reg[i] && w[b] == reg[j]
  {
    StableSort.StableTies(reg, OrderKey, i, j);
  }
}

=== FILE: sidebar.dfy ===
/** The dashboard sidebar: five fixed sections, each plugin appended to the
    section whose id equals its category. Since the plugin interface declares
    no `category`, `title` or `route`, those are optional here: a plugin
    without a category matches no section and is dropped, and one without a
    title or route yields an item with that part missing. */
module Sidebar {
  import opened Wrappers
  import PluginRegistry

  /** A link; `caption` is the source's `label`, a reserved word here. */
  datatype NavItem = NavItem(id: string, caption: Option<string>, path: Option<string>)

  datatype NavSection = NavSection(id: string, title: string, items: seq<NavItem>)

  function Item(id: string, caption: string, path: string): NavItem {
    NavItem(id, Some(caption), Some(path))
  }

  const BaseSections: seq<NavSection> := [
    NavSection("monitor", "监控", [
      Item("overview", "总览", "/"),
      Item("metrics", "指标", "/metrics"),
      Item("logs", "日志", "/logs"),
      Item("alerts", "告警中心", "/alerts")]),
    NavSection("workflow", "工作流", [Item("workflows", "工作流列表", "/workflows")]),
    NavSection("agent", "Agent", [Item("agents", "Agent 管理", "/agents")]),
    NavSection("plugin", "插件", [Item("plugins", "插件管理", "/plugins")]),
    NavSection("system", "系统", [Item("settings", "系统设置", "/settings")])
  ]

  function SectionIds(sections: seq<NavSection>): (ids: seq<string>)
    ensures |ids| == |sections|
    ensures forall i :: 0 <= i < |ids| ==> ids[i] == sections[i].id
  {
    seq(|sections|, i requires 0 <= i < |sections| => sections[i].id)
  }

  /** `sections.find(s => s.id === category)`: the first section with that id;
      an absent category equals no id. */
  function FindSection(ids: seq<string>, category: Option<string>): (r: Option<nat>)
    ensures r.Some? ==> r.value < |ids| && category == Some(ids[r.value])
                        && forall j :: 0 <= j < r.value ==> category != Some(ids[j])
    ensures r.None? <==> forall j :: 0 <= j < |ids| ==> category != Some(ids[j])
  {
    if ids == [] then None
    else if category == Some(ids[0]) then Some(0)
    else match FindSection(ids[1..], category)
      case None => None
      case Some(i) =>
        assert forall j :: 1 <= j <= i ==> ids[j] == ids[1..][j - 1];
        Some(i + 1)
  }

  /** The item a plugin contributes: its id, title and route. */
  function ItemOf(p: PluginRegistry.Plugin): NavItem {
    NavItem(p.id, p.title, p.route)
  }

  /** One step of the `forEach`: push the plugin's item onto its section. */
  function Attach(sections: seq<NavSection>, p: PluginRegistry.Plugin): (r: seq<NavSection>)
    ensures SectionIds(r) == SectionIds(sections)
    ensures forall i :: 0 <= i < |r| ==> r[i].title == sections[i].title
    ensures forall i :: 0 <= i < |r| ==>
              r[i].items == sections[i].items
                            + (if FindSection(SectionIds(sections), p.category) == Some(i) then [ItemOf(p)] else [])
  {
    match FindSection(SectionIds(sections), p.category)
    case None => sections
    case Some(i) => sections[i := sections[i].(items := sections[i].items + [ItemOf(p)])]
  }

  /** The items that plugins contribute to section `i`, in plugin order. */
  function ItemsFor(ps: seq<PluginRegistry.Plugin>, ids: seq<string>, i: nat): (r: seq<NavItem>)
    ensures |r| <= |ps|
    ensures forall x :: x in r ==>
              exists p :: p in ps && x == ItemOf(p) && FindSection(ids, p.category) == Some(i)
  {
    if ps == [] then []
    else
      var init := ItemsFor(ps[..|ps| - 1], ids, i);
      var last := ps[|ps| - 1];
      assert forall p :: p in ps[..|ps| - 1] ==> p in ps;
      init + (if FindSection(ids, last.category) == Some(i) then [ItemOf(last)] else [])
  }

  /** Attaching plugins one after another, in the order given. */
  function Build(base: seq<NavSection>, ps: seq<PluginRegistry.Plugin>): seq<NavSection> {
    if ps == [] then base else Attach(Build(base, ps[..|ps| - 1]), ps[|ps| - 1])
  }

  /** The sections keep their ids, titles and order; each section's items are
      its own items followed by the items of the plugins it matches, in the
      order the plugins come. */
  lemma {:induction false} BuildShape(base: seq<NavSection>, ps: seq<PluginRegistry.Plugin>)
    ensures var r := Build(base, ps);
            |r| == |base| && SectionIds(r) == SectionIds(base)
            && (forall i :: 0 <= i < |r| ==> r[i].title == base[i].title)
            && (forall i :: 0 <= i < |r| ==> r[i].items == base[i].items + ItemsFor(ps, SectionIds(base), i))
  {
    if ps != [] {
      BuildShape(base, ps[..|ps| - 1]);
    }
  }

  /** `buildSections`: the base sections with the registry's plugins attached
      in `getPlugins` order. */
  function BuildSections(reg: seq<PluginRegistry.Plugin>): seq<NavSection> {
    Build(BaseSections, PluginRegistry.GetPlugins(reg))
  }

  /** The rendered sidebar: the five base sections in order, each holding its
      fixed items then, in sorted plugin order, the items of the plugins whose
      category names it. A plugin whose category names no section appears in
      none. */
  lemma {:induction false} SidebarContents(reg: seq<PluginRegistry.Plugin>)
    ensures var r := BuildSections(reg);
            |r| == 5 && SectionIds(r) == ["monitor", "workflow", "agent", "plugin", "system"]
            && (forall i :: 0 <= i < 5 ==> r[i].title == BaseSections[i].title)
            && (forall i :: 0 <= i < 5 ==>
                  r[i].items == BaseSections[i].items
                                + ItemsFor(PluginRegistry.GetPlugins(reg), SectionIds(BaseSections), i))
  {
    BuildShape(BaseSections, PluginRegistry.GetPlugins(reg));
    BaseIds();
  }

  /** The base sections' ids, in order. */
  lemma BaseIds()
    ensures |BaseSections| == 5
    ensures SectionIds(BaseSections) == ["monitor", "workflow", "agent", "plugin", "system"]
  {
    var ids := SectionIds(BaseSections);
    assert ids[0] == "monitor" && ids[1] == "workflow" && ids[2] == "agent";
    assert ids[3] == "plugin" && ids[4] == "system";
  }

  /** Every plugin whose category names a section is placed in that section. */
  lemma {:induction false} PluginPlaced(ps: seq<PluginRegistry.Plugin>, ids: seq<string>, k: nat, i: nat)
    requires k < |ps| && i < |ids| && FindSection(ids, ps[k].category) == Some(i)
    ensures ItemOf(ps[k]) in ItemsFor(ps, ids, i)
  {
    if k < |ps| - 1 {
      assert ps[..|ps| - 1][k] == ps[k];
      PluginPlaced(ps[..|ps| - 1], ids, k, i);
    }
  }
}

=== FILE: stable_sort.dfy ===
/** JavaScript's `Array.prototype.sort` with a numeric-difference comparator:
    a stable sort by an integer key. Stability is stated key by key: the
    elements sharing a key appear in the result in the order they had. */
module StableSort {

  predicate SortedBy<T>(s: seq<T>, key: T -> int) {
    forall i, j :: 0 <= i < j < |s| ==> key(s[i]) <= key(s[j])
  }

  /** The elements whose key is `k`, in order. */
  function WithKey<T>(s: seq<T>, key: T -> int, k: int): (r: seq<T>)
    ensures |r| <= |s|
  {
    if s == [] then [] else (if key(s[0]) == k then [s[0]] else []) + WithKey(s[1..], key, k)
  }

  /** Puts `x` in front of the first element whose key is not smaller, so it
      precedes the elements of equal key. */
  function Insert<T>(x: T, s: seq<T>, key: T -> int): (r: seq<T>)
    ensures |r| == |s| + 1
    ensures multiset(r) == multiset{x} + multiset(s)
  {
    if s == [] || key(x) <= key(s[0]) then [x] + s
    else
      var rest := Insert(x, s[1..], key);
      assert s == [s[0]] + s[1..];
      [s[0]] + rest
  }

  /** A sorted sequence stays sorted with an element in front whose key is
      not larger than any of its own. */
  lemma SortedCons<T>(y: T, t: seq<T>, key: T -> int)
    requires SortedBy(t, key)
    requires forall i :: 0 <= i < |t| ==> key(y) <= key(t[i])
    ensures SortedBy([y] + t, key)
  {
    assert forall i :: 1 <= i <= |t| ==> ([y] + t)[i] == t[i - 1];
  }

  /** Every element of `Insert(x, t, key)` is `x` or an element of `t`. */
  lemma InsertFrom<T>(x: T, t: seq<T>, key: T -> int, i: nat)
    requires i < |Insert(x, t, key)|
    ensures Insert(x, t, key)[i] == x || Insert(x, t, key)[i] in t
  {
    assert Insert(x, t, key)[i] in multiset(Insert(x, t, key));
  }

  lemma {:induction false} InsertSorted<T>(x: T, s: seq<T>, key: T -> int)
    requires SortedBy(s, key)
    ensures SortedBy(Insert(x, s, key), key)
  {
    if s != [] && key(x) > key(s[0]) {
      var t := s[1..];
      assert SortedBy(t, key);
      InsertSorted(x, t, key);
      var rest := Insert(x, t, key);
      forall i | 0 <= i < |rest| ensures key(s[0]) <= key(rest[i]) {
        InsertFrom(x, t, key, i);
        if rest[i] != x {
          var j :| 0 <= j < |t| && t[j] == rest[i];
          assert t[j] == s[j + 1];
        }
      }
      SortedCons(s[0], rest, key);
    } else {
      SortedCons(x, s, key);
    }
  }

  /** The elements of key `k` in `[y] + t`: `y` when it has that key, then those of `t`. */
  lemma WithKeyCons<T>(y: T, t: seq<T>, key: T -> int, k: int)
    ensures WithKey([y] + t, key, k) == (if key(y) == k then [y] else []) + WithKey(t, key, k)
  {
    assert ([y] + t)[1..] == t;
  }

  /** Putting `y` in front of a sequence whose elements of key `k` are `hx`
      followed by those of `t`, when `y` has a different key from `hx`'s. */
  lemma WithKeyConsAfter<T>(y: T, rest: seq<T>, t: seq<T>, hx: seq<T>, key: T -> int, k: int)
    requires hx == [] || key(y) != k
    requires WithKey(rest, key, k) == hx + WithKey(t, key, k)
    ensures WithKey([y] + rest, key, k) == hx + WithKey([y] + t, key, k)
  {
    WithKeyCons(y, rest, key, k);
    WithKeyCons(y, t, key, k);
  }

  /** Inserting `x` into a sorted sequence puts it first among its equals. */
  lemma {:induction false} InsertWithKey<T>(x: T, s: seq<T>, key: T -> int, k: int)
    requires SortedBy(s, key)
    ensures WithKey(Insert(x, s, key), key, k) == (if key(x) == k then [x] else []) + WithKey(s, key, k)
  {
    if s == [] || key(x) <= key(s[0]) {
      WithKeyCons(x, s, key, k);
    } else {
      assert SortedBy(s[1..], key);
      InsertWithKey(x, s[1..], key, k);
      WithKeyConsAfter(s[0], Insert(x, s[1..], key), s[1..], if key(x) == k then [x] else [], key, k);
      assert [s[0]] + s[1..] == s;
    }
  }

  /** The stable sort: insertion from the back, each element going in front
      of its equals. */
  function Sort<T>(s: seq<T>, key: T -> int): (r: seq<T>)
    ensures SortedBy(r, key)
    ensures multiset(r) == multiset(s)
    ensures forall k :: WithKey(r, key, k) == WithKey(s, key, k)
  {
    if s == [] then []
    else
      var rest := Sort(s[1..], key);
      InsertSorted(s[0], rest, key);
      forall k ensures WithKey(Insert(s[0], rest, key), key, k) == WithKey(s, key, k) {
        InsertWithKey(s[0], rest, key, k);
      }
      assert s == [s[0]] + s[1..];
      Insert(s[0], rest, key)
  }

  /** Two elements with equal keys keep their relative order. */
  lemma {:induction false} StableTies<T>(s: seq<T>, key: T -> int, i: nat, j: nat)
    requires i < j < |s| && key(s[i]) == key(s[j])
    ensures var w := WithKey(Sort(s, key), key, key(s[i]));
            exists a, b :: 0 <= a < b < |w| && w[a] == s[i] && w[b] == s[j]
  {
    var k := key(s[i]);
    assert WithKey(Sort(s, key), key, k) == WithKey(s, key, k);
    WithKeyPositions(s, key, k, i, j);
  }

  lemma {:induction false} WithKeyPositions<T>(s: seq<T>, key: T -> int, k: int, i: nat, j: nat)
    requires i < j < |s| && key(s[i]) == k && key(s[j]) == k
    ensures exists a, b :: 0 <= a < b < |WithKey(s, key, k)| && WithKey(s, key, k)[a] == s[i]
                           && WithKey(s, key, k)[b] == s[j]
  {
    var w := WithKey(s, key, k);
    var w' := WithKey(s[1..], key, k);
    if i == 0 {
      assert w == [s[0]] + w';
      WithKeyHas(s[1..], key, k, j - 1);
      var b :| 0 <= b < |w'| && w'[b] == s[1..][j - 1];
      assert w[0] == s[0] && w[b + 1] == s[j];
    } else {
      WithKeyPositions(s[1..], key, k, i - 1, j - 1);
      var a, b :| 0 <= a < b < |w'| && w'[a] == s[1..][i - 1] && w'[b] == s[1..][j - 1];
      var h := if key(s[0]) == k then [s[0]] else [];
      assert w == h + w';
      assert w[|h| + a] == s[i] && w[|h| + b] == s[j];
    }
  }

  lemma {:induction false} WithKeyHas<T>(s: seq<T>, key: T -> int, k: int, j: nat)
    requires j < |s| && key(s[j]) == k
    ensures exists b :: 0 <= b < |WithKey(s, key, k)| && WithKey(s, key, k)[b] == s[j]
  {
    var w := WithKey(s, key, k);
    if j == 0 {
      assert w[0] == s[0];
    } else {
      WithKeyHas(s[1..], key, k, j - 1);
      var w' := WithKey(s[1..], key, k);
      var b :| 0 <= b < |w'| && w'[b] == s[1..][j - 1];
      var h := if key(s[0]) == k then [s[0]] else [];
      assert w == h + w';
      assert w[|h| + b] == s[j];
    }
  }
}

=== FILE: storage.dfy ===
/** The host's store: logs, metrics and alerts appended to tables whose
    autoincrement ids follow insertion order, read back newest first, and the
    plugin-to-API-base-URL table written by upsert. Each table is a sequence
    in id order. Timestamps are integers standing for instants (their RFC 3339
    text is left out), and metric values are opaque reals only ever copied. */
module Storage {
  import opened Wrappers

  // ------------------------------------------------------------ the entities

  datatype LogLevel = Debug | Info | Warn | Error

  datatype AlertSeverity = SevInfo | SevWarning | SevCritical

  datatype LogEvent = LogEvent(time: int, level: LogLevel, plugin: Option<string>, message: string,
                               fields: map<string, string>)

  datatype Metric = Metric(time: int, plugin: string, name: string, value: real,
                           labels: map<string, string>)

  datatype AlertEvent = AlertEvent(time: int, plugin: string, metricName: string, severity: AlertSeverity,
                                   title: string, message: string, tags: map<string, string>)

  // ------------------------------------------------- the enum text encodings

  /** A level as written to its column: its variant name (`{:?}`). */
  function LevelName(l: LogLevel): string {
    match l
    case Debug => "Debug"
    case Info => "Info"
    case Warn => "Warn"
    case Error => "Error"
  }

  /** A level column read back; text that names no level reads as Info. */
  function DecodeLevel(s: string): (l: LogLevel)
    ensures s in {"Debug", "Info", "Warn", "Error"} ==> LevelName(l) == s
    ensures s !in {"Debug", "Info", "Warn", "Error"} ==> l == Info
  {
    if s == "Debug" then Debug
    else if s == "Warn" then Warn
    else if s == "Error" then Error
    else Info
  }

  lemma LevelRoundTrip(l: LogLevel)
    ensures DecodeLevel(LevelName(l)) == l
  {
  }

  function SeverityName(s: AlertSeverity): string {
    match s
    case SevInfo => "Info"
    case SevWarning => "Warning"
    case SevCritical => "Critical"
  }

  /** A severity column read back; text that names no severity reads as Info. */
  function DecodeSeverity(s: string): (v: AlertSeverity)
    ensures s in {"Info", "Warning", "Critical"} ==> SeverityName(v) == s
    ensures s !in {"Info", "Warning", "Critical"} ==> v == SevInfo
  {
    if s == "Warning" then SevWarning
    else if s == "Critical" then SevCritical
    else SevInfo
  }

  lemma SeverityRoundTrip(s: AlertSeverity)
    ensures DecodeSeverity(SeverityName(s)) == s
  {
  }

  // --------------------------------------------------------------- the rows

  datatype LogRow = LogRow(time: int, level: string, plugin: Option<string>, message: string)

  datatype MetricRow = MetricRow(time: int, plugin: string, name: string, value: real)

  datatype AlertRow = AlertRow(time: int, plugin: string, metricName: string, severity: string,
                               title: string, message: string)

  datatype ApiRow = ApiRow(plugin: string, baseUrl: string, updatedAt: int)

  datatype Store = Store(logs: seq<LogRow>, metrics: seq<MetricRow>, alerts: seq<AlertRow>, apis: seq<ApiRow>)

  /** Row to event: the level is decoded and the extra fields come back empty. */
  function LogOf(r: LogRow): (e: LogEvent)
    ensures e.fields == map[] && e.level == DecodeLevel(r.level)
    ensures e.time == r.time && e.plugin == r.plugin && e.message == r.message
  {
    LogEvent(r.time, DecodeLevel(r.level), r.plugin, r.message, map[])
  }

  function MetricOf(r: MetricRow): (m: Metric)
    ensures m.labels == map[]
    ensures m.time == r.time && m.plugin == r.plugin && m.name == r.name && m.value == r.value
  {
    Metric(r.time, r.plugin, r.name, r.value, map[])
  }

  function AlertOf(r: AlertRow): (a: AlertEvent)
    ensures a.tags == map[] && a.severity == DecodeSeverity(r.severity)
    ensures a.time == r.time && a.plugin == r.plugin && a.metricName == r.metricName
            && a.title == r.title && a.message == r.message
  {
    AlertEvent(r.time, r.plugin, r.metricName, DecodeSeverity(r.severity), r.title, r.message, map[])
  }

  // ---------------------------------------------------------------- inserts

  /** Each statement below returns `sqlx::Result`: `backend` stands for the
      database failing for reasons of its own, and a failed statement writes
      nothing. */

  function InsertLog(st: Store, e: LogEvent, backend: Option<string>): (r: Result<Store, string>)
    ensures r.Err? <==> backend.Some?
    ensures r.Err? ==> r.error == backend.value
    ensures r.Ok? ==> r.value.logs == st.logs + [LogRow(e.time, LevelName(e.level), e.plugin, e.message)]
    ensures r.Ok? ==> r.value.metrics == st.metrics && r.value.alerts == st.alerts && r.value.apis == st.apis
  {
    if backend.Some? then Err(backend.value)
    else Ok(st.(logs := st.logs + [LogRow(e.time, LevelName(e.level), e.plugin, e.message)]))
  }

  function InsertMetric(st: Store, m: Metric, backend: Option<string>): (r: Result<Store, string>)
    ensures r.Err? <==> backend.Some?
    ensures r.Err? ==> r.error == backend.value
    ensures r.Ok? ==> r.value.metrics == st.metrics + [MetricRow(m.time, m.plugin, m.name, m.value)]
    ensures r.Ok? ==> r.value.logs == st.logs && r.value.alerts == st.alerts && r.value.apis == st.apis
  {
    if backend.Some? then Err(backend.value)
    else Ok(st.(metrics := st.metrics + [MetricRow(m.time, m.plugin, m.name, m.value)]))
  }

  function InsertAlert(st: Store, a: AlertEvent, backend: Option<string>): (r: Result<Store, string>)
    ensures r.Err? <==> backend.Some?
    ensures r.Err? ==> r.error == backend.value
    ensures r.Ok? ==> r.value.alerts == st.alerts + [AlertRow(a.time, a.plugin, a.metricName, SeverityName(a.severity),
                                                             a.title, a.message)]
    ensures r.Ok? ==> r.value.logs == st.logs && r.value.metrics == st.metrics && r.value.apis == st.apis
  {
    if backend.Some? then Err(backend.value)
    else Ok(st.(alerts := st.alerts + [AlertRow(a.time, a.plugin, a.metricName, SeverityName(a.severity),
                                                a.title, a.message)]))
  }

  // ---------------------------------------------------------- newest first

  /** How many rows `LIMIT limit` lets through; a negative limit sets no bound. */
  function LimitCount(n: nat, limit: int): (k: nat)
    ensures k <= n
    ensures limit < 0 ==> k == n
    ensures 0 <= limit ==> k == (if limit < n then limit else n)
  {
    if limit < 0 || limit >= n then n else limit
  }

  /** `ORDER BY id DESC LIMIT limit`: the last rows, newest first. */
  function Newest<T>(rows: seq<T>, limit: int): (r: seq<T>)
    ensures |r| == LimitCount(|rows|, limit)
    ensures forall i :: 0 <= i < |r| ==> r[i] == rows[|rows| - 1 - i]
    decreases |rows|
  {
    if rows == [] || limit == 0 then []
    else
      var rest := Newest(rows[..|rows| - 1], if limit > 0 then limit - 1 else limit);
      [rows[|rows| - 1]] + rest
  }

  /** A newly inserted row comes first, ahead of what was newest before it. */
  lemma NewestAfterAppend<T>(rows: seq<T>, x: T, limit: int)
    requires limit != 0
    ensures Newest(rows + [x], limit) == [x] + Newest(rows, if limit > 0 then limit - 1 else limit)
  {
    assert (rows + [x])[..|rows|] == rows;
  }

  /** A smaller limit reads a prefix of what a larger one reads. */
  lemma NewestPrefix<T>(rows: seq<T>, small: nat, large: int)
    requires large < 0 || small <= large
    ensures Newest(rows, small) == Newest(rows, large)[..|Newest(rows, small)|]
  {
  }

  function LatestLogs(st: Store, limit: int, backend: Option<string>): (r: Result<seq<LogEvent>, string>)
    ensures r.Err? <==> backend.Some?
    ensures r.Err? ==> r.error == backend.value
    ensures r.Ok? ==> |r.value| == LimitCount(|st.logs|, limit)
    ensures r.Ok? ==> forall i :: 0 <= i < |r.value| ==> r.value[i] == LogOf(st.logs[|st.logs| - 1 - i])
  {
    if backend.Some? then Err(backend.value)
    else
      var rows := Newest(st.logs, limit);
      Ok(seq(|rows|, i requires 0 <= i < |rows| => LogOf(rows[i])))
  }

  function LatestMetrics(st: Store, limit: int, backend: Option<string>): (r: Result<seq<Metric>, string>)
    ensures r.Err? <==> backend.Some?
    ensures r.Err? ==> r.error == backend.value
    ensures r.Ok? ==> |r.value| == LimitCount(|st.metrics|, limit)
    ensures r.Ok? ==> forall i :: 0 <= i < |r.value| ==> r.value[i] == MetricOf(st.metrics[|st.metrics| - 1 - i])
  {
    if backend.Some? then Err(backend.value)
    else
      var rows := Newest(st.metrics, limit);
      Ok(seq(|rows|, i requires 0 <= i < |rows| => MetricOf(rows[i])))
  }

  function LatestAlerts(st: Store, limit: int, backend: Option<string>): (r: Result<seq<AlertEvent>, string>)
    ensures r.Err? <==> backend.Some?
    ensures r.Err? ==> r.error == backend.value
    ensures r.Ok? ==> |r.value| == LimitCount(|st.alerts|, limit)
    ensures r.Ok? ==> forall i :: 0 <= i < |r.value| ==> r.value[i] == AlertOf(st.alerts[|st.alerts| - 1 - i])
  {
    if backend.Some? then Err(backend.value)
    else
      var rows := Newest(st.alerts, limit);
      Ok(seq(|rows|, i requires 0 <= i < |rows| => AlertOf(rows[i])))
  }

  /** A log written and read back is the same event without its extra fields. */
  lemma LogReadBack(st: Store, e: LogEvent, limit: int)
    requires limit != 0
    ensures InsertLog(st, e, None).Ok?
    ensures LatestLogs(InsertLog(st, e, None).value, limit, None).value[0] == e.(fields := map[])
  {
    LevelRoundTrip(e.level);
  }

  /** A metric written and read back keeps its time, plugin, name and value. */
  lemma MetricReadBack(st: Store, m: Metric, limit: int)
    requires limit != 0
    ensures InsertMetric(st, m, None).Ok?
    ensures LatestMetrics(InsertMetric(st, m, None).value, limit, None).value[0] == m.(labels := map[])
  {
  }

  /** An alert written and read back is the same alert without its tags. */
  lemma AlertReadBack(st: Store, a: AlertEvent, limit: int)
    requires limit != 0
    ensures InsertAlert(st, a, None).Ok?
    ensures LatestAlerts(InsertAlert(st, a, None).value, limit, None).value[0] == a.(tags := map[])
  {
    SeverityRoundTrip(a.severity);
  }

  // -------------------------------------------------------- plugin API table

  /** The primary key: no two rows name the same plugin. */
  predicate UniquePlugins(rows: seq<ApiRow>) {
    forall i, j :: 0 <= i < j < |rows| ==> rows[i].plugin != rows[j].plugin
  }

  /** The position of the first row for `p`, if any. */
  function PluginIndex(rows: seq<ApiRow>, p: string): (r: Option<nat>)
    ensures r.None? <==> forall i :: 0 <= i < |rows| ==> rows[i].plugin != p
    ensures r.Some? ==> r.value < |rows| && rows[r.value].plugin == p
                        && forall j :: 0 <= j < r.value ==> rows[j].plugin != p
  {
    if rows == [] then None
    else if rows[0].plugin == p then Some(0)
    else
      var r := PluginIndex(rows[1..], p);
      assert forall i :: 1 <= i < |rows| ==> rows[i] == rows[1..][i - 1];
      if r.Some? then Some(r.value + 1) else None
  }

  /** The first row for `p` is wherever one sits with no earlier row for `p`. */
  lemma PluginIndexAt(rows: seq<ApiRow>, p: string, i: nat)
    requires i < |rows| && rows[i].plugin == p && forall j :: 0 <= j < i ==> rows[j].plugin != p
    ensures PluginIndex(rows, p) == Some(i)
  {
    var r := PluginIndex(rows, p);
    assert r.Some?;
    if r.value < i {
    } else if r.value > i {
    }
  }

  /** The base URL the table holds for `p`, read from its first row. */
  function BaseUrlOf(rows: seq<ApiRow>, p: string): (r: Option<string>)
    ensures r.None? <==> forall i :: 0 <= i < |rows| ==> rows[i].plugin != p
  {
    match PluginIndex(rows, p)
    case Some(i) => Some(rows[i].baseUrl)
    case None => None
  }

  /** Under the primary key, every row for `p` is the one read. */
  lemma BaseUrlUnique(rows: seq<ApiRow>, p: string, i: nat)
    requires UniquePlugins(rows) && i < |rows| && rows[i].plugin == p
    ensures BaseUrlOf(rows, p) == Some(rows[i].baseUrl)
  {
    PluginIndexAt(rows, p, i);
  }

  /** `upsert_plugin_api`: `INSERT … ON CONFLICT(plugin) DO UPDATE`. The
      plugin's row takes the new URL and time in place; a new plugin gets a
      row at the end. */
  function Upsert(rows: seq<ApiRow>, p: string, baseUrl: string, now: int): (r: seq<ApiRow>)
    ensures |r| == |rows| + (if BaseUrlOf(rows, p).Some? then 0 else 1)
    ensures forall i :: 0 <= i < |rows| ==> r[i].plugin == rows[i].plugin
    ensures forall i :: 0 <= i < |rows| && rows[i].plugin != p ==> r[i] == rows[i]
    ensures |r| > |rows| ==> r[|rows|] == ApiRow(p, baseUrl, now)
  {
    match PluginIndex(rows, p)
    case Some(i) => rows[i := ApiRow(p, baseUrl, now)]
    case None => rows + [ApiRow(p, baseUrl, now)]
  }

  /** After an upsert the plugin reads back the new URL and every other plugin
      what it had. */
  lemma UpsertBaseUrl(rows: seq<ApiRow>, p: string, baseUrl: string, now: int, q: string)
    ensures BaseUrlOf(Upsert(rows, p, baseUrl, now), q) == (if q == p then Some(baseUrl) else BaseUrlOf(rows, q))
  {
    var r := Upsert(rows, p, baseUrl, now);
    match PluginIndex(rows, q)
    case Some(i) =>
      PluginIndexAt(r, q, i);
      if q != p {
        assert r[i] == rows[i];
      }
    case None =>
      if q == p {
        PluginIndexAt(r, q, |rows|);
      }
  }

  /** An upsert keeps one row per plugin. */
  lemma UpsertUnique(rows: seq<ApiRow>, p: string, baseUrl: string, now: int)
    requires UniquePlugins(rows)
    ensures UniquePlugins(Upsert(rows, p, baseUrl, now))
  {
    var r := Upsert(rows, p, baseUrl, now);
    forall i, j | 0 <= i < j < |r| ensures r[i].plugin != r[j].plugin {
      if j == |rows| {
        assert BaseUrlOf(rows, p).None?;
        assert rows[i].plugin != p;
      }
    }
  }

  function UpsertPluginApi(st: Store, p: string, baseUrl: string, now: int, backend: Option<string>)
    : (r: Result<Store, string>)
    ensures r.Err? <==> backend.Some?
    ensures r.Err? ==> r.error == backend.value
    ensures r.Ok? ==> r.value.apis == Upsert(st.apis, p, baseUrl, now)
    ensures r.Ok? ==> r.value.logs == st.logs && r.value.metrics == st.metrics && r.value.alerts == st.alerts
  {
    if backend.Some? then Err(backend.value)
    else Ok(st.(apis := Upsert(st.apis, p, baseUrl, now)))
  }

  /** `get_all_plugin_apis`: every row as a (plugin, base URL) pair. */
  function GetAllPluginApis(st: Store, backend: Option<string>): (r: Result<seq<(string, string)>, string>)
    ensures r.Err? <==> backend.Some?
    ensures r.Err? ==> r.error == backend.value
    ensures r.Ok? ==> |r.value| == |st.apis|
    ensures r.Ok? ==> forall i :: 0 <= i < |r.value| ==> r.value[i] == (st.apis[i].plugin, st.apis[i].baseUrl)
  {
    if backend.Some? then Err(backend.value)
    else Ok(seq(|st.apis|, i requires 0 <= i < |st.apis| => (st.apis[i].plugin, st.apis[i].baseUrl)))
  }

  /** Under the primary key, the pairs read back are exactly the table's
      current mapping. */
  lemma GetAllExact(st: Store, p: string, baseUrl: string)
    requires UniquePlugins(st.apis)
    ensures GetAllPluginApis(st, None).Ok?
    ensures (p, baseUrl) in GetAllPluginApis(st, None).value <==> BaseUrlOf(st.apis, p) == Some(baseUrl)
  {
    var r := GetAllPluginApis(st, None).value;
    if BaseUrlOf(st.apis, p) == Some(baseUrl) {
      var i := PluginIndex(st.apis, p).value;
      assert r[i] == (p, baseUrl);
    }
    if (p, baseUrl) in r {
      var i :| 0 <= i < |r| && r[i] == (p, baseUrl);
      BaseUrlUnique(st.apis, p, i);
    }
  }

  /** The last upsert for a plugin decides its URL, whatever came before. */
  lemma LastUpsertWins(st: Store, p: string, b1: string, b2: string, t1: int, t2: int)
    ensures UpsertPluginApi(st, p, b1, t1, None).Ok?
    ensures var st' := UpsertPluginApi(UpsertPluginApi(st, p, b1, t1, None).value, p, b2, t2, None);
            st'.Ok? && BaseUrlOf(st'.value.apis, p) == Some(b2) && |st'.value.apis| == |Upsert(st.apis, p, b1, t1)|
  {
    var once := Upsert(st.apis, p, b1, t1);
    UpsertBaseUrl(st.apis, p, b1, t1, p);
    UpsertBaseUrl(once, p, b2, t2, p);
  }
}

=== FILE: storage_init.dfy ===
/** Applying a schema script: the database type picks the script, the script
    is cut at every `;`, and the pieces that are not blank are executed in
    order until one fails. Reading the file and executing a statement are
    parameters. */
module StorageInit {
  import opened Wrappers
  import Strings

  const PostgresScript: string := "storage/migrations/schema_postgres.sql"
  const MysqlScript: string := "storage/migrations/schema_mysql.sql"
  const SqliteScript: string := "storage/migrations/schema_sqlite.sql"

  /** The script for a database type: its own for "postgres" and "mysql",
      the SQLite one for anything else. */
  function ScriptPath(dbType: string): (p: string)
    ensures p in {PostgresScript, MysqlScript, SqliteScript}
    ensures p == PostgresScript <==> dbType == "postgres"
    ensures p == MysqlScript <==> dbType == "mysql"
  {
    match dbType
    case "postgres" => PostgresScript
    case "mysql" => MysqlScript
    case _ => SqliteScript
  }

  /** The pieces that are not blank, in order and untrimmed. */
  function NonBlank(pieces: seq<string>): (r: seq<string>)
    ensures |r| <= |pieces|
    ensures forall x :: x in r <==> x in pieces && !Strings.IsBlank(x)
  {
    if pieces == [] then []
    else (if Strings.IsBlank(pieces[0]) then [] else [pieces[0]]) + NonBlank(pieces[1..])
  }

  /** Filtering keeps order: the survivors of a concatenation are those of
      each part, one after the other. */
  lemma {:induction false} NonBlankAppend(a: seq<string>, b: seq<string>)
    ensures NonBlank(a + b) == NonBlank(a) + NonBlank(b)
  {
    if a != [] {
      assert (a + b)[1..] == a[1..] + b;
      NonBlankAppend(a[1..], b);
    } else {
      assert a + b == b;
    }
  }

  lemma {:induction false} NonBlankAll(pieces: seq<string>)
    requires forall i :: 0 <= i < |pieces| ==> !Strings.IsBlank(pieces[i])
    ensures NonBlank(pieces) == pieces
  {
    if pieces != [] {
      NonBlankAll(pieces[1..]);
    }
  }

  /** The statements of a script: its `;`-separated pieces that are not blank. */
  function Statements(sql: string): (r: seq<string>)
    ensures forall i :: 0 <= i < |r| ==> ';' !in r[i] && !Strings.IsBlank(r[i])
    ensures forall x :: x in r <==> x in Strings.Split(sql, ';') && !Strings.IsBlank(x)
  {
    var r := NonBlank(Strings.Split(sql, ';'));
    assert forall i :: 0 <= i < |r| ==> r[i] in r;
    r
  }

  /** A script written as non-blank statements joined by `;` is read back as
      exactly those statements, in order. */
  lemma StatementsOfJoin(stmts: seq<string>)
    requires |stmts| >= 1
    requires forall i :: 0 <= i < |stmts| ==> ';' !in stmts[i] && !Strings.IsBlank(stmts[i])
    ensures Statements(Strings.Join(stmts, ';')) == stmts
  {
    Strings.SplitJoin(stmts, ';');
    NonBlankAll(stmts);
  }

  /** A terminating `;` followed by blank text adds no statement. */
  lemma TrailingSeparator(stmt: string, tail: string)
    requires ';' !in stmt && !Strings.IsBlank(stmt)
    requires ';' !in tail && Strings.IsBlank(tail)
    ensures Statements(stmt + ";" + tail) == [stmt]
  {
    assert stmt + ";" + tail == stmt + [';'] + tail;
    Strings.SplitPrefix(stmt, tail, ';');
    Strings.SplitNoSep(tail, ';');
    NonBlankAppend([stmt], [tail]);
  }

  /** Runs the statements in order; `fail` gives each statement's error, if
      it has one. Returns the statements attempted and the overall result: the
      first error stops the run. */
  function RunStatements(stmts: seq<string>, fail: string -> Option<string>)
    : (r: (seq<string>, Result<(), string>))
    ensures |r.0| <= |stmts| && r.0 == stmts[..|r.0|]
    ensures forall i :: 0 <= i < |r.0| - 1 ==> fail(r.0[i]).None?
    ensures r.1.Ok? <==> r.0 == stmts && forall i :: 0 <= i < |stmts| ==> fail(stmts[i]).None?
    ensures r.1.Err? ==> |r.0| > 0 && fail(r.0[|r.0| - 1]) == Some(r.1.error)
  {
    if stmts == [] then ([], Ok(()))
    else match fail(stmts[0])
      case Some(e) => ([stmts[0]], Err(e))
      case None =>
        var rest := RunStatements(stmts[1..], fail);
        assert forall i :: 1 <= i < |stmts| ==> stmts[i] == stmts[1..][i - 1];
        ([stmts[0]] + rest.0, rest.1)
  }

  /** `init_schema`, with the file system as `read` (a missing file aborts the
      program and is left out). */
  function InitSchema(dbType: string, read: string -> string, fail: string -> Option<string>)
    : (seq<string>, Result<(), string>)
  {
    RunStatements(Statements(read(ScriptPath(dbType))), fail)
  }

  /** When every statement succeeds, each is executed exactly once, in the
      order written. */
  lemma InitSchemaRunsAll(dbType: string, read: string -> string, fail: string -> Option<string>)
    requires var stmts := Statements(read(ScriptPath(dbType)));
             forall i :: 0 <= i < |stmts| ==> fail(stmts[i]).None?
    ensures InitSchema(dbType, read, fail) == (Statements(read(ScriptPath(dbType))), Ok(()))
  {
    RunAll(Statements(read(ScriptPath(dbType))), fail);
  }

  lemma RunAll(stmts: seq<string>, fail: string -> Option<string>)
    requires forall i :: 0 <= i < |stmts| ==> fail(stmts[i]).None?
    ensures RunStatements(stmts, fail) == (stmts, Ok(()))
  {
    var r := RunStatements(stmts, fail);
    assert r.1.Ok?;
  }

  /** A failing statement is the last one attempted: nothing after it runs. */
  lemma InitSchemaStopsAtFailure(dbType: string, read: string -> string, fail: string -> Option<string>, k: nat)
    requires var stmts := Statements(read(ScriptPath(dbType)));
             k < |stmts| && fail(stmts[k]).Some?
    ensures var r := InitSchema(dbType, read, fail);
            r.1.Err? && |r.0| <= k + 1
  {
    var stmts := Statements(read(ScriptPath(dbType)));
    var r := RunStatements(stmts, fail);
  }
}

=== FILE: strings.dfy ===
/** Text primitives the Rust and TypeScript sources rely on: whitespace and `trim`,
    `split`, substring search, `str::replace`, decimal formatting and ASCII case folding. */
module Strings {

  /** Unicode White_Space: the class used by Rust's `char::is_whitespace`, by
      `str::trim` and by `\s` in the `regex` crate's default Unicode mode. */
  predicate IsWhitespace(c: char) {
    ('\t' <= c <= '\r') || c == ' ' || c == '\U{0085}' || c == '\U{00A0}'
    || c == '\U{1680}' || ('\U{2000}' <= c <= '\U{200A}') || c == '\U{2028}'
    || c == '\U{2029}' || c == '\U{202F}' || c == '\U{205F}' || c == '\U{3000}'
  }

  /** Every character is whitespace (the empty string included). */
  predicate IsBlank(s: string) {
    forall i :: 0 <= i < |s| ==> IsWhitespace(s[i])
  }

  /** Removes leading whitespace: the result is a suffix of `s`. */
  function TrimStart(s: string): (r: string)
    ensures |r| <= |s| && r == s[|s| - |r|..]
    ensures IsBlank(s[..|s| - |r|])
    ensures r == [] || !IsWhitespace(r[0])
  {
    if s == [] || !IsWhitespace(s[0]) then s else TrimStart(s[1..])
  }

  /** Removes trailing whitespace: the result is a prefix of `s`. */
  function TrimEnd(s: string): (r: string)
    ensures |r| <= |s| && r == s[..|r|]
    ensures IsBlank(s[|r|..])
    ensures r == [] || !IsWhitespace(r[|r| - 1])
  {
    if s == [] || !IsWhitespace(s[|s| - 1]) then s else TrimEnd(s[..|s| - 1])
  }

  /** `r` is the slice of `s` at offset `k`, with only whitespace cut away
      on either side. */
  predicate SliceBetweenBlanks(s: string, r: string, k: nat) {
    k + |r| <= |s| && r == s[k..k + |r|] && IsBlank(s[..k]) && IsBlank(s[k + |r|..])
  }

  /** Rust's `str::trim`: a contiguous slice of `s` that neither starts nor ends
      with whitespace, everything cut away being whitespace. */
  function Trim(s: string): (r: string)
    ensures exists k :: SliceBetweenBlanks(s, r, k)
    ensures r == [] || (!IsWhitespace(r[0]) && !IsWhitespace(r[|r| - 1]))
  {
    var a := TrimStart(s);
    var r := TrimEnd(a);
    TrimWitness(s, a, r);
    r
  }

  lemma TrimWitness(s: string, a: string, r: string)
    requires |a| <= |s| && a == s[|s| - |a|..] && IsBlank(s[..|s| - |a|])
    requires |r| <= |a| && r == a[..|r|] && IsBlank(a[|r|..])
    ensures SliceBetweenBlanks(s, r, |s| - |a|)
  {
    var k := |s| - |a|;
    assert IsBlank(s[..k]);
    assert a == s[k..];
    assert r == a[..|r|];
    assert forall j :: 0 <= j < |r| ==> r[j] == a[j] == s[k + j];
    assert r == s[k..k + |r|];
    assert IsBlank(a[|r|..]);
    assert a[|r|..] == s[k + |r|..];
  }

  /** `s.trim().is_empty()` holds exactly for blank strings. */
  lemma TrimEmptyIffBlank(s: string)
    ensures Trim(s) == [] <==> IsBlank(s)
  {
    var a := TrimStart(s);
    if IsBlank(s) {
      BlankTrimStart(s);
    }
    if TrimEnd(a) == [] {
      assert s == s[..|s| - |a|] + a;
    }
  }

  lemma {:induction false} BlankTrimStart(s: string)
    requires IsBlank(s)
    ensures TrimStart(s) == []
  {
    if s != [] {
      BlankTrimStart(s[1..]);
    }
  }

  /** Glues pieces with a separator: the inverse of `Split`. */
  function Join(parts: seq<string>, sep: char): string
  {
    if |parts| == 0 then []
    else if |parts| == 1 then parts[0]
    else parts[0] + [sep] + Join(parts[1..], sep)
  }

  /** Rust's `str::split(char)` and JavaScript's `String.prototype.split(string)`
      with a one-character separator: n separators give n + 1 pieces, empty ones
      included, and joining the pieces back gives the input. */
  function Split(s: string, sep: char): (parts: seq<string>)
    ensures |parts| >= 1
    ensures forall i :: 0 <= i < |parts| ==> sep !in parts[i]
    ensures Join(parts, sep) == s
    decreases |s|
  {
    if s == [] then [[]]
    else
      var rest := Split(s[1..], sep);
      if s[0] == sep then
        assert Join([[]] + rest, sep) == [] + [sep] + Join(rest, sep) by {
          assert ([[]] + rest)[1..] == rest;
        }
        [[]] + rest
      else
        var parts := [[s[0]] + rest[0]] + rest[1..];
        assert Join(parts, sep) == s by { JoinConsFirst(s[0], rest, sep); }
        parts
  }

  lemma JoinConsFirst(c: char, rest: seq<string>, sep: char)
    requires |rest| >= 1
    ensures Join([[c] + rest[0]] + rest[1..], sep) == [c] + Join(rest, sep)
  {
    var parts := [[c] + rest[0]] + rest[1..];
    if |rest| > 1 {
      assert parts[1..] == rest[1..];
    }
  }

  lemma {:induction false} SplitNoSep(s: string, sep: char)
    requires sep !in s
    ensures Split(s, sep) == [s]
    decreases |s|
  {
    if s != [] {
      SplitNoSep(s[1..], sep);
      assert [s[0]] + s[1..] == s;
    }
  }

  lemma {:induction false} SplitPrefix(a: string, b: string, sep: char)
    requires sep !in a
    ensures Split(a + [sep] + b, sep) == [a] + Split(b, sep)
    decreases |a|
  {
    if a == [] {
      assert ([] + [sep] + b)[1..] == b;
    } else {
      assert (a + [sep] + b)[1..] == a[1..] + [sep] + b;
      SplitPrefix(a[1..], b, sep);
      assert [a[0]] + a[1..] == a;
    }
  }

  /** Cutting at one separator splits the two sides independently. */
  lemma {:induction false} SplitAround(x: string, y: string, sep: char)
    ensures Split(x + [sep] + y, sep) == Split(x, sep) + Split(y, sep)
    decreases |x|
  {
    if x == [] {
      assert ([] + [sep] + y)[1..] == y;
    } else {
      var t := x + [sep] + y;
      assert t[0] == x[0] && t[1..] == x[1..] + [sep] + y;
      SplitAround(x[1..], y, sep);
      var a, b := Split(x[1..], sep), Split(y, sep);
      if x[0] == sep {
        assert Split(t, sep) == [[]] + (a + b);
        assert Split(x, sep) == [[]] + a;
      } else {
        var r := a + b;
        assert r[0] == a[0] && r[1..] == a[1..] + b;
        assert Split(t, sep) == [[x[0]] + r[0]] + r[1..];
        assert Split(x, sep) == [[x[0]] + a[0]] + a[1..];
      }
    }
  }

  /** Splitting a join of separator-free pieces gives the pieces back. */
  lemma {:induction false} SplitJoin(parts: seq<string>, sep: char)
    requires |parts| >= 1
    requires forall i :: 0 <= i < |parts| ==> sep !in parts[i]
    ensures Split(Join(parts, sep), sep) == parts
    decreases |parts|
  {
    if |parts| == 1 {
      SplitNoSep(parts[0], sep);
    } else {
      SplitJoin(parts[1..], sep);
      SplitPrefix(parts[0], Join(parts[1..], sep), sep);
    }
  }

  /** `sub` occurs in `s` as a contiguous substring (Rust's `str::contains`). */
  predicate Contains(s: string, sub: string)
    decreases |s|
  {
    sub <= s || (s != [] && Contains(s[1..], sub))
  }

  lemma {:induction false} ContainsAt(s: string, sub: string, i: nat)
    requires i + |sub| <= |s| && s[i..i + |sub|] == sub
    ensures Contains(s, sub)
    decreases i
  {
    if i > 0 {
      assert s[1..][i - 1..i - 1 + |sub|] == sub;
      ContainsAt(s[1..], sub, i - 1);
    }
  }

  /** Rust's `str::replace` with a non-empty pattern: every non-overlapping
      occurrence, found left to right, is replaced by `v`. */
  function ReplaceAll(s: string, pat: string, v: string): string
    requires |pat| > 0
    decreases |s|
  {
    if s == [] then []
    else if pat <= s then v + ReplaceAll(s[|pat|..], pat, v)
    else [s[0]] + ReplaceAll(s[1..], pat, v)
  }

  /** A prefix that cannot start an occurrence of the pattern is copied through. */
  lemma {:induction false} ReplaceAllSkip(t: string, r: string, pat: string, v: string)
    requires |pat| > 0 && pat[0] !in t
    ensures ReplaceAll(t + r, pat, v) == t + ReplaceAll(r, pat, v)
    decreases |t|
  {
    if t != [] {
      assert (t + r)[0] == t[0];
      assert !(pat <= t + r);
      assert (t + r)[1..] == t[1..] + r;
      assert ReplaceAll(t + r, pat, v) == [t[0]] + ReplaceAll((t + r)[1..], pat, v);
      ReplaceAllSkip(t[1..], r, pat, v);
      assert [t[0]] + (t[1..] + ReplaceAll(r, pat, v)) == t + ReplaceAll(r, pat, v);
    } else {
      assert t + r == r;
    }
  }

  /** A character where the pattern cannot start is copied through; the
      pattern is shown not to start there by one mismatching position. */
  lemma ReplaceAllMiss(c: char, rest: string, pat: string, v: string, i: nat)
    requires |pat| > 0 && i < |pat| && i <= |rest| && ([c] + rest)[i] != pat[i]
    ensures ReplaceAll([c] + rest, pat, v) == [c] + ReplaceAll(rest, pat, v)
  {
    assert ([c] + rest)[1..] == rest;
  }

  /** The pattern is absent, so nothing is replaced. */
  lemma ReplaceAllAbsent(s: string, pat: string, v: string)
    requires |pat| > 0 && !Contains(s, pat)
    ensures ReplaceAll(s, pat, v) == s
    decreases |s|
  {
    if s != [] {
      ReplaceAllAbsent(s[1..], pat, v);
    }
  }

  // ---------------------------------------------------------------- numbers

  function DigitChar(d: nat): char
    requires d < 10
  {
    ['0', '1', '2', '3', '4', '5', '6', '7', '8', '9'][d]
  }

  predicate IsDigit(c: char) { '0' <= c <= '9' }

  /** Decimal rendering of a natural number (Rust `to_string`, JavaScript `String(n)`). */
  function NatToString(n: nat): (s: string)
    ensures |s| >= 1
    ensures forall i :: 0 <= i < |s| ==> IsDigit(s[i])
    ensures s[0] == '0' ==> n == 0 && s == "0"
  {
    if n < 10 then [DigitChar(n)] else NatToString(n / 10) + [DigitChar(n % 10)]
  }

  /** Decimal rendering of an integer, with a leading `-` when negative. */
  function IntToString(i: int): (s: string)
    ensures |s| >= 1
  {
    if i < 0 then "-" + NatToString(-i) else NatToString(i)
  }

  /** The value of a string of decimal digits. */
  function ParseDigits(s: string): nat
    requires forall i :: 0 <= i < |s| ==> IsDigit(s[i])
  {
    if s == [] then 0
    else
      assert IsDigit(s[|s| - 1]);
      10 * ParseDigits(s[..|s| - 1]) + (s[|s| - 1] as int - '0' as int)
  }

  /** Reading back a rendered number gives the number. */
  lemma {:induction false} ParseNatToString(n: nat)
    ensures ParseDigits(NatToString(n)) == n
  {
    var s := NatToString(n);
    if n >= 10 {
      var p := NatToString(n / 10);
      assert s == p + [DigitChar(n % 10)];
      assert s[..|s| - 1] == p;
      ParseNatToString(n / 10);
      DigitValue(n % 10);
    } else {
      DigitValue(n);
      assert s[..0] == [];
    }
  }

  lemma DigitValue(d: nat)
    requires d < 10
    ensures IsDigit(DigitChar(d)) && DigitChar(d) as int - '0' as int == d
  {
  }

  /** Rendering is injective, so equal text means equal numbers. */
  lemma NatToStringInjective(a: nat, b: nat)
    ensures NatToString(a) == NatToString(b) ==> a == b
  {
    ParseNatToString(a);
    ParseNatToString(b);
  }

  /** Decimal text with an optional leading `-`. */
  predicate IsIntText(s: string) {
    |s| >= 1
    && if s[0] == '-' then forall i :: 1 <= i < |s| ==> IsDigit(s[i])
       else forall i :: 0 <= i < |s| ==> IsDigit(s[i])
  }

  /** The value of decimal text with an optional leading `-`. */
  function ParseInt(s: string): int
    requires IsIntText(s)
  {
    var magnitude: int := if s[0] == '-' then ParseDigits(s[1..]) else ParseDigits(s);
    if s[0] == '-' then -magnitude else magnitude
  }

  /** Reading back a rendered integer gives the integer. */
  lemma ParseIntToString(i: int)
    ensures IsIntText(IntToString(i)) && ParseInt(IntToString(i)) == i
  {
    IntToStringSign(i);
    var t := IntToString(i);
    if i < 0 {
      ParseNatToString(-i);
      assert forall j :: 1 <= j < |t| ==> t[j] == t[1..][j - 1];
    } else {
      ParseNatToString(i);
    }
  }

  lemma IntToStringInjective(a: int, b: int)
    ensures IntToString(a) == IntToString(b) ==> a == b
  {
    ParseIntToString(a);
    ParseIntToString(b);
  }

  /** The text starts with `-` exactly for negative numbers, followed by the
      magnitude's digits. */
  lemma IntToStringSign(i: int)
    ensures IntToString(i)[0] == '-' <==> i < 0
    ensures i < 0 ==> IntToString(i)[1..] == NatToString(-i)
    ensures i >= 0 ==> IntToString(i) == NatToString(i)
  {
    if i >= 0 {
      assert IsDigit(NatToString(i)[0]);
    } else {
      assert ("-" + NatToString(-i))[1..] == NatToString(-i);
    }
  }

  // ------------------------------------------------------------ ASCII case

  function AsciiLower(c: char): char {
    if 'A' <= c <= 'Z' then (c as int + 32) as char else c
  }

  /** Rust's `str::eq_ignore_ascii_case`: same length, equal after folding ASCII letters. */
  predicate EqIgnoreAsciiCase(a: string, b: string) {
    |a| == |b| && forall i :: 0 <= i < |a| ==> AsciiLower(a[i]) == AsciiLower(b[i])
  }
}

=== FILE: topo.dfy ===
/** `topological_order` of the workflow core: Kahn's algorithm with a stack.
    In-degrees count only edges whose target is a node; a node is pushed when its
    in-degree drops to zero; popped nodes already emitted are skipped. Nodes on a
    cycle, or behind an edge from an unknown source, never reach in-degree zero
    and are silently left out; an empty result is an error. */
module Topo {
  import opened Wrappers
  import opened LogicFlow

  // ------------------------------------------------------------ edge counts

  /** Edges into `v` whose source is not in `done`. */
  function CountIn(edges: seq<Edge>, v: string, done: set<string>): nat {
    if edges == [] then 0
    else
      var e := edges[|edges| - 1];
      CountIn(edges[..|edges| - 1], v, done) + (if e.target == v && e.source !in done then 1 else 0)
  }

  /** Edges from `u` to `v`. */
  function CountFrom(edges: seq<Edge>, u: string, v: string): nat {
    if edges == [] then 0
    else
      var e := edges[|edges| - 1];
      CountFrom(edges[..|edges| - 1], u, v) + (if e.source == u && e.target == v then 1 else 0)
  }

  /** Edges from `u` into the node ids `ids`. */
  function CountOut(edges: seq<Edge>, u: string, ids: set<string>): nat {
    if edges == [] then 0
    else
      var e := edges[|edges| - 1];
      CountOut(edges[..|edges| - 1], u, ids) + (if e.source == u && e.target in ids then 1 else 0)
  }

  /** Edges into `ids` whose source is not in `done`: the work still ahead. */
  function Pending(edges: seq<Edge>, done: set<string>, ids: set<string>): nat {
    if edges == [] then 0
    else
      var e := edges[|edges| - 1];
      Pending(edges[..|edges| - 1], done, ids) + (if e.target in ids && e.source !in done then 1 else 0)
  }

  /** Every edge into `v` comes from `done`. */
  predicate SourcesIn(edges: seq<Edge>, v: string, done: set<string>) {
    forall k :: 0 <= k < |edges| && edges[k].target == v ==> edges[k].source in done
  }

  lemma {:induction false} CountInZero(edges: seq<Edge>, v: string, done: set<string>)
    ensures CountIn(edges, v, done) == 0 <==> SourcesIn(edges, v, done)
  {
    if edges != [] {
      var init := edges[..|edges| - 1];
      CountInZero(init, v, done);
      assert forall k :: 0 <= k < |init| ==> init[k] == edges[k];
    }
  }

  /** Emitting `u` removes exactly its edges into `v` from the count. */
  lemma {:induction false} CountInShift(edges: seq<Edge>, v: string, done: set<string>, u: string)
    requires u !in done
    ensures CountIn(edges, v, done) == CountIn(edges, v, done + {u}) + CountFrom(edges, u, v)
  {
    if edges != [] {
      CountInShift(edges[..|edges| - 1], v, done, u);
    }
  }

  lemma {:induction false} PendingShift(edges: seq<Edge>, done: set<string>, ids: set<string>, u: string)
    requires u !in done
    ensures Pending(edges, done, ids) == Pending(edges, done + {u}, ids) + CountOut(edges, u, ids)
  {
    if edges != [] {
      PendingShift(edges[..|edges| - 1], done, ids, u);
    }
  }

  lemma {:induction false} CountFromPrefix(edges: seq<Edge>, u: string, v: string, j: nat)
    requires j <= |edges|
    ensures CountFrom(edges[..j], u, v) <= CountFrom(edges, u, v)
    decreases |edges|
  {
    if j < |edges| {
      CountFromPrefix(edges[..|edges| - 1], u, v, j);
      assert edges[..|edges| - 1][..j] == edges[..j];
    } else {
      assert edges[..j] == edges;
    }
  }

  // ------------------------------------------------------------- the result

  /** `s` is the id of one of the first `i` emitted nodes. */
  predicate EmittedBefore(order: seq<Node>, i: nat, s: string)
    requires i <= |order|
  {
    s in Ids(order[..i])
  }

  /** What every output of the ordering satisfies: nodes of the graph, each id
      once, and every edge into an emitted node comes from a node emitted
      earlier. */
  predicate ValidOrder(g: Graph, order: seq<Node>) {
    (forall i :: 0 <= i < |order| ==> order[i] in g.nodes)
    && UniqueIds(order)
    && (forall i, k :: 0 <= i < |order| && 0 <= k < |g.edges| && g.edges[k].target == order[i].id
          ==> EmittedBefore(order, i, g.edges[k].source))
  }

  /** Nothing was left behind that could have been emitted: a node all of whose
      incoming edges come from emitted nodes is emitted itself. */
  predicate Closed(g: Graph, order: seq<Node>) {
    forall v :: v in Ids(g.nodes) && SourcesIn(g.edges, v, Ids(order)) ==> v in Ids(order)
  }

  /** Some edge, from anywhere, leads into `v`. */
  predicate HasInEdge(g: Graph, v: string) {
    exists k :: 0 <= k < |g.edges| && g.edges[k].target == v
  }

  /** Every node has an incoming edge. */
  predicate AllHaveInEdges(g: Graph) {
    forall i :: 0 <= i < |g.nodes| ==> HasInEdge(g, g.nodes[i].id)
  }

  /** `graph.nodes.iter().find(|n| n.id == id)`. */
  function FindNode(nodes: seq<Node>, id: string): (r: Option<Node>)
    ensures r.Some? <==> id in Ids(nodes)
    ensures r.Some? ==> r.value in nodes && r.value.id == id
  {
    if nodes == [] then None
    else if nodes[0].id == id then Some(nodes[0])
    else
      assert Ids(nodes) == {nodes[0].id} + Ids(nodes[1..]) by {
        assert forall i :: 1 <= i < |nodes| ==> nodes[i] == nodes[1..][i - 1];
      }
      FindNode(nodes[1..], id)
  }

  /** Some queued node carries id `v`. */
  predicate InQueue(queue: seq<Node>, v: string) {
    exists i :: 0 <= i < |queue| && queue[i].id == v
  }

  // ------------------------------------------------------------- the method

  /** Every node starts at in-degree zero; each edge whose target is a node adds one. */
  method InitIndegree(g: Graph) returns (indeg: map<string, nat>)
    ensures indeg.Keys == Ids(g.nodes)
    ensures forall v :: v in indeg ==> indeg[v] == CountIn(g.edges, v, {})
  {
    indeg := map[];
    var i := 0;
    while i < |g.nodes|
      invariant 0 <= i <= |g.nodes|
      invariant indeg.Keys == Ids(g.nodes[..i])
      invariant forall v :: v in indeg ==> indeg[v] == 0
    {
      assert g.nodes[..i + 1] == g.nodes[..i] + [g.nodes[i]];
      IdsSnoc(g.nodes[..i], g.nodes[i]);
      indeg := indeg[g.nodes[i].id := 0];
      i := i + 1;
    }
    assert g.nodes[..i] == g.nodes;
    var j := 0;
    while j < |g.edges|
      invariant 0 <= j <= |g.edges|
      invariant indeg.Keys == Ids(g.nodes)
      invariant forall v :: v in indeg ==> indeg[v] == CountIn(g.edges[..j], v, {})
    {
      assert g.edges[..j + 1][..j] == g.edges[..j];
      var t := g.edges[j].target;
      if t in indeg {
        indeg := indeg[t := indeg[t] + 1];
      }
      j := j + 1;
    }
    assert g.edges[..j] == g.edges;
  }

  /** The nodes of in-degree zero, in graph order. */
  method InitialQueue(g: Graph, indeg: map<string, nat>) returns (queue: seq<Node>)
    requires indeg.Keys == Ids(g.nodes)
    ensures forall i :: 0 <= i < |queue| ==> queue[i] in g.nodes && indeg[queue[i].id] == 0
    ensures forall v :: v in indeg && indeg[v] == 0 ==> InQueue(queue, v)
  {
    queue := [];
    var i := 0;
    while i < |g.nodes|
      invariant 0 <= i <= |g.nodes|
      invariant forall q :: 0 <= q < |queue| ==> queue[q] in g.nodes && indeg[queue[q].id] == 0
      invariant forall v :: v in Ids(g.nodes[..i]) && indeg[v] == 0 ==> InQueue(queue, v)
    {
      assert g.nodes[..i + 1] == g.nodes[..i] + [g.nodes[i]];
      IdsSnoc(g.nodes[..i], g.nodes[i]);
      ghost var before := queue;
      if indeg[g.nodes[i].id] == 0 {
        queue := queue + [g.nodes[i]];
        assert queue[|queue| - 1].id == g.nodes[i].id;
      }
      assert forall v :: InQueue(before, v) ==> InQueue(queue, v) by {
        forall v | InQueue(before, v) ensures InQueue(queue, v) {
          var q :| 0 <= q < |before| && before[q].id == v;
          assert queue[q] == before[q];
        }
      }
      i := i + 1;
    }
    assert g.nodes[..i] == g.nodes;
  }

  /** The inner loop's state after the first `j` edges out of `u` were released. */
  ghost predicate ReleaseInv(g: Graph, u: string, done: set<string>, j: nat, queue0: seq<Node>,
                             indeg: map<string, nat>, queue: seq<Node>)
    requires j <= |g.edges|
  {
    indeg.Keys == Ids(g.nodes)
    && (forall v :: v in indeg ==> indeg[v] + CountFrom(g.edges[..j], u, v) == CountIn(g.edges, v, done))
    && |queue0| <= |queue| <= |queue0| + CountOut(g.edges[..j], u, Ids(g.nodes))
    && (forall i :: 0 <= i < |queue| ==> queue[i] in g.nodes)
    && (forall i :: 0 <= i < |queue| ==> queue[i].id in done + {u} || indeg[queue[i].id] == 0)
    && (forall v :: v in indeg && indeg[v] == 0 ==> v in done + {u} || InQueue(queue, v))
  }

  /** Counting one more edge of a prefix adds that edge alone. */
  lemma CountStep(edges: seq<Edge>, j: nat, u: string, ids: set<string>)
    requires j < |edges|
    ensures forall v :: CountFrom(edges[..j + 1], u, v)
                        == CountFrom(edges[..j], u, v) + (if edges[j].source == u && edges[j].target == v then 1 else 0)
    ensures CountOut(edges[..j + 1], u, ids)
            == CountOut(edges[..j], u, ids) + (if edges[j].source == u && edges[j].target in ids then 1 else 0)
  {
    assert edges[..j + 1][..j] == edges[..j];
  }

  /** One edge of the inner loop. The guard `indeg > 0` always holds for an
      edge out of `u` into a node, since that edge is still counted. */
  method ReleaseEdge(g: Graph, u: string, ghost done: set<string>, ghost queue0: seq<Node>, j: nat,
                     indeg: map<string, nat>, queue: seq<Node>)
    returns (indeg': map<string, nat>, queue': seq<Node>)
    requires u !in done && j < |g.edges|
    requires ReleaseInv(g, u, done, j, queue0, indeg, queue)
    ensures ReleaseInv(g, u, done, j + 1, queue0, indeg', queue')
  {
    var e := g.edges[j];
    if e.source == u && e.target in indeg {
      ReleaseCount(g, u, done, queue0, j, indeg, queue);
      indeg' := indeg[e.target := indeg[e.target] - 1];
      if indeg'[e.target] == 0 {
        var n2 := FindNode(g.nodes, e.target);
        queue' := queue + [n2.value];
        ReleasePush(g, u, done, queue0, j, indeg, queue, n2.value);
      } else {
        queue' := queue;
        ReleaseLower(g, u, done, queue0, j, indeg, queue);
      }
    } else {
      indeg', queue' := indeg, queue;
      CountStep(g.edges, j, u, Ids(g.nodes));
    }
  }

  /** An edge out of `u` into a node is still counted, so its target's
      in-degree is positive, and lowering it matches the longer prefix. */
  lemma ReleaseCount(g: Graph, u: string, done: set<string>, queue0: seq<Node>, j: nat,
                     indeg: map<string, nat>, queue: seq<Node>)
    requires u !in done && j < |g.edges|
    requires ReleaseInv(g, u, done, j, queue0, indeg, queue)
    requires g.edges[j].source == u && g.edges[j].target in indeg
    ensures indeg[g.edges[j].target] > 0
    ensures var t := g.edges[j].target;
            var d := indeg[t := indeg[t] - 1];
            forall v :: v in d ==> d[v] + CountFrom(g.edges[..j + 1], u, v) == CountIn(g.edges, v, done)
    ensures CountOut(g.edges[..j + 1], u, Ids(g.nodes)) == CountOut(g.edges[..j], u, Ids(g.nodes)) + 1
  {
    var t := g.edges[j].target;
    CountStep(g.edges, j, u, Ids(g.nodes));
    CountInShift(g.edges, t, done, u);
    CountFromPrefix(g.edges, u, t, j + 1);
  }

  /** The target's in-degree drops but stays positive: nothing is pushed. */
  lemma ReleaseLower(g: Graph, u: string, done: set<string>, queue0: seq<Node>, j: nat,
                     indeg: map<string, nat>, queue: seq<Node>)
    requires u !in done && j < |g.edges|
    requires ReleaseInv(g, u, done, j, queue0, indeg, queue)
    requires g.edges[j].source == u && g.edges[j].target in indeg && indeg[g.edges[j].target] > 1
    ensures var t := g.edges[j].target;
            ReleaseInv(g, u, done, j + 1, queue0, indeg[t := indeg[t] - 1], queue)
  {
    ReleaseCount(g, u, done, queue0, j, indeg, queue);
  }

  /** The target's in-degree drops to zero and the target is pushed. */
  lemma ReleasePush(g: Graph, u: string, done: set<string>, queue0: seq<Node>, j: nat,
                    indeg: map<string, nat>, queue: seq<Node>, n: Node)
    requires u !in done && j < |g.edges|
    requires ReleaseInv(g, u, done, j, queue0, indeg, queue)
    requires g.edges[j].source == u && g.edges[j].target in indeg && indeg[g.edges[j].target] == 1
    requires n in g.nodes && n.id == g.edges[j].target
    ensures var t := g.edges[j].target;
            ReleaseInv(g, u, done, j + 1, queue0, indeg[t := 0], queue + [n])
  {
    ReleaseCount(g, u, done, queue0, j, indeg, queue);
    var q := queue + [n];
    assert q[|q| - 1].id == n.id;
    forall v | InQueue(queue, v) ensures InQueue(q, v) {
      var i :| 0 <= i < |queue| && queue[i].id == v;
      assert q[i] == queue[i];
    }
  }

  /** The inner loop: every edge out of the node just emitted lowers its
      target's in-degree, and a target reaching zero is pushed. */
  method Release(g: Graph, u: string, ghost done: set<string>,
                 indeg0: map<string, nat>, queue0: seq<Node>)
    returns (indeg: map<string, nat>, queue: seq<Node>)
    requires u !in done
    requires indeg0.Keys == Ids(g.nodes)
    requires forall v :: v in indeg0 ==> indeg0[v] == CountIn(g.edges, v, done)
    requires forall i :: 0 <= i < |queue0| ==> queue0[i] in g.nodes
    requires forall i :: 0 <= i < |queue0| ==> queue0[i].id in done + {u} || indeg0[queue0[i].id] == 0
    requires forall v :: v in indeg0 && indeg0[v] == 0 ==> v in done + {u} || InQueue(queue0, v)
    ensures indeg.Keys == Ids(g.nodes)
    ensures forall v :: v in indeg ==> indeg[v] == CountIn(g.edges, v, done + {u})
    ensures |queue0| <= |queue| <= |queue0| + CountOut(g.edges, u, Ids(g.nodes))
    ensures forall i :: 0 <= i < |queue| ==> queue[i] in g.nodes
    ensures forall i :: 0 <= i < |queue| ==> queue[i].id in done + {u} || indeg[queue[i].id] == 0
    ensures forall v :: v in indeg && indeg[v] == 0 ==> v in done + {u} || InQueue(queue, v)
  {
    indeg, queue := indeg0, queue0;
    var j := 0;
    assert g.edges[..0] == [];
    while j < |g.edges|
      invariant 0 <= j <= |g.edges|
      invariant ReleaseInv(g, u, done, j, queue0, indeg, queue)
    {
      indeg, queue := ReleaseEdge(g, u, done, queue0, j, indeg, queue);
      j := j + 1;
    }
    assert g.edges[..j] == g.edges;
    forall v | v in indeg
      ensures indeg[v] == CountIn(g.edges, v, done + {u})
    {
      CountInShift(g.edges, v, done, u);
    }
  }

  /** What the main loop keeps: in-degrees count the edges from nodes not
      yet emitted, the stack holds graph nodes that are emitted or free, every
      free node is emitted or stacked, and the order so far is valid. */
  ghost predicate KahnInv(g: Graph, indeg: map<string, nat>, order: seq<Node>, visited: set<string>,
                          queue: seq<Node>) {
    indeg.Keys == Ids(g.nodes)
    && visited == Ids(order)
    && (forall v :: v in indeg ==> indeg[v] == CountIn(g.edges, v, visited))
    && (forall i :: 0 <= i < |queue| ==> queue[i] in g.nodes)
    && (forall i :: 0 <= i < |queue| ==> queue[i].id in visited || indeg[queue[i].id] == 0)
    && (forall v :: v in indeg && indeg[v] == 0 ==> v in visited || InQueue(queue, v))
    && ValidOrder(g, order)
  }

  /** The emission order computed by the stack-based Kahn algorithm. */
  method KahnOrder(g: Graph) returns (order: seq<Node>)
    ensures ValidOrder(g, order)
    ensures Closed(g, order)
  {
    var indeg := InitIndegree(g);
    var queue := InitialQueue(g, indeg);
    order := [];
    var visited: set<string> := {};
    while |queue| > 0
      invariant KahnInv(g, indeg, order, visited, queue)
      decreases Pending(g.edges, visited, Ids(g.nodes)) + |queue|
    {
      indeg, order, visited, queue := KahnStep(g, indeg, order, visited, queue);
    }
    forall v | v in Ids(g.nodes) && SourcesIn(g.edges, v, Ids(order))
      ensures v in Ids(order)
    {
      CountInZero(g.edges, v, visited);
    }
  }

  /** One turn of the main loop: pop the top of the stack, and unless it was
      emitted already, emit it and release its outgoing edges. */
  method KahnStep(g: Graph, indeg0: map<string, nat>, order0: seq<Node>, visited0: set<string>, queue0: seq<Node>)
    returns (indeg: map<string, nat>, order: seq<Node>, visited: set<string>, queue: seq<Node>)
    requires |queue0| > 0 && KahnInv(g, indeg0, order0, visited0, queue0)
    ensures KahnInv(g, indeg, order, visited, queue)
    ensures Pending(g.edges, visited, Ids(g.nodes)) + |queue| < Pending(g.edges, visited0, Ids(g.nodes)) + |queue0|
  {
    var node := queue0[|queue0| - 1];
    queue := queue0[..|queue0| - 1];
    PopKeepsFree(g, indeg0, visited0, queue0);
    if node.id in visited0 {
      indeg, order, visited := indeg0, order0, visited0;
      return;
    }
    PendingShift(g.edges, visited0, Ids(g.nodes), node.id);
    CountInZero(g.edges, node.id, visited0);
    order := Emit(g, order0, node);
    visited := visited0 + {node.id};
    indeg, queue := Release(g, node.id, visited0, indeg0, queue);
  }

  /** Popping the top of the stack loses no free node other than the top. */
  lemma PopKeepsFree(g: Graph, indeg: map<string, nat>, visited: set<string>, queue0: seq<Node>)
    requires |queue0| > 0 && indeg.Keys == Ids(g.nodes)
    requires forall i :: 0 <= i < |queue0| ==> queue0[i] in g.nodes
    requires forall i :: 0 <= i < |queue0| ==> queue0[i].id in visited || indeg[queue0[i].id] == 0
    requires forall v :: v in indeg && indeg[v] == 0 ==> v in visited || InQueue(queue0, v)
    ensures var queue := queue0[..|queue0| - 1];
            var u := queue0[|queue0| - 1].id;
            (forall i :: 0 <= i < |queue| ==> queue[i] in g.nodes)
            && (forall i :: 0 <= i < |queue| ==> queue[i].id in visited || indeg[queue[i].id] == 0)
            && (forall v :: v in indeg && indeg[v] == 0 ==> v in visited + {u} || InQueue(queue, v))
  {
    var queue := queue0[..|queue0| - 1];
    var u := queue0[|queue0| - 1].id;
    assert forall i :: 0 <= i < |queue| ==> queue[i] == queue0[i];
    forall v | v in indeg && indeg[v] == 0 ensures v in visited + {u} || InQueue(queue, v) {
      if v !in visited + {u} {
        var i :| 0 <= i < |queue0| && queue0[i].id == v;
        assert i < |queue| && queue[i].id == v;
      }
    }
  }

  /** Appending a node whose incoming edges all come from emitted nodes keeps
      the order valid. */
  method Emit(g: Graph, order: seq<Node>, node: Node) returns (order': seq<Node>)
    requires ValidOrder(g, order)
    requires node in g.nodes && node.id !in Ids(order)
    requires SourcesIn(g.edges, node.id, Ids(order))
    ensures order' == order + [node]
    ensures Ids(order') == Ids(order) + {node.id}
    ensures ValidOrder(g, order')
  {
    order' := order + [node];
    IdsSnoc(order, node);
    assert order'[..|order|] == order;
    forall i | 0 <= i < |order|
      ensures order'[..i] == order[..i]
    {
    }
  }

  /** `topological_order`: the emission order, or an error when nothing was emitted. */
  method TopologicalOrder(g: Graph) returns (r: Result<seq<Node>, string>)
    ensures r.Ok? ==> |r.value| > 0 && ValidOrder(g, r.value) && Closed(g, r.value)
    ensures r.Err? <==> AllHaveInEdges(g)
    ensures r.Err? ==> r.error == "graph is empty or invalid"
  {
    var order := KahnOrder(g);
    EmptyIff(g, order);
    if |order| == 0 {
      r := Err("graph is empty or invalid");
    } else {
      r := Ok(order);
    }
  }

  /** Nothing is emitted exactly when every node has an incoming edge (the empty
      graph included). */
  lemma EmptyIff(g: Graph, order: seq<Node>)
    requires ValidOrder(g, order) && Closed(g, order)
    ensures order == [] <==> AllHaveInEdges(g)
  {
    if order == [] {
      forall i | 0 <= i < |g.nodes|
        ensures HasInEdge(g, g.nodes[i].id)
      {
        IdsAt(g.nodes, i);
        assert Ids(order) == {};
        assert !SourcesIn(g.edges, g.nodes[i].id, Ids(order));
      }
    } else {
      var n := order[0];
      assert n in g.nodes;
      var i :| 0 <= i < |g.nodes| && g.nodes[i] == n;
      assert order[..0] == [];
      assert Ids(order[..0]) == {};
      assert !HasInEdge(g, g.nodes[i].id);
    }
  }

  // ------------------------------------------------------- what is omitted

  /** A node on a cycle is never emitted: its predecessor on the cycle would
      have to come first, and so on around the cycle. */
  lemma {:induction false} CycleNotEmitted(g: Graph, order: seq<Node>, i: nat, w: seq<string>)
    requires ValidOrder(g, order) && i < |order| && IsCycle(g, w)
    ensures order[i].id !in w
    decreases i
  {
    forall j | 0 <= j < i
      ensures order[j].id !in w
    {
      CycleNotEmitted(g, order, j, w);
    }
    forall m | 0 <= m < |w|
      ensures w[m] != order[i].id
    {
      var m' := if m == 0 then |w| - 1 else m;
      assert w[m'] == w[m];
      var p := w[m' - 1];
      assert p in w;
      assert p !in Ids(order[..i]);
      assert HasEdge(g, p, w[m']);
      var k :| 0 <= k < |g.edges| && g.edges[k].source == p && g.edges[k].target == w[m'];
      assert !EmittedBefore(order, i, g.edges[k].source);
    }
  }

  /** Every emitted node is off every cycle. */
  lemma CycleNodesOmitted(g: Graph, order: seq<Node>)
    requires ValidOrder(g, order)
    ensures forall i :: 0 <= i < |order| ==> !OnCycle(g, order[i].id)
  {
    forall i, w | 0 <= i < |order| && IsCycle(g, w)
      ensures order[i].id !in w
    {
      CycleNotEmitted(g, order, i, w);
    }
  }

  /** An edge into an emitted node always comes from a node of the graph: a
      node with an incoming edge from an unknown id is never emitted. */
  lemma UnknownSourceOmitted(g: Graph, order: seq<Node>)
    requires ValidOrder(g, order)
    ensures forall i, k :: 0 <= i < |order| && 0 <= k < |g.edges| && g.edges[k].target == order[i].id
              ==> g.edges[k].source in Ids(g.nodes)
  {
    forall i, k | 0 <= i < |order| && 0 <= k < |g.edges| && g.edges[k].target == order[i].id
      ensures g.edges[k].source in Ids(g.nodes)
    {
      assert EmittedBefore(order, i, g.edges[k].source);
      var j :| 0 <= j < i && order[..i][j].id == g.edges[k].source;
      assert order[j] in g.nodes;
      IdsElem(g.nodes, order[j]);
    }
  }

  // ---------------------------------------------------------- completeness

  /** Every edge starts at a node of the graph. */
  predicate SourcesKnown(g: Graph) {
    forall k :: 0 <= k < |g.edges| ==> g.edges[k].source in Ids(g.nodes)
  }

  /** Among more than |S| members of S, one repeats. */
  lemma {:induction false} Pigeonhole(w: seq<string>, S: set<string>) returns (i: nat, j: nat)
    requires forall m :: 0 <= m < |w| ==> w[m] in S
    requires |w| > |S|
    ensures i < j < |w| && w[i] == w[j]
    decreases |w|
  {
    if w[0] in w[1..] {
      var j' :| 0 <= j' < |w| - 1 && w[1..][j'] == w[0];
      i, j := 0, j' + 1;
    } else {
      var rest := w[1..];
      forall m | 0 <= m < |rest|
        ensures rest[m] in S - {w[0]}
      {
        assert rest[m] == w[m + 1];
      }
      var i', j' := Pigeonhole(rest, S - {w[0]});
      i, j := i' + 1, j' + 1;
    }
  }

  /** Some edge into `v` starts inside `S`. */
  predicate HasPredIn(g: Graph, S: set<string>, v: string) {
    exists k :: 0 <= k < |g.edges| && g.edges[k].target == v && g.edges[k].source in S
  }

  /** A walk of `n` edges inside `S`, built backwards from predecessors. */
  lemma {:induction false} BackWalk(g: Graph, S: set<string>, n: nat) returns (w: seq<string>)
    requires S != {}
    requires forall v {:trigger HasPredIn(g, S, v)} :: v in S ==> HasPredIn(g, S, v)
    ensures |w| == n + 1
    ensures forall m :: 0 <= m < |w| ==> w[m] in S
    ensures forall m :: 0 <= m < |w| - 1 ==> HasEdge(g, w[m], w[m + 1])
  {
    if n == 0 {
      var v :| v in S;
      w := [v];
    } else {
      var w' := BackWalk(g, S, n - 1);
      assert HasPredIn(g, S, w'[0]);
      var k :| 0 <= k < |g.edges| && g.edges[k].target == w'[0] && g.edges[k].source in S;
      var p := g.edges[k].source;
      w := [p] + w';
      assert HasEdge(g, p, w'[0]);
      assert forall m :: 1 <= m < |w| ==> w[m] == w'[m - 1];
    }
  }

  /** A non-empty set in which every member has a predecessor inside the set
      contains a cycle. */
  lemma CycleFromPredecessors(g: Graph, S: set<string>)
    requires S != {}
    requires forall v {:trigger HasPredIn(g, S, v)} :: v in S ==> HasPredIn(g, S, v)
    ensures exists w :: IsCycle(g, w)
  {
    var w := BackWalk(g, S, |S|);
    var i, j := Pigeonhole(w, S);
    var c := w[i..j + 1];
    forall m | 0 <= m < |c| - 1
      ensures HasEdge(g, c[m], c[m + 1])
    {
      assert c[m] == w[i + m] && c[m + 1] == w[i + m + 1];
    }
    assert IsCycle(g, c);
  }

  /** On a graph without cycles whose edges all start at nodes, every node is
      emitted, each exactly once. */
  lemma AcyclicComplete(g: Graph, order: seq<Node>)
    requires ValidOrder(g, order) && Closed(g, order) && SourcesKnown(g)
    ensures Acyclic(g) ==> Ids(order) == Ids(g.nodes)
    ensures Acyclic(g) && UniqueIds(g.nodes) ==> forall n :: n in g.nodes <==> n in order
  {
    OrderWithinNodes(g, order);
    if Ids(order) != Ids(g.nodes) {
      LeftoverCycle(g, order);
    } else if UniqueIds(g.nodes) {
      SameIdsSameNodes(g, order);
    }
  }

  lemma OrderWithinNodes(g: Graph, order: seq<Node>)
    requires forall i :: 0 <= i < |order| ==> order[i] in g.nodes
    ensures Ids(order) <= Ids(g.nodes)
  {
    forall v | v in Ids(order) ensures v in Ids(g.nodes) {
      var i :| 0 <= i < |order| && order[i].id == v;
      IdsElem(g.nodes, order[i]);
    }
  }

  /** The nodes left over all have a predecessor among themselves, so they
      hold a cycle. */
  lemma LeftoverCycle(g: Graph, order: seq<Node>)
    requires Closed(g, order) && SourcesKnown(g)
    requires Ids(order) <= Ids(g.nodes) && Ids(order) != Ids(g.nodes)
    ensures exists w :: IsCycle(g, w)
  {
    var S := Ids(g.nodes) - Ids(order);
    var v0 :| v0 in Ids(g.nodes) && v0 !in Ids(order);
    assert v0 in S;
    forall v | v in S
      ensures HasPredIn(g, S, v)
    {
      assert !SourcesIn(g.edges, v, Ids(order));
      var k :| 0 <= k < |g.edges| && g.edges[k].target == v && g.edges[k].source !in Ids(order);
      assert g.edges[k].source in S;
    }
    CycleFromPredecessors(g, S);
  }

  /** With unique ids, emitting every id means emitting every node. */
  lemma SameIdsSameNodes(g: Graph, order: seq<Node>)
    requires forall i :: 0 <= i < |order| ==> order[i] in g.nodes
    requires UniqueIds(g.nodes) && Ids(order) == Ids(g.nodes)
    ensures forall n :: n in g.nodes <==> n in order
  {
    forall n | n in g.nodes
      ensures n in order
    {
      var a :| 0 <= a < |g.nodes| && g.nodes[a] == n;
      IdsAt(g.nodes, a);
      var b :| 0 <= b < |order| && order[b].id == n.id;
      var c :| 0 <= c < |g.nodes| && g.nodes[c] == order[b];
      assert c == a;
    }
  }
}

=== FILE: workflow_client.dfy ===
/** What the two workflow designer screens share: their state record, the save
    body, and the run and AI-generate handlers, whose code is the same in both
    apart from the endpoints. Each handler takes the replies to its requests as
    parameters and returns the state while it waits, the state once it is done,
    and the requests and alerts it produced. A reply is either the body the
    code casts it to, or `Err` for a rejected fetch or an unparsable body. */
module WorkflowClient {
  import opened Wrappers
  import Strings
  import Json

  /** A workflow definition as the screens receive it. */
  datatype Definition = Definition(id: int, name: string, description: Option<string>, lfJson: Json.Value)

  /** An HTTP request; `verb` is the method. */
  datatype Request = Request(verb: string, url: string, body: Option<Json.Value>)

  /** The side effects of a handler: requests sent, alerts shown, and the
      ids passed to the parent's `onSaveSuccess`, all in order. */
  datatype Effects = Effects(requests: seq<Request>, alerts: seq<string>, saved: seq<int>)

  const NoEffects: Effects := Effects([], [], [])

  /** The screen state. `id` is `null` as `None`; `graph` is `undefined` as
      `None`; `instance` is the JSON `null` until a run shows its result.
      `defs` is only used by the management page and `loading` only by the
      editor. */
  datatype Designer = Designer(
    defs: Json.Value,
    id: Option<int>,
    name: string,
    desc: string,
    graph: Option<Json.Value>,
    instance: Json.Value,
    saving: bool,
    running: bool,
    loading: bool)

  const Untitled: string := "未命名工作流"
  const SaveOk: string := "保存成功"
  const SaveFailed: string := "保存失败，请看控制台"
  const SaveFirst: string := "请先保存工作流"
  const RunFailed: string := "执行失败，请看控制台"
  const AiFailed: string := "AI 生成失败，请看控制台"

  /** `{ nodes: [], edges: [] }`. */
  const EmptyGraph: Json.Value := Json.Obj([Json.Field("nodes", Json.Arr([])), Json.Field("edges", Json.Arr([]))])

  /** JavaScript truthiness of a JSON value: `null`, `false`, `0` and `""`
      are falsy, every array and object is truthy. */
  predicate Truthy(v: Json.Value) {
    match v
    case Null => false
    case Bool(b) => b
    case Num(n) => n != 0
    case Str(s) => s != []
    case _ => true
  }

  /** `!!graph`. */
  predicate HasGraph(s: Designer) {
    s.graph.Some? && Truthy(s.graph.value)
  }

  /** `!!currentId`: absent and zero are falsy. */
  predicate HasId(s: Designer) {
    s.id.Some? && s.id.value != 0
  }

  /** The document being edited: id, name, description and graph. */
  predicate SameDocument(s: Designer, t: Designer) {
    t.id == s.id && t.name == s.name && t.desc == s.desc && t.graph == s.graph
  }

  /** `text || fallback` for strings. */
  function OrText(text: string, fallback: string): (r: string)
    ensures r != [] <==> text != [] || fallback != []
    ensures text != [] ==> r == text
  {
    if text == [] then fallback else text
  }

  /** The body a save posts. An absent id is sent as `null` so the server
      inserts; an empty name becomes "未命名工作流" and an empty description
      `null`. */
  function SaveBody(s: Designer): (b: Json.Value)
    requires HasGraph(s)
    ensures b.Obj? && Json.UniqueKeys(b.fields)
    ensures Json.Get(b, "id") == Some(if s.id.Some? then Json.Num(s.id.value) else Json.Null)
    ensures Json.Get(b, "name") == Some(Json.Str(if s.name == [] then Untitled else s.name))
    ensures Json.Get(b, "description") == Some(if s.desc == [] then Json.Null else Json.Str(s.desc))
    ensures Json.Get(b, "lf_json") == s.graph
  {
    var fields := [
      Json.Field("id", if s.id.Some? then Json.Num(s.id.value) else Json.Null),
      Json.Field("name", Json.Str(OrText(s.name, Untitled))),
      Json.Field("description", if s.desc == [] then Json.Null else Json.Str(s.desc)),
      Json.Field("lf_json", s.graph.value)];
    assert |fields[0].key| == 2 && |fields[1].key| == 4 && |fields[2].key| == 11 && |fields[3].key| == 7;
    assert Json.UniqueKeys(fields);
    Json.FindUnique(fields, 0);
    Json.FindUnique(fields, 1);
    Json.FindUnique(fields, 2);
    Json.FindUnique(fields, 3);
    Json.Obj(fields)
  }

  /** The endpoints one screen talks to. `instances` is the prefix the
      instance id is appended to. */
  datatype Endpoints = Endpoints(definitions: string, run: string, instances: string, ai: string)

  /** `{ ...inst, steps }` with `steps` the reply's array, or `[]` when the
      reply's `steps` is missing or not an array. The code casts the reply to
      an instance object; a reply of another shape is outside that cast, and
      the model then gives an object holding only `steps`. */
  function WithSteps(inst: Json.Value): (r: Json.Value)
    ensures r.Obj?
    ensures Json.Get(r, "steps") == Some(StepsOf(inst))
    ensures inst.Obj? ==> forall k :: k != "steps" ==> Json.Get(r, k) == Json.Get(inst, k)
  {
    if inst.Obj? then
      forall k ensures Json.Find(Json.Insert(inst.fields, "steps", StepsOf(inst)), k)
                       == (if k == "steps" then Some(StepsOf(inst)) else Json.Find(inst.fields, k)) {
        Json.InsertFind(inst.fields, "steps", StepsOf(inst), k);
      }
      Json.Obj(Json.Insert(inst.fields, "steps", StepsOf(inst)))
    else Json.Obj([Json.Field("steps", StepsOf(inst))])
  }

  /** `Array.isArray(inst.steps) ? inst.steps : []`. */
  function StepsOf(inst: Json.Value): (r: Json.Value)
    ensures r.Arr?
    ensures (match Json.Get(inst, "steps") case Some(Arr(_)) => true case _ => false)
            <==> Json.Get(inst, "steps") == Some(r)
  {
    match Json.Get(inst, "steps")
    case Some(Arr(xs)) => Json.Arr(xs)
    case _ => Json.Arr([])
  }

  /** `handleRun`. Without an id it only alerts. Otherwise it marks the run as
      busy and clears the instance before anything is sent, posts the run,
      fetches the instance the run reply names, and shows it with its steps
      normalised. Any failure, including a `null` instance body, alerts and
      leaves the instance cleared. */
  function Run(s: Designer, e: Endpoints, runReply: Result<int, string>, instReply: Result<Json.Value, string>)
    : (r: (Designer, Designer, Effects))
    ensures !HasId(s) ==> r == (s, s, Effects([], [SaveFirst], []))
    ensures HasId(s) ==> r.0 == s.(running := true, instance := Json.Null)
    ensures HasId(s) ==>
              |r.2.requests| >= 1
              && r.2.requests[0] == Request("POST", e.run, Some(Json.Obj([Json.Field("workflow_id", Json.Num(s.id.value))])))
    ensures SameDocument(s, r.1) && r.1.defs == s.defs && r.1.saving == s.saving && r.1.loading == s.loading
    ensures HasId(s) ==> !r.1.running
    ensures HasId(s) ==>
              (r.1.instance != Json.Null <==> runReply.Ok? && instReply.Ok? && instReply.value != Json.Null)
    ensures HasId(s) && r.1.instance != Json.Null ==>
              runReply.Ok? && instReply.Ok? && r.1.instance == WithSteps(instReply.value) && r.2.alerts == []
              && |r.2.requests| == 2 && r.2.requests[1].url == e.instances + Strings.IntToString(runReply.value)
    ensures HasId(s) && r.1.instance == Json.Null ==> r.2.alerts == [RunFailed]
    ensures r.2.saved == []
  {
    if !HasId(s) then (s, s, Effects([], [SaveFirst], []))
    else
      var busy := s.(running := true, instance := Json.Null);
      var post := Request("POST", e.run, Some(Json.Obj([Json.Field("workflow_id", Json.Num(s.id.value))])));
      var failed := busy.(running := false);
      match runReply
      case Err(_) => (busy, failed, Effects([post], [RunFailed], []))
      case Ok(iid) =>
        var get := Request("GET", e.instances + Strings.IntToString(iid), None);
        match instReply
        case Err(_) => (busy, failed, Effects([post, get], [RunFailed], []))
        case Ok(inst) =>
          if inst == Json.Null then (busy, failed, Effects([post, get], [RunFailed], []))
          else (busy, failed.(instance := WithSteps(inst)), Effects([post, get], [], []))
  }

  /** `handleAiGenerate`: posts the prompt and sets the graph to the reply's
      `lf_json`, which is `undefined` when the reply has none. A failure,
      including a `null` body, alerts and changes nothing. */
  function AiGenerate(s: Designer, e: Endpoints, prompt: string, reply: Result<Json.Value, string>)
    : (r: (Designer, Effects))
    ensures r.0 == s.(graph := r.0.graph)
    ensures r.1.requests == [Request("POST", e.ai, Some(Json.Obj([Json.Field("prompt", Json.Str(prompt))])))]
    ensures r.1.saved == []
    ensures r.0.graph != s.graph ==> reply.Ok? && r.0.graph == Json.Get(reply.value, "lf_json")
    ensures reply.Ok? && reply.value != Json.Null ==> r.0.graph == Json.Get(reply.value, "lf_json") && r.1.alerts == []
    ensures !(reply.Ok? && reply.value != Json.Null) ==> r.0 == s && r.1.alerts == [AiFailed]
  {
    var post := Request("POST", e.ai, Some(Json.Obj([Json.Field("prompt", Json.Str(prompt))])));
    match reply
    case Ok(data) =>
      if data == Json.Null then (s, Effects([post], [AiFailed], []))
      else (s.(graph := Json.Get(data, "lf_json")), Effects([post], [], []))
    case Err(_) => (s, Effects([post], [AiFailed], []))
  }
}

=== FILE: workflow_core.dfy ===
/** The local JSON executor of the workflow core: `{{var}}` substitution, the
    extract and assert steps, and `run_once`, which runs the nodes in
    topological order and reports success only when every step succeeded. */
module WorkflowCore {
  import opened Wrappers
  import Strings
  import Json
  import opened LogicFlow
  import Topo

  /** The executor's variable table (`HashMap<String, String>`). */
  type Vars = map<string, string>

  // --------------------------------------------------------- apply_vars

  function Placeholder(k: string): string {
    "{{" + k + "}}"
  }

  /** `order` visits every key of `vars` exactly once: the iteration order of
      the hash map, which the program does not fix. */
  ghost predicate Enumerates(order: seq<string>, vars: Vars) {
    (forall k :: k in vars <==> k in order)
    && (forall i, j :: 0 <= i < j < |order| ==> order[i] != order[j])
  }

  /** Replaces every placeholder of the listed keys, one key after the other. */
  function ReplaceEach(s: string, vars: Vars, keys: seq<string>): string
    requires forall i :: 0 <= i < |keys| ==> keys[i] in vars
    decreases |keys|
  {
    if keys == [] then s
    else ReplaceEach(Strings.ReplaceAll(s, Placeholder(keys[0]), vars[keys[0]]), vars, keys[1..])
  }

  /** `apply_vars`: for each variable, in the map's iteration order, every
      `{{name}}` in the text so far is replaced by its value. */
  function ApplyVars(input: string, vars: Vars, order: seq<string>): string
    requires Enumerates(order, vars)
  {
    ReplaceEach(input, vars, order)
  }

  /** A text that mentions no placeholder of any variable comes back unchanged. */
  lemma ApplyVarsUntouched(input: string, vars: Vars, order: seq<string>)
    requires Enumerates(order, vars)
    requires forall k :: k in vars ==> !Strings.Contains(input, Placeholder(k))
    ensures ApplyVars(input, vars, order) == input
  {
    ReplaceEachAbsent(input, vars, order);
  }

  lemma {:induction false} ReplaceEachAbsent(s: string, vars: Vars, keys: seq<string>)
    requires forall i :: 0 <= i < |keys| ==> keys[i] in vars
    requires forall k :: k in vars ==> !Strings.Contains(s, Placeholder(k))
    ensures ReplaceEach(s, vars, keys) == s
    decreases |keys|
  {
    if keys != [] {
      Strings.ReplaceAllAbsent(s, Placeholder(keys[0]), vars[keys[0]]);
      ReplaceEachAbsent(s, vars, keys[1..]);
    }
  }

  // A template text seen as literal pieces and placeholders.

  datatype Piece = Lit(text: string) | Hole(key: string)

  function PieceText(p: Piece): string {
    match p
    case Lit(t) => t
    case Hole(k) => Placeholder(k)
  }

  function Render(ps: seq<Piece>): string {
    if ps == [] then [] else PieceText(ps[0]) + Render(ps[1..])
  }

  predicate BraceFree(s: string) {
    '{' !in s && '}' !in s
  }

  /** Literal text and placeholder names contain no braces. */
  predicate PlainPieces(ps: seq<Piece>) {
    forall i :: 0 <= i < |ps| ==> BraceFree(if ps[i].Lit? then ps[i].text else ps[i].key)
  }

  /** Variable names and values contain no braces. */
  predicate PlainVars(vars: Vars) {
    forall k :: k in vars ==> BraceFree(k) && BraceFree(vars[k])
  }

  /** Fills the placeholders whose name is in `ks` and has a value. */
  function FillKeys(ps: seq<Piece>, vars: Vars, ks: set<string>): seq<Piece> {
    if ps == [] then []
    else
      var p := ps[0];
      [if p.Hole? && p.key in ks && p.key in vars then Lit(vars[p.key]) else p] + FillKeys(ps[1..], vars, ks)
  }

  /** The intended meaning of substitution: every placeholder of a known
      variable becomes its value; everything else stays. */
  function Fill(ps: seq<Piece>, vars: Vars): seq<Piece> {
    FillKeys(ps, vars, vars.Keys)
  }

  lemma {:induction false} FillKeysTwice(ps: seq<Piece>, vars: Vars, a: set<string>, b: set<string>)
    ensures FillKeys(FillKeys(ps, vars, a), vars, b) == FillKeys(ps, vars, a + b)
  {
    if ps != [] {
      FillKeysTwice(ps[1..], vars, a, b);
    }
  }

  lemma {:induction false} FillKeysPlain(ps: seq<Piece>, vars: Vars, a: set<string>)
    requires PlainPieces(ps) && PlainVars(vars)
    ensures PlainPieces(FillKeys(ps, vars, a))
  {
    if ps != [] {
      FillKeysPlain(ps[1..], vars, a);
      var f := FillKeys(ps, vars, a);
      assert forall i :: 1 <= i < |f| ==> f[i] == FillKeys(ps[1..], vars, a)[i - 1];
    }
  }

  /** Two different brace-free names: neither placeholder starts the other. */
  lemma PlaceholderNotPrefix(k: string, k2: string, r: string)
    requires k != k2 && BraceFree(k) && BraceFree(k2)
    ensures !(Placeholder(k) <= Placeholder(k2) + r)
  {
    var a := Placeholder(k);
    var b := Placeholder(k2) + r;
    if |k| < |k2| {
      assert a[2 + |k|] == '}' && b[2 + |k|] == k2[|k|];
    } else if |k| > |k2| {
      assert a[2 + |k2|] == k[|k2|] && b[2 + |k2|] == '}';
    } else {
      var i :| 0 <= i < |k| && k[i] != k2[i];
      assert a[2 + i] == k[i] && b[2 + i] == k2[i];
    }
  }

  /** A placeholder of the name being replaced becomes the value. */
  lemma ReplaceSameHole(k: string, r: string, v: string)
    ensures Strings.ReplaceAll(Placeholder(k) + r, Placeholder(k), v) == v + Strings.ReplaceAll(r, Placeholder(k), v)
  {
    var s := Placeholder(k) + r;
    assert Placeholder(k) <= s && s[|Placeholder(k)|..] == r;
  }

  /** A placeholder of another brace-free name is copied through. */
  lemma ReplaceOtherHole(k: string, k2: string, r: string, v: string)
    requires k != k2 && BraceFree(k) && BraceFree(k2)
    ensures Strings.ReplaceAll(Placeholder(k2) + r, Placeholder(k), v)
            == Placeholder(k2) + Strings.ReplaceAll(r, Placeholder(k), v)
  {
    var pat := Placeholder(k);
    var s := Placeholder(k2) + r;
    PlaceholderNotPrefix(k, k2, r);
    assert s[1..] == "{" + k2 + "}}" + r;
    assert !(pat <= s[1..]) by {
      assert pat[1] == '{';
      if k2 == [] {
        assert s[1..][1] == '}';
      } else {
        assert s[1..][1] == k2[0];
      }
    }
    assert s[2..] == (k2 + "}}") + r;
    Strings.ReplaceAllSkip(k2 + "}}", r, pat, v);
    assert Strings.ReplaceAll(s, pat, v) == [s[0]] + ([s[1]] + Strings.ReplaceAll(s[2..], pat, v));
  }

  /** Replacing one brace-free name fills exactly its own placeholders. */
  lemma {:induction false} ReplaceOne(ps: seq<Piece>, vars: Vars, k: string)
    requires PlainPieces(ps) && PlainVars(vars) && k in vars
    ensures Strings.ReplaceAll(Render(ps), Placeholder(k), vars[k]) == Render(FillKeys(ps, vars, {k}))
  {
    var pat := Placeholder(k);
    var v := vars[k];
    if ps != [] {
      var r := Render(ps[1..]);
      assert PlainPieces(ps[1..]) by {
        assert forall i :: 1 <= i < |ps| ==> ps[i] == ps[1..][i - 1];
      }
      ReplaceOne(ps[1..], vars, k);
      var f := FillKeys(ps, vars, {k});
      assert f[1..] == FillKeys(ps[1..], vars, {k});
      assert Render(f) == PieceText(f[0]) + Render(FillKeys(ps[1..], vars, {k}));
      match ps[0]
      case Lit(t) =>
        Strings.ReplaceAllSkip(t, r, pat, v);
      case Hole(k2) =>
        if k2 == k {
          ReplaceSameHole(k, r, v);
        } else {
          ReplaceOtherHole(k, k2, r, v);
        }
    }
  }

  function KeySet(keys: seq<string>): set<string> {
    set i | 0 <= i < |keys| :: keys[i]
  }

  lemma {:induction false} ReplaceEachFill(ps: seq<Piece>, vars: Vars, keys: seq<string>)
    requires PlainPieces(ps) && PlainVars(vars)
    requires forall i :: 0 <= i < |keys| ==> keys[i] in vars
    ensures ReplaceEach(Render(ps), vars, keys) == Render(FillKeys(ps, vars, KeySet(keys)))
    decreases |keys|
  {
    if keys == [] {
      FillKeysNone(ps, vars);
      assert KeySet(keys) == {};
    } else {
      ReplaceOne(ps, vars, keys[0]);
      var ps1 := FillKeys(ps, vars, {keys[0]});
      FillKeysPlain(ps, vars, {keys[0]});
      ReplaceEachFill(ps1, vars, keys[1..]);
      FillKeysTwice(ps, vars, {keys[0]}, KeySet(keys[1..]));
      assert KeySet(keys) == {keys[0]} + KeySet(keys[1..]) by {
        assert forall i :: 1 <= i < |keys| ==> keys[i] == keys[1..][i - 1];
      }
    }
  }

  lemma {:induction false} FillKeysNone(ps: seq<Piece>, vars: Vars)
    ensures FillKeys(ps, vars, {}) == ps
  {
    if ps != [] {
      FillKeysNone(ps[1..], vars);
    }
  }

  /** When names, values and the literal text are free of braces, `apply_vars`
      replaces every placeholder of a known variable by its value and leaves
      unknown placeholders and all other text alone, whatever the iteration order. */
  lemma ApplyVarsFill(ps: seq<Piece>, vars: Vars, order: seq<string>)
    requires PlainPieces(ps) && PlainVars(vars) && Enumerates(order, vars)
    ensures ApplyVars(Render(ps), vars, order) == Render(Fill(ps, vars))
  {
    ReplaceEachFill(ps, vars, order);
    assert KeySet(order) == vars.Keys;
  }

  /** Under the same conditions two iteration orders give the same text. */
  lemma ApplyVarsOrderFree(ps: seq<Piece>, vars: Vars, o1: seq<string>, o2: seq<string>)
    requires PlainPieces(ps) && PlainVars(vars) && Enumerates(o1, vars) && Enumerates(o2, vars)
    ensures ApplyVars(Render(ps), vars, o1) == ApplyVars(Render(ps), vars, o2)
  {
    ApplyVarsFill(ps, vars, o1);
    ApplyVarsFill(ps, vars, o2);
  }

  /** Without the brace condition the iteration order shows through, even when
      no value contains `{{`: in `{{{{a}}b}}` with `a` empty, filling `a` first
      creates a `{{b}}` that `b` then fills, while filling `b` first finds none. */
  lemma ApplyVarsOrderMatters()
    ensures var vars := map["a" := "", "b" := "x"];
            ApplyVars("{{{{a}}b}}", vars, ["a", "b"]) == "x"
            && ApplyVars("{{{{a}}b}}", vars, ["b", "a"]) == "{{b}}"
  {
    var vars := map["a" := "", "b" := "x"];
    var s := "{{{{a}}b}}";
    assert Enumerates(["a", "b"], vars);
    assert Enumerates(["b", "a"], vars);
    assert Placeholder("a") == "{{a}}" && Placeholder("b") == "{{b}}";
    ReplaceAFirst(s, Placeholder("a"));
    ReplaceBFirst(s, Placeholder("b"));
    ReplaceSameHole("b", [], "x");
    assert Placeholder("b") + [] == "{{b}}";
    assert ["a", "b"][1..] == ["b"] && ["b"][1..] == [];
    assert ["b", "a"][1..] == ["a"] && ["a"][1..] == [];
    assert ReplaceEach(s, vars, ["a", "b"]) == ReplaceEach("{{b}}", vars, ["b"]);
    assert ReplaceEach(s, vars, ["b", "a"]) == ReplaceEach(s, vars, ["a"]);
  }

  /** Removing `{{a}}` from `{{{{a}}b}}` joins the braces around it into `{{b}}`. */
  lemma ReplaceAFirst(s: string, pa: string)
    requires s == "{{{{a}}b}}" && pa == "{{a}}"
    ensures Strings.ReplaceAll(s, pa, "") == "{{b}}"
  {
    var t := "b}}";
    Strings.ReplaceAllSkip(t, [], pa, "");
    assert t + [] == t;
    var s2 := pa + t;
    assert Strings.ReplaceAll(s2, pa, "") == t by {
      assert s2[|pa|..] == t;
    }
    var s1 := ['{'] + s2;
    Strings.ReplaceAllMiss('{', s2, pa, "", 2);
    assert Strings.ReplaceAll(s1, pa, "") == ['{'] + t;
    Strings.ReplaceAllMiss('{', s1, pa, "", 2);
    assert s == ['{'] + s1;
    assert Strings.ReplaceAll(s, pa, "") == ['{'] + (['{'] + t);
  }

  /** `{{{{a}}b}}` holds no `{{b}}`. */
  lemma ReplaceBFirst(s: string, pb: string)
    requires s == "{{{{a}}b}}" && pb == "{{b}}"
    ensures Strings.ReplaceAll(s, pb, "x") == s
  {
    var t := "a}}b}}";
    Strings.ReplaceAllSkip(t, [], pb, "x");
    assert t + [] == t;
    assert Strings.ReplaceAll(t, pb, "x") == t;
    Strings.ReplaceAllMiss('{', t, pb, "x", 1);
    var s3 := ['{'] + t;
    assert Strings.ReplaceAll(s3, pb, "x") == s3;
    Strings.ReplaceAllMiss('{', s3, pb, "x", 2);
    var s2 := ['{'] + s3;
    assert Strings.ReplaceAll(s2, pb, "x") == s2;
    Strings.ReplaceAllMiss('{', s2, pb, "x", 2);
    var s1 := ['{'] + s2;
    assert Strings.ReplaceAll(s1, pb, "x") == s1;
    Strings.ReplaceAllMiss('{', s1, pb, "x", 2);
    assert s == ['{'] + s1;
  }

  // ------------------------------------------------------ step semantics

  /** `prop_str`: a node property when it is a string, else the default. */
  function PropStr(props: Json.Value, key: string, default: string): (r: string)
    ensures (match Json.Get(props, key) case Some(Str(s)) => r == s case _ => r == default)
  {
    match Json.Get(props, key)
    case Some(v) => (match Json.AsStr(v) case Some(s) => s case None => default)
    case None => default
  }

  /** The executor's context (`ExecutionContext`): variables and the parsed
      body of the last HTTP response. */
  datatype Ctx = Ctx(vars: Vars, lastResponse: Option<Json.Value>)

  /** Why a step failed; each carries what the error message reports. */
  datatype StepError =
    | NoLastResponse(node: string)
    | MissingPathOrVar(node: string)
    | PathNotScalar(node: string, path: string)
    | MissingPath(node: string)
    | AssertMismatch(node: string, path: string, actual: string, expected: string)
    | RequestFailed(node: string, reason: string)

  /** `execute_extract_node`: copies the scalar found at `path` in the last
      response into the variable `var`. */
  function ExecuteExtract(node: Node, ctx: Ctx): (r: Result<Ctx, StepError>)
    ensures r.Err? <==>
              ctx.lastResponse.None?
              || PropStr(node.properties, "path", "") == []
              || PropStr(node.properties, "var", "") == []
              || Json.PathScalar(ctx.lastResponse.value, PropStr(node.properties, "path", "")).None?
    ensures r.Ok? ==>
              var name := PropStr(node.properties, "var", "");
              r.value.lastResponse == ctx.lastResponse
              && r.value.vars.Keys == ctx.vars.Keys + {name}
              && r.value.vars[name] == Json.PathScalar(ctx.lastResponse.value, PropStr(node.properties, "path", "")).value
              && forall k :: k in ctx.vars && k != name ==> r.value.vars[k] == ctx.vars[k]
  {
    match ctx.lastResponse
    case None => Err(NoLastResponse(node.id))
    case Some(resp) =>
      var path := PropStr(node.properties, "path", "");
      var name := PropStr(node.properties, "var", "");
      if path == [] || name == [] then Err(MissingPathOrVar(node.id))
      else
        match Json.PathScalar(resp, path)
        case Some(val) => Ok(ctx.(vars := ctx.vars[name := val]))
        case None => Err(PathNotScalar(node.id, path))
  }

  /** The text an assert node expects: `equals` with the variables applied when
      it is a string, otherwise its JSON text (`null` when absent). */
  function ExpectedText(props: Json.Value, vars: Vars, order: seq<string>): string
    requires Enumerates(order, vars)
  {
    match Json.Get(props, "equals")
    case Some(Str(s)) => ApplyVars(s, vars, order)
    case Some(v) => Json.Text(v)
    case None => Json.Text(Json.Null)
  }

  /** `execute_assert_node`: the scalar at `path` (or the empty text when there
      is none) must equal the expected text; the context is never changed. */
  function ExecuteAssert(node: Node, ctx: Ctx, order: seq<string>): (r: Result<Ctx, StepError>)
    requires Enumerates(order, ctx.vars)
    ensures r.Ok? ==> r.value == ctx
    ensures r.Err? <==>
              ctx.lastResponse.None?
              || PropStr(node.properties, "path", "") == []
              || Json.PathScalar(ctx.lastResponse.value, PropStr(node.properties, "path", "")).GetOr("")
                 != ExpectedText(node.properties, ctx.vars, order)
  {
    match ctx.lastResponse
    case None => Err(NoLastResponse(node.id))
    case Some(resp) =>
      var path := PropStr(node.properties, "path", "");
      if path == [] then Err(MissingPath(node.id))
      else
        var expected := ExpectedText(node.properties, ctx.vars, order);
        var actual := Json.PathScalar(resp, path).GetOr("");
        if actual != expected then Err(AssertMismatch(node.id, path, actual, expected))
        else Ok(ctx)
  }

  /** An assert with no `equals` compares against the text `null`, and a path
      with no scalar behind it reads as the empty text, so such an assert fails
      only through the comparison, never through the lookup. */
  lemma AssertAbsentEquals(node: Node, ctx: Ctx, order: seq<string>)
    requires Enumerates(order, ctx.vars)
    requires ctx.lastResponse.Some? && PropStr(node.properties, "path", "") != []
    requires Json.Get(node.properties, "equals").None?
    requires Json.PathScalar(ctx.lastResponse.value, PropStr(node.properties, "path", "")).None?
    ensures ExecuteAssert(node, ctx, order) == Err(AssertMismatch(node.id, PropStr(node.properties, "path", ""), "", "null"))
  {
  }

  /** The outcome of an HTTP node's request; building and sending the request
      happen outside the model. `json` is the body parsed as JSON, `Null` when
      it is not JSON. */
  datatype HttpOutcome =
    | Responded(status: nat, text: string, json: Json.Value)
    | RequestError(reason: string)

  /** The effect of `execute_http_node` once the request is answered: the parsed
      body becomes the last response, and `<id>_status` and `<id>_body` hold the
      status code and the raw body. A failed request changes nothing. */
  function ApplyHttp(node: Node, ctx: Ctx, outcome: HttpOutcome): (r: Result<Ctx, StepError>)
    ensures r.Err? <==> outcome.RequestError?
    ensures r.Ok? ==>
              r.value.lastResponse == Some(outcome.json)
              && r.value.vars.Keys == ctx.vars.Keys + {node.id + "_status", node.id + "_body"}
              && r.value.vars[node.id + "_body"] == outcome.text
              && r.value.vars[node.id + "_status"] == Strings.NatToString(outcome.status)
              && forall k :: k in ctx.vars && k != node.id + "_status" && k != node.id + "_body" ==> r.value.vars[k] == ctx.vars[k]
  {
    match outcome
    case RequestError(reason) => Err(RequestFailed(node.id, reason))
    case Responded(status, text, json) =>
      assert |node.id + "_status"| != |node.id + "_body"|;
      Ok(Ctx(ctx.vars[node.id + "_status" := Strings.NatToString(status)][node.id + "_body" := text], Some(json)))
  }

  /** Rust's `str::parse::<u16>`: an optional `+`, then at least one decimal
      digit, the value below 65536. */
  function ParseU16(s: string): (r: Option<nat>)
    ensures r.Some? ==> r.value < 65536
  {
    var digits := if |s| > 0 && s[0] == '+' then s[1..] else s;
    if |digits| > 0 && (forall i :: 0 <= i < |digits| ==> Strings.IsDigit(digits[i]))
       && Strings.ParseDigits(digits) < 65536
    then Some(Strings.ParseDigits(digits))
    else None
  }

  /** A status code written by an HTTP node reads back as the same code. */
  lemma ParseU16Status(code: nat)
    requires code < 65536
    ensures ParseU16(Strings.NatToString(code)) == Some(code)
  {
    Strings.ParseNatToString(code);
    var s := Strings.NatToString(code);
    assert Strings.IsDigit(s[0]);
  }

  // ----------------------------------------------------------- run_once

  /** What the executor needs from outside: the iteration order of a variable
      table, and the outcome of an HTTP node's request given the variables. */
  datatype Env = Env(hashOrder: Vars -> seq<string>, http: (Node, Vars) -> HttpOutcome)

  ghost predicate EnvOk(env: Env) {
    forall vars :: Enumerates(env.hashOrder(vars), vars)
  }

  /** One entry of the run summary (`StepResult`, without its clock readings). */
  datatype Step = Step(id: string, success: bool, status: Option<nat>, error: Option<StepError>)

  /** Dispatch on the node type; unknown types do nothing and succeed. */
  function Execute(env: Env, node: Node, ctx: Ctx): (r: Result<Ctx, StepError>)
    requires EnvOk(env)
    ensures node.nodeType !in {"http", "extract", "assert"} ==> r == Ok(ctx)
  {
    if node.nodeType == "start" then Ok(ctx)
    else if node.nodeType == "http" then ApplyHttp(node, ctx, env.http(node, ctx.vars))
    else if node.nodeType == "extract" then ExecuteExtract(node, ctx)
    else if node.nodeType == "assert" then ExecuteAssert(node, ctx, env.hashOrder(ctx.vars))
    else Ok(ctx)
  }

  /** Runs one node: a failed step leaves the context as it was; an HTTP step
      also reports the status code recorded under `<id>_status`. */
  function RunNode(env: Env, node: Node, ctx: Ctx): (res: (Step, Ctx))
    requires EnvOk(env)
    ensures res.0.id == node.id
    ensures res.0.success <==> res.0.error.None?
    ensures res.0.success <==> Execute(env, node, ctx).Ok?
    ensures !res.0.success ==> res.1 == ctx
    ensures node.nodeType != "http" ==> res.0.status.None?
  {
    var r := Execute(env, node, ctx);
    var ctx' := if r.Ok? then r.value else ctx;
    var status :=
      if node.nodeType == "http" && node.id + "_status" in ctx'.vars
      then ParseU16(ctx'.vars[node.id + "_status"]) else None;
    (Step(node.id, r.Ok?, status, if r.Err? then Some(r.error) else None), ctx')
  }

  /** A successful HTTP step reports the status code the server answered with. */
  lemma HttpStepStatus(env: Env, node: Node, ctx: Ctx)
    requires EnvOk(env) && node.nodeType == "http"
    requires env.http(node, ctx.vars).Responded? && env.http(node, ctx.vars).status < 65536
    ensures RunNode(env, node, ctx).0.status == Some(env.http(node, ctx.vars).status)
  {
    ParseU16Status(env.http(node, ctx.vars).status);
  }

  /** Runs the nodes in the given order, threading the context. */
  function RunSteps(env: Env, nodes: seq<Node>, ctx: Ctx): (res: (seq<Step>, Ctx))
    requires EnvOk(env)
    ensures |res.0| == |nodes|
    ensures forall i :: 0 <= i < |nodes| ==> res.0[i].id == nodes[i].id
    ensures forall i :: 0 <= i < |nodes| ==> (res.0[i].success <==> res.0[i].error.None?)
    ensures forall i :: 0 <= i < |nodes| && nodes[i].nodeType !in {"http", "extract", "assert"}
              ==> res.0[i].success
  {
    if nodes == [] then ([], ctx)
    else
      var (step, ctx1) := RunNode(env, nodes[0], ctx);
      var (rest, ctx2) := RunSteps(env, nodes[1..], ctx1);
      ([step] + rest, ctx2)
  }

  /** `Iterator::all(|s| s.success)`. */
  function AllOk(steps: seq<Step>): (r: bool)
    ensures r <==> forall i :: 0 <= i < |steps| ==> steps[i].success
  {
    if steps == [] then true
    else
      assert forall i :: 1 <= i < |steps| ==> steps[i] == steps[1..][i - 1];
      steps[0].success && AllOk(steps[1..])
  }

  /** How an input value enters the variable table: strings verbatim, anything
      else as its JSON text. */
  function InputText(v: Json.Value): string {
    match Json.AsStr(v)
    case Some(s) => s
    case None => Json.Text(v)
  }

  /** Loads the members of an object input into the variables; any other input
      loads nothing. */
  function Ingest(input: Json.Value): Vars {
    if input.Obj? then IngestFields(input.fields, map[]) else map[]
  }

  function IngestFields(fields: seq<Json.Field>, vars: Vars): Vars
    decreases |fields|
  {
    if fields == [] then vars
    else IngestFields(fields[1..], vars[fields[0].key := InputText(fields[0].value)])
  }

  /** With distinct member keys, the variables are exactly the members, each
      holding the text of its value. */
  lemma {:induction false} IngestFieldsLookup(fields: seq<Json.Field>, vars: Vars)
    requires Json.UniqueKeys(fields)
    ensures var r := IngestFields(fields, vars);
            (forall k :: k in r <==> k in vars || exists i :: 0 <= i < |fields| && fields[i].key == k)
            && (forall i :: 0 <= i < |fields| ==> r[fields[i].key] == InputText(fields[i].value))
            && (forall k :: k in vars && (forall i :: 0 <= i < |fields| ==> fields[i].key != k) ==> r[k] == vars[k])
    decreases |fields|
  {
    if fields != [] {
      var rest := fields[1..];
      assert forall i :: 1 <= i < |fields| ==> fields[i] == rest[i - 1];
      assert Json.UniqueKeys(rest);
      IngestFieldsLookup(rest, vars[fields[0].key := InputText(fields[0].value)]);
    }
  }

  /** The result of `run_once` without its clock readings and instance id. */
  datatype RunResult = RunResult(success: bool, errorMessage: Option<string>, steps: seq<Step>, vars: Vars)

  /** `run_once`: load the input, order the graph, run every node in that
      order with the context threaded from the loaded input, and report the
      steps, the final variables, and success only when every step succeeded. */
  method RunOnce(env: Env, g: Graph, input: Json.Value) returns (r: Result<RunResult, string>)
    requires EnvOk(env)
    ensures r.Err? <==> Topo.AllHaveInEdges(g)
    ensures r.Err? ==> r.error == "graph is empty or invalid"
    ensures r.Ok? ==> |r.value.steps| > 0
    ensures r.Ok? ==> exists order: seq<Node> :: Topo.ValidOrder(g, order) && Topo.Closed(g, order)
                        && |order| == |r.value.steps|
                        && (forall i :: 0 <= i < |order| ==> r.value.steps[i].id == order[i].id)
                        && var run := RunSteps(env, order, Ctx(Ingest(input), None));
                           r.value.steps == run.0 && r.value.vars == run.1.vars
    ensures r.Ok? ==> (r.value.success <==> forall i :: 0 <= i < |r.value.steps| ==> r.value.steps[i].success)
    ensures r.Ok? ==> (r.value.errorMessage == if r.value.success then None else Some("one or more steps failed"))
  {
    var ordered := Topo.TopologicalOrder(g);
    match ordered
    case Err(e) =>
      r := Err(e);
    case Ok(nodes) =>
      var (steps, ctx) := RunSteps(env, nodes, Ctx(Ingest(input), None));
      var allOk := AllOk(steps);
      r := Ok(RunResult(allOk, if allOk then None else Some("one or more steps failed"), steps, ctx.vars));
  }
}

=== FILE: workflow_editor.dfy ===
/** The reusable workflow editor: it follows a `workflowId` property, loading
    that definition or resetting to a new one, and reports successful saves to
    its parent. Run and AI generation are the shared handlers. A load reply is
    applied whenever it arrives, whichever id it was for. */
module WorkflowEditor {
  import opened Wrappers
  import Strings
  import Json
  import opened WorkflowClient

  function EditorEndpoints(apiBaseUrl: string): Endpoints {
    Endpoints(
      apiBaseUrl + "/plugin-api/workflow-engine/definitions",
      apiBaseUrl + "/plugin-api/workflow-engine/workflow/run",
      apiBaseUrl + "/plugin-api/workflow-engine/workflow/instances/",
      apiBaseUrl + "/plugin-api/workflow-engine/workflow/ai-generate")
  }

  /** The state before the first effect: the id is the property, the rest is
      empty. */
  function Initial(workflowId: Option<int>): Designer {
    Designer(Json.Arr([]), workflowId, "", "", None, Json.Null, false, false, false)
  }

  /** The effect run when `workflowId` changes. The id always follows the
      property. A truthy id starts a load of that definition and touches
      nothing else; a missing or zero id resets to an untitled empty workflow
      without any request. */
  function OnWorkflowId(s: Designer, e: Endpoints, workflowId: Option<int>): (r: (Designer, Effects))
    ensures r.0.id == workflowId
    ensures r.0.defs == s.defs && r.0.saving == s.saving && r.0.running == s.running
    ensures r.1.alerts == [] && r.1.saved == []
    ensures HasId(r.0) ==>
              r.0.loading && r.0.name == s.name && r.0.desc == s.desc && r.0.graph == s.graph
              && r.0.instance == s.instance
              && r.1.requests == [Request("GET", e.definitions + "/" + Strings.IntToString(workflowId.value), None)]
    ensures !HasId(r.0) ==>
              r.0.loading == s.loading && r.0.name == Untitled && r.0.desc == "" && r.0.graph == Some(EmptyGraph)
              && r.0.instance == Json.Null && r.1.requests == []
  {
    var t := s.(id := workflowId);
    if HasId(t) then
      (t.(loading := true),
       Effects([Request("GET", e.definitions + "/" + Strings.IntToString(workflowId.value), None)], [], []))
    else
      (t.(name := Untitled, desc := "", graph := Some(EmptyGraph), instance := Json.Null), NoEffects)
  }

  const LoadFailed: string := "加载工作流失败"

  /** A load reply arriving. Success replaces name, description and graph and
      drops any run result; failure alerts. Loading is over either way, and
      the id is not compared with the definition's. */
  function FinishLoad(s: Designer, reply: Result<Definition, string>): (r: (Designer, Effects))
    ensures !r.0.loading
    ensures r.0.id == s.id && r.0.defs == s.defs && r.0.saving == s.saving && r.0.running == s.running
    ensures reply.Ok? ==>
              r.0.name == reply.value.name && r.0.desc == reply.value.description.GetOr("")
              && r.0.graph == Some(reply.value.lfJson) && r.0.instance == Json.Null && r.1 == NoEffects
    ensures reply.Err? ==>
              r.0 == s.(loading := false) && r.1 == Effects([], [LoadFailed], [])
  {
    match reply
    case Ok(d) =>
      (s.(name := d.name, desc := d.description.GetOr(""), graph := Some(d.lfJson),
          instance := Json.Null, loading := false), NoEffects)
    case Err(_) => (s.(loading := false), Effects([], [LoadFailed], []))
  }

  /** `handleSave`: like the page's, but with no list reload. On success the
      id is adopted and the parent is told it once; a failure makes no
      callback. */
  function Save(s: Designer, e: Endpoints, reply: Result<int, string>): (r: (Designer, Designer, Effects))
    ensures !HasGraph(s) ==> r == (s, s, NoEffects)
    ensures HasGraph(s) ==> r.0 == s.(saving := true) && !r.1.saving
    ensures HasGraph(s) ==> r.2.requests == [Request("POST", e.definitions, Some(SaveBody(s)))]
    ensures r.1.name == s.name && r.1.desc == s.desc && r.1.graph == s.graph && r.1.instance == s.instance
    ensures r.1.running == s.running && r.1.loading == s.loading && r.1.defs == s.defs
    ensures r.1.id == if HasGraph(s) && reply.Ok? then Some(reply.value) else s.id
    ensures r.2.saved == if HasGraph(s) && reply.Ok? then [reply.value] else []
    ensures HasGraph(s) ==> r.2.alerts == [if reply.Ok? then SaveOk else SaveFailed]
  {
    if !HasGraph(s) then (s, s, NoEffects)
    else
      var busy := s.(saving := true);
      var post := Request("POST", e.definitions, Some(SaveBody(s)));
      match reply
      case Err(_) => (busy, busy.(saving := false), Effects([post], [SaveFailed], []))
      case Ok(newId) => (busy, busy.(id := Some(newId), saving := false), Effects([post], [SaveOk], [newId]))
  }

  /** The save button needs a graph and no save under way; the run button an
      id and no run under way. */
  predicate SaveDisabled(s: Designer) {
    s.saving || !HasGraph(s)
  }

  predicate RunDisabled(s: Designer) {
    s.running || !HasId(s)
  }

  /** An enabled save button always sends exactly one request. */
  lemma EnabledSaveSends(s: Designer, e: Endpoints, reply: Result<int, string>)
    requires !SaveDisabled(s)
    ensures |Save(s, e, reply).2.requests| == 1
  {
  }

  /** Switching from workflow `a` to workflow `b` before `a` has loaded, then
      receiving `a`'s definition, shows `a`'s content under `b`'s id. */
  lemma StaleLoadApplied(s: Designer, e: Endpoints, a: int, b: int, defA: Definition)
    requires a != 0 && b != 0 && defA.id == a
    ensures var s1 := OnWorkflowId(s, e, Some(a)).0;
            var s2 := OnWorkflowId(s1, e, Some(b)).0;
            var s3 := FinishLoad(s2, Ok(defA)).0;
            s3.id == Some(b) && s3.name == defA.name && s3.graph == Some(defA.lfJson)
  {
    var s1 := OnWorkflowId(s, e, Some(a)).0;
    assert HasId(s1);
    var s2 := OnWorkflowId(s1, e, Some(b)).0;
    assert HasId(s2);
  }

  /** A zero id counts as no id: the editor resets and asks for nothing. */
  lemma ZeroIdResets(s: Designer, e: Endpoints)
    ensures var r := OnWorkflowId(s, e, Some(0));
            r.1.requests == [] && r.0.name == Untitled && r.0.graph == Some(EmptyGraph)
  {
    assert !HasId(OnWorkflowId(s, e, Some(0)).0);
  }

  /** An AI reply without `lf_json` leaves the graph undefined, which
      disables saving until a graph comes back. */
  lemma AiWithoutGraphBlocksSave(s: Designer, e: Endpoints, prompt: string, reply: seq<Json.Field>)
    requires Json.Find(reply, "lf_json").None?
    ensures SaveDisabled(AiGenerate(s, e, prompt, Ok(Json.Obj(reply))).0)
    ensures Save(AiGenerate(s, e, prompt, Ok(Json.Obj(reply))).0, e, Ok(1)).2 == NoEffects
  {
  }
}

=== FILE: workflow_engine.dfy ===
/** The workflow-engine plugin's service logic over its two tables:
    definitions (saved LogicFlow JSON) and instances (simulated runs), plus the
    rule-based graph generator. Tables are maps keyed by their AUTOINCREMENT id;
    a stored text column is either readable or garbage. */
module WorkflowEngine {
  import opened Wrappers
  import Strings
  import Json

  /** A text column read back through a parser (JSON or an RFC 3339 time). */
  datatype Cell<T> = Readable(value: T) | Garbage(raw: string)

  datatype DefRow = DefRow(name: string, description: Option<string>, lfJson: Cell<Json.Value>,
                           createdAt: Cell<int>, updatedAt: Cell<int>)

  /** One simulated step, as stored in an instance's `steps` array. */
  datatype StepRecord = StepRecord(nodeId: string, nodeType: string, status: string, message: string)

  datatype InstanceRow = InstanceRow(workflowId: int, status: string, steps: seq<StepRecord>,
                                     startedAt: int, finishedAt: Option<int>, error: Option<string>)

  /** Both tables with their next AUTOINCREMENT ids. */
  datatype Db = Db(defs: map<int, DefRow>, nextDef: int, instances: map<int, InstanceRow>, nextInstance: int)

  /** Ids are positive and below the next id to hand out. */
  ghost predicate Valid(db: Db) {
    db.nextDef >= 1 && db.nextInstance >= 1
    && (forall id :: id in db.defs ==> 1 <= id < db.nextDef)
    && (forall id :: id in db.instances ==> 1 <= id < db.nextInstance)
  }

  const Empty: Db := Db(map[], 1, map[], 1)

  lemma EmptyValid()
    ensures Valid(Empty) && Empty.defs == map[] && Empty.instances == map[]
  {
  }

  datatype SaveRequest = SaveRequest(id: Option<int>, name: string, description: Option<string>, lfJson: Json.Value)

  /** `save_definition`. With an id, the row's name, description, graph and
      update time are overwritten and that id is returned whether or not the row
      exists; without one, a fresh row is inserted with equal creation and update
      times. `dbError` is the outcome of the statement, failing changes nothing. */
  function SaveDefinition(db: Db, req: SaveRequest, now: int, dbError: Option<string>): (res: (Result<int, string>, Db))
    requires Valid(db)
    ensures Valid(res.1)
    ensures dbError.Some? ==> res == (Err(dbError.value), db)
    ensures dbError.None? && req.id.Some? ==>
              res.0 == Ok(req.id.value)
              && res.1.instances == db.instances && res.1.nextDef == db.nextDef
              && res.1.defs.Keys == db.defs.Keys
              && (forall i :: i in db.defs && i != req.id.value ==> res.1.defs[i] == db.defs[i])
              && (req.id.value in db.defs ==>
                    res.1.defs[req.id.value]
                    == DefRow(req.name, req.description, Readable(req.lfJson), db.defs[req.id.value].createdAt, Readable(now)))
    ensures dbError.None? && req.id.None? ==>
              res.0 == Ok(db.nextDef) && db.nextDef !in db.defs
              && res.1.defs == db.defs[db.nextDef := DefRow(req.name, req.description, Readable(req.lfJson), Readable(now), Readable(now))]
              && res.1.instances == db.instances
  {
    if dbError.Some? then (Err(dbError.value), db)
    else match req.id
      case Some(id) =>
        var defs := if id in db.defs
          then db.defs[id := db.defs[id].(name := req.name, description := req.description,
                                           lfJson := Readable(req.lfJson), updatedAt := Readable(now))]
          else db.defs;
        (Ok(id), db.(defs := defs))
      case None =>
        var id := db.nextDef;
        var row := DefRow(req.name, req.description, Readable(req.lfJson), Readable(now), Readable(now));
        (Ok(id), db.(defs := db.defs[id := row], nextDef := id + 1))
  }

  /** A definition as the API returns it. */
  datatype Definition = Definition(id: int, name: string, description: Option<string>, lfJson: Json.Value,
                                   createdAt: int, updatedAt: int)

  predicate Listable(row: DefRow) {
    row.lfJson.Readable? && row.createdAt.Readable? && row.updatedAt.Readable?
  }

  function View(id: int, row: DefRow): Definition
    requires Listable(row)
  {
    Definition(id, row.name, row.description, row.lfJson.value, row.createdAt.value, row.updatedAt.value)
  }

  /** The readable rows with ids in 1..n, highest first. */
  function ListDown(defs: map<int, DefRow>, n: int): (r: seq<Definition>)
    ensures forall i :: 0 <= i < |r| ==> 1 <= r[i].id <= n
    ensures forall i, j :: 0 <= i < j < |r| ==> r[i].id > r[j].id
    ensures forall i :: 0 <= i < |r| ==> r[i].id in defs && Listable(defs[r[i].id]) && r[i] == View(r[i].id, defs[r[i].id])
    decreases n
  {
    if n < 1 then []
    else
      var rest := ListDown(defs, n - 1);
      if n in defs && Listable(defs[n]) then
        var r := [View(n, defs[n])] + rest;
        assert forall i :: 1 <= i < |r| ==> r[i] == rest[i - 1];
        r
      else rest
  }

  /** Nothing readable is dropped: a row is listed exactly when it is readable. */
  lemma {:induction false} ListDownHas(defs: map<int, DefRow>, n: int, id: int)
    ensures (id in defs && 1 <= id <= n && Listable(defs[id]))
            <==> exists i :: 0 <= i < |ListDown(defs, n)| && ListDown(defs, n)[i].id == id
    decreases n
  {
    if n >= 1 {
      ListDownHas(defs, n - 1, id);
      var rest := ListDown(defs, n - 1);
      var r := ListDown(defs, n);
      if n in defs && Listable(defs[n]) {
        assert r == [View(n, defs[n])] + rest;
        if id == n {
          assert r[0].id == id;
        } else if exists i :: 0 <= i < |rest| && rest[i].id == id {
          var i :| 0 <= i < |rest| && rest[i].id == id;
          assert r[i + 1].id == id;
          assert id in defs && 1 <= id <= n - 1 && Listable(defs[id]);
          assert 0 <= i + 1 < |ListDown(defs, n)| && ListDown(defs, n)[i + 1].id == id;
        }
      }
    }
  }

  /** `list_definitions`: every definition, highest id first, silently
      dropping rows whose graph or times do not parse. */
  function ListDefinitions(db: Db, dbError: Option<string>): (r: Result<seq<Definition>, string>)
    requires Valid(db)
    ensures dbError.Some? <==> r.Err?
    ensures r.Ok? ==> forall i, j :: 0 <= i < j < |r.value| ==> r.value[i].id > r.value[j].id
    ensures r.Ok? ==> forall i :: 0 <= i < |r.value| ==>
                        r.value[i].id in db.defs && Listable(db.defs[r.value[i].id])
                        && r.value[i] == View(r.value[i].id, db.defs[r.value[i].id])
  {
    if dbError.Some? then Err(dbError.value) else Ok(ListDown(db.defs, db.nextDef - 1))
  }

  /** A successful listing holds every readable definition and nothing else. */
  lemma ListDefinitionsComplete(db: Db, id: int)
    requires Valid(db)
    ensures var r := ListDefinitions(db, None);
            r.Ok? && ((id in db.defs && Listable(db.defs[id])) <==> exists i :: 0 <= i < |r.value| && r.value[i].id == id)
  {
    ListDownHas(db.defs, db.nextDef - 1, id);
  }

  /** Why reading one definition fails. */
  datatype ReadError = NotFound | Unreadable | DbError(message: string)

  /** `get_definition`: the row, or an error when the query fails, the row
      is missing or it does not parse. `dbError` is the outcome of the query. */
  function GetDefinition(db: Db, id: int, dbError: Option<string>): (r: Result<Definition, ReadError>)
    ensures dbError.Some? ==> r == Err(DbError(dbError.value))
    ensures r.Ok? <==> dbError.None? && id in db.defs && Listable(db.defs[id])
    ensures r.Ok? ==> r.value == View(id, db.defs[id])
    ensures r == Err(NotFound) <==> dbError.None? && id !in db.defs
  {
    if dbError.Some? then Err(DbError(dbError.value))
    else if id !in db.defs then Err(NotFound)
    else if !Listable(db.defs[id]) then Err(Unreadable)
    else Ok(View(id, db.defs[id]))
  }

  /** A saved definition reads back with the request's fields and the save's time. */
  lemma SaveThenGet(db: Db, req: SaveRequest, now: int)
    requires Valid(db) && req.id.None?
    ensures var res := SaveDefinition(db, req, now, None);
            res.0.Ok?
            && GetDefinition(res.1, res.0.value, None)
               == Ok(Definition(res.0.value, req.name, req.description, req.lfJson, now, now))
  {
  }

  /** A string member of a node, or the empty text when it is missing or
      not a string. */
  function TextMember(n: Json.Value, key: string): string {
    StrAt(n, key).GetOr("")
  }

  /** The simulated execution: one successful step per element of the graph's
      `nodes` array, with a missing `id` or `type` read as the empty text. */
  function SimulateSteps(nodes: seq<Json.Value>): (r: seq<StepRecord>)
    ensures |r| == |nodes|
    ensures forall i :: 0 <= i < |r| ==> r[i].status == "success" && r[i].message == "executed"
    ensures forall i :: 0 <= i < |r| ==>
              r[i].nodeId == TextMember(nodes[i], "id") && r[i].nodeType == TextMember(nodes[i], "type")
  {
    seq(|nodes|, i requires 0 <= i < |nodes| =>
      StepRecord(TextMember(nodes[i], "id"), TextMember(nodes[i], "type"), "success", "executed"))
  }

  /** The graph's `nodes` member when it is an array, else nothing. */
  function GraphNodes(lf: Json.Value): seq<Json.Value> {
    match Json.Get(lf, "nodes")
    case Some(Arr(items)) => items
    case _ => []
  }

  datatype RunResponse = RunResponse(instanceId: int, status: string)

  /** `run_workflow`: look the definition up (a failed query, an unknown id
      or an unreadable graph fails before anything is written), simulate every
      node, and insert one instance row. `selectError` is the outcome of the
      lookup and `insertError` that of the insert. */
  function RunWorkflow(db: Db, workflowId: int, startedAt: int, finishedAt: int,
                       selectError: Option<string>, insertError: Option<string>)
    : (res: (Result<RunResponse, ReadError>, Db))
    requires Valid(db)
    ensures Valid(res.1)
    ensures res.1.defs == db.defs
    ensures selectError.Some? ==> res == (Err(DbError(selectError.value)), db)
    ensures selectError.None? && workflowId !in db.defs ==> res == (Err(NotFound), db)
    ensures selectError.None? && workflowId in db.defs && db.defs[workflowId].lfJson.Garbage? ==>
              res == (Err(Unreadable), db)
    ensures res.0.Err? ==> res.1 == db
    ensures res.0.Ok? <==>
              selectError.None? && insertError.None? && workflowId in db.defs && db.defs[workflowId].lfJson.Readable?
    ensures res.0.Ok? ==>
              res.0.value == RunResponse(db.nextInstance, "success")
              && db.nextInstance !in db.instances
              && res.1.instances == db.instances[db.nextInstance := InstanceRow(
                   workflowId, "success", SimulateSteps(GraphNodes(db.defs[workflowId].lfJson.value)),
                   startedAt, Some(finishedAt), None)]
  {
    if selectError.Some? then (Err(DbError(selectError.value)), db)
    else if workflowId !in db.defs then (Err(NotFound), db)
    else match db.defs[workflowId].lfJson
      case Garbage(_) => (Err(Unreadable), db)
      case Readable(lf) =>
        var steps := SimulateSteps(GraphNodes(lf));
        var lastError: Option<string> := None;
        var status := if lastError.Some? then "failed" else "success";
        if insertError.Some? then (Err(DbError(insertError.value)), db)
        else
          var id := db.nextInstance;
          var row := InstanceRow(workflowId, status, steps, startedAt, Some(finishedAt), lastError);
          (Ok(RunResponse(id, status)), db.(instances := db.instances[id := row], nextInstance := id + 1))
  }

  /** `get_instance`: the row, or an error when the query fails or the row is
      missing. `dbError` is the outcome of the query. */
  function GetInstance(db: Db, id: int, dbError: Option<string>): (r: Result<InstanceRow, ReadError>)
    ensures dbError.Some? ==> r == Err(DbError(dbError.value))
    ensures r.Ok? <==> dbError.None? && id in db.instances
    ensures dbError.None? && id !in db.instances ==> r == Err(NotFound)
    ensures r.Ok? ==> r.value == db.instances[id]
  {
    if dbError.Some? then Err(DbError(dbError.value))
    else if id in db.instances then Ok(db.instances[id]) else Err(NotFound)
  }

  /** The instance a run reports reads back as a success with no error, one
      executed step per node of the definition's graph, and the run's times;
      no earlier instance changes. */
  lemma RunThenGetInstance(db: Db, workflowId: int, startedAt: int, finishedAt: int, other: int)
    requires Valid(db)
    requires workflowId in db.defs && db.defs[workflowId].lfJson.Readable?
    ensures var res := RunWorkflow(db, workflowId, startedAt, finishedAt, None, None);
            res.0.Ok?
            && GetInstance(res.1, res.0.value.instanceId, None)
               == Ok(InstanceRow(workflowId, "success", SimulateSteps(GraphNodes(db.defs[workflowId].lfJson.value)),
                                 startedAt, Some(finishedAt), None))
            && (other in db.instances ==> GetInstance(res.1, other, None) == GetInstance(db, other, None))
  {
  }

  // ---------------------------------------------------------- ai_generate

  const DefaultTitle: string := "新工作流"

  /** The generated graph's title: the trimmed prompt, or the default title
      when the prompt is blank. */
  function Title(prompt: string): (t: string)
    ensures t != []
    ensures Strings.IsBlank(prompt) ==> t == DefaultTitle
    ensures !Strings.IsBlank(prompt) ==> t == Strings.Trim(prompt)
  {
    Strings.TrimEmptyIffBlank(prompt);
    var trimmed := Strings.Trim(prompt);
    if trimmed == [] then DefaultTitle else trimmed
  }

  function TextOf(caption: string): Json.Value {
    Json.Obj([Json.Field("value", Json.Str(caption))])
  }

  function GenNode(id: string, nodeType: string, x: int, caption: string): Json.Value {
    Json.Obj([Json.Field("id", Json.Str(id)), Json.Field("type", Json.Str(nodeType)),
              Json.Field("x", Json.Num(x)), Json.Field("y", Json.Num(150)),
              Json.Field("text", TextOf(caption))])
  }

  function GenEdge(id: string, source: string, target: string): Json.Value {
    Json.Obj([Json.Field("id", Json.Str(id)), Json.Field("type", Json.Str("polyline")),
              Json.Field("sourceNodeId", Json.Str(source)), Json.Field("targetNodeId", Json.Str(target))])
  }

  function ApiLabel(title: string): string {
    "API 调用: " + title
  }

  /** `ai_generate`: a start → API call → end chain labelled with the title. */
  function AiGenerate(prompt: string): Json.Value {
    AiGraph(Title(prompt))
  }

  function AiGraph(title: string): Json.Value {
    var api := GenNode("api_1", "api-node", 260, ApiLabel(title));
    var props := Json.Obj([Json.Field("method", Json.Str("GET")),
                           Json.Field("url", Json.Str("https://api.example.com/health")),
                           Json.Field("timeout_ms", Json.Num(3000))]);
    Json.Obj([
      Json.Field("nodes", Json.Arr([
        GenNode("start_1", "start-node", 80, "开始"),
        Json.Obj(api.fields + [Json.Field("properties", props)]),
        GenNode("end_1", "end-node", 440, "结束")])),
      Json.Field("edges", Json.Arr([
        GenEdge("e1", "start_1", "api_1"),
        GenEdge("e2", "api_1", "end_1")]))])
  }

  /** The string member `key` of a JSON object, if any. */
  function StrAt(v: Json.Value, key: string): Option<string> {
    match Json.Get(v, key)
    case Some(Str(s)) => Some(s)
    case _ => None
  }

  lemma GenNodeMembers(id: string, nodeType: string, x: int, caption: string, extra: seq<Json.Field>)
    requires forall i :: 0 <= i < |extra| ==> extra[i].key !in {"id", "type", "x", "y", "text"}
    requires Json.UniqueKeys(extra)
    ensures var n := Json.Obj(GenNode(id, nodeType, x, caption).fields + extra);
            StrAt(n, "id") == Some(id) && Json.Get(n, "text") == Some(TextOf(caption))
  {
    var fs := GenNode(id, nodeType, x, caption).fields + extra;
    assert Json.UniqueKeys(fs);
    Json.FindUnique(fs, 0);
    Json.FindUnique(fs, 4);
  }

  lemma GenEdgeMembers(id: string, source: string, target: string)
    ensures StrAt(GenEdge(id, source, target), "sourceNodeId") == Some(source)
    ensures StrAt(GenEdge(id, source, target), "targetNodeId") == Some(target)
  {
    var fs := GenEdge(id, source, target).fields;
    Json.FindUnique(fs, 2);
    Json.FindUnique(fs, 3);
  }

  lemma AiGraphMembers(title: string)
    ensures GraphNodes(AiGraph(title)) == AiGraph(title).fields[0].value.items
    ensures Json.Get(AiGraph(title), "edges") == Some(AiGraph(title).fields[1].value)
  {
    Json.FindUnique(AiGraph(title).fields, 0);
    Json.FindUnique(AiGraph(title).fields, 1);
  }

  /** The generated nodes are start_1, api_1 and end_1, and the API node
      carries the title in its caption. */
  lemma AiGraphNodes(title: string)
    ensures var nodes := GraphNodes(AiGraph(title));
            |nodes| == 3
            && StrAt(nodes[0], "id") == Some("start_1") && StrAt(nodes[1], "id") == Some("api_1")
            && StrAt(nodes[2], "id") == Some("end_1")
            && Json.Get(nodes[1], "text") == Some(TextOf(ApiLabel(title)))
  {
    AiGraphMembers(title);
    var nodes := GraphNodes(AiGraph(title));
    var props := Json.Obj([Json.Field("method", Json.Str("GET")),
                           Json.Field("url", Json.Str("https://api.example.com/health")),
                           Json.Field("timeout_ms", Json.Num(3000))]);
    var extra := [Json.Field("properties", props)];
    assert nodes[0] == GenNode("start_1", "start-node", 80, "开始");
    assert nodes[1] == Json.Obj(GenNode("api_1", "api-node", 260, ApiLabel(title)).fields + extra);
    assert nodes[2] == GenNode("end_1", "end-node", 440, "结束");
    GenNodeId("start_1", "start-node", 80, "开始");
    GenNodeMembers("api_1", "api-node", 260, ApiLabel(title), extra);
    GenNodeId("end_1", "end-node", 440, "结束");
  }

  lemma GenNodeId(id: string, nodeType: string, x: int, caption: string)
    ensures StrAt(GenNode(id, nodeType, x, caption), "id") == Some(id)
  {
    Json.FindUnique(GenNode(id, nodeType, x, caption).fields, 0);
  }

  /** The generated edges chain start_1 → api_1 → end_1. */
  lemma AiGraphEdges(title: string)
    ensures var edges := match Json.Get(AiGraph(title), "edges") case Some(Arr(e)) => e case _ => [];
            |edges| == 2
            && StrAt(edges[0], "sourceNodeId") == Some("start_1") && StrAt(edges[0], "targetNodeId") == Some("api_1")
            && StrAt(edges[1], "sourceNodeId") == Some("api_1") && StrAt(edges[1], "targetNodeId") == Some("end_1")
  {
    AiGraphMembers(title);
    GenEdgeMembers("e1", "start_1", "api_1");
    GenEdgeMembers("e2", "api_1", "end_1");
  }

  /** `ai_generate` for any prompt: nodes start_1, api_1, end_1 joined by the
      edges start_1 → api_1 → end_1, the API node captioned with the title. */
  lemma AiGenerateShape(prompt: string)
    ensures var g := AiGenerate(prompt);
            var nodes := GraphNodes(g);
            var edges := match Json.Get(g, "edges") case Some(Arr(e)) => e case _ => [];
            |nodes| == 3 && |edges| == 2
            && StrAt(nodes[0], "id") == Some("start_1") && StrAt(nodes[1], "id") == Some("api_1")
            && StrAt(nodes[2], "id") == Some("end_1")
            && StrAt(edges[0], "sourceNodeId") == Some("start_1") && StrAt(edges[0], "targetNodeId") == Some("api_1")
            && StrAt(edges[1], "sourceNodeId") == Some("api_1") && StrAt(edges[1], "targetNodeId") == Some("end_1")
            && Json.Get(nodes[1], "text") == Some(TextOf("API 调用: " + Title(prompt)))
  {
    var t := Title(prompt);
    assert AiGenerate(prompt) == AiGraph(t);
    AiGraphNodes(t);
    AiGraphEdges(t);
  }
}

=== FILE: workflow_management.dfy ===
/** The dashboard's workflow management page: a list of definitions, one of
    them open in the designer, and the select/new/save/run/AI-generate
    handlers. Replies are parameters; nothing guards against a reply that
    arrives after the user has moved on. */
module WorkflowManagement {
  import opened Wrappers
  import Json
  import Fetch
  import opened WorkflowClient

  /** `VITE_API_BASE ?? default`: only an absent setting falls back, so an
      empty one gives relative URLs. */
  function ApiBase(env: Option<string>): (r: string)
    ensures env.Some? ==> r == env.value
    ensures env.None? ==> r == Fetch.DefaultApiBase
  {
    env.GetOr(Fetch.DefaultApiBase)
  }

  function PageEndpoints(base: string): Endpoints {
    Endpoints(
      base + "/plugin-api/workflow-engine/workflow/definitions",
      base + "/plugin-api/workflow-engine/workflow/run",
      base + "/plugin-api/workflow-engine/workflow/instances/",
      base + "/plugin-api/workflow-engine/workflow/ai-generate")
  }

  /** `loadDefinitions`: the list becomes the reply; a failure is not caught
      and leaves the list as it was. */
  function LoadDefinitions(s: Designer, e: Endpoints, reply: Result<Json.Value, string>): (r: (Designer, Effects))
    ensures r.0 == s.(defs := r.0.defs)
    ensures r.0.defs == if reply.Ok? then reply.value else s.defs
    ensures r.1 == Effects([Request("GET", e.definitions, None)], [], [])
  {
    (if reply.Ok? then s.(defs := reply.value) else s, Effects([Request("GET", e.definitions, None)], [], []))
  }

  /** `handleSelectDef`: the definition is opened and any shown run result
      is dropped; a missing description reads as empty. */
  function Select(s: Designer, d: Definition): (r: Designer)
    ensures r.id == Some(d.id) && r.name == d.name && r.desc == d.description.GetOr("")
    ensures r.graph == Some(d.lfJson) && r.instance == Json.Null
    ensures r.defs == s.defs && r.saving == s.saving && r.running == s.running && r.loading == s.loading
  {
    s.(id := Some(d.id), name := d.name, desc := d.description.GetOr(""), graph := Some(d.lfJson), instance := Json.Null)
  }

  /** `handleNew`: an unsaved, untitled, empty workflow. */
  function New(s: Designer): (r: Designer)
    ensures r.id.None? && r.name == Untitled && r.desc == "" && r.graph == Some(EmptyGraph)
    ensures r.instance == Json.Null
    ensures r.defs == s.defs && r.saving == s.saving && r.running == s.running && r.loading == s.loading
  {
    s.(id := None, name := Untitled, desc := "", graph := Some(EmptyGraph), instance := Json.Null)
  }

  /** `handleSave`. Without a graph nothing happens. Otherwise the body is
      posted; the returned id is adopted as soon as it arrives, then the list
      is reloaded, and only when both succeed is success announced, so a
      failed reload shows the failure alert although the id was adopted. The
      document itself is never changed. */
  function Save(s: Designer, e: Endpoints, saveReply: Result<int, string>, listReply: Result<Json.Value, string>)
    : (r: (Designer, Designer, Effects))
    ensures !HasGraph(s) ==> r == (s, s, NoEffects)
    ensures HasGraph(s) ==> r.0 == s.(saving := true) && !r.1.saving
    ensures HasGraph(s) ==>
              |r.2.requests| >= 1 && r.2.requests[0] == Request("POST", e.definitions, Some(SaveBody(s)))
    ensures r.1.name == s.name && r.1.desc == s.desc && r.1.graph == s.graph
    ensures r.1.instance == s.instance && r.1.running == s.running && r.1.loading == s.loading
    ensures r.1.id == if HasGraph(s) && saveReply.Ok? then Some(saveReply.value) else s.id
    ensures r.1.defs == if HasGraph(s) && saveReply.Ok? && listReply.Ok? then listReply.value else s.defs
    ensures HasGraph(s) ==> r.2.alerts == [if saveReply.Ok? && listReply.Ok? then SaveOk else SaveFailed]
    ensures HasGraph(s) && saveReply.Ok? ==> |r.2.requests| == 2 && r.2.requests[1] == Request("GET", e.definitions, None)
    ensures r.2.saved == []
  {
    if !HasGraph(s) then (s, s, NoEffects)
    else
      var busy := s.(saving := true);
      var post := Request("POST", e.definitions, Some(SaveBody(s)));
      assert SaveBody(busy) == SaveBody(s);
      match saveReply
      case Err(_) => (busy, busy.(saving := false), Effects([post], [SaveFailed], []))
      case Ok(newId) =>
        var adopted := busy.(id := Some(newId));
        var get := Request("GET", e.definitions, None);
        match listReply
        case Err(_) => (busy, adopted.(saving := false), Effects([post, get], [SaveFailed], []))
        case Ok(list) => (busy, adopted.(defs := list, saving := false), Effects([post, get], [SaveOk], []))
  }

  /** The save button is disabled only while saving; the run button while
      running or without an id. */
  predicate SaveDisabled(s: Designer) {
    s.saving
  }

  predicate RunDisabled(s: Designer) {
    s.running || !HasId(s)
  }

  /** Saving an opened definition posts it back under its own id, with its
      own graph, so the server updates that row. */
  lemma SaveSelectedUpdates(s: Designer, d: Definition, e: Endpoints, saveReply: Result<int, string>,
                            listReply: Result<Json.Value, string>)
    requires Truthy(d.lfJson)
    ensures var body := Save(Select(s, d), e, saveReply, listReply).2.requests[0].body;
            body.Some? && Json.Get(body.value, "id") == Some(Json.Num(d.id))
            && Json.Get(body.value, "lf_json") == Some(d.lfJson)
  {
    assert HasGraph(Select(s, d));
  }

  /** A new workflow's empty graph still counts as a graph: saving it posts
      an untitled body without an id, so the server inserts. */
  lemma SaveNewInserts(s: Designer, e: Endpoints, saveReply: Result<int, string>, listReply: Result<Json.Value, string>)
    ensures var body := Save(New(s), e, saveReply, listReply).2.requests[0].body;
            body.Some? && Json.Get(body.value, "id") == Some(Json.Null)
            && Json.Get(body.value, "name") == Some(Json.Str(Untitled))
            && Json.Get(body.value, "lf_json") == Some(EmptyGraph)
  {
    assert HasGraph(New(s));
  }

  /** A new workflow cannot be run before it is saved: the run button is
      disabled, and the handler alone only alerts. */
  lemma NewCannotRun(s: Designer, e: Endpoints, runReply: Result<int, string>, instReply: Result<Json.Value, string>)
    ensures RunDisabled(New(s))
    ensures Run(New(s), e, runReply, instReply).2 == Effects([], [SaveFirst], [])
  {
  }

  /** After a successful save the run button is enabled unless a run is
      under way or the server answered with id 0. */
  lemma SavedCanRun(s: Designer, e: Endpoints, newId: int, listReply: Result<Json.Value, string>)
    requires HasGraph(s) && !s.running && newId != 0
    ensures !RunDisabled(Save(s, e, Ok(newId), listReply).1)
  {
  }
}

=== FILE: wrappers.dfy ===
/** Failure-carrying values shared by every module of the model. */
module Wrappers {

  /** A value that may be absent: Rust's `Option`, TypeScript's `T | null | undefined`. */
  datatype Option<+T> = None | Some(value: T) {

    /** The wrapped value, or `default` when absent (Rust `unwrap_or`, TypeScript `??`). */
    function GetOr(default: T): T {
      match this
      case Some(v) => v
      case None => default
    }

    /** This value if present, else `other` (Rust `or` / `or_else`). */
    function OrElse(other: Option<T>): Option<T> {
      match this
      case Some(_) => this
      case None => other
    }
  }

  /** The outcome of an operation that can fail with an error of type `E`. */
  datatype Result<+T, +E> = Ok(value: T) | Err(error: E) {

    function ToOption(): Option<T> {
      match this
      case Ok(v) => Some(v)
      case Err(_) => None
    }
  }
}
